=== FILE: README.md ===
# volleycourt-appointment-back, modelled in Dafny

This is a functional model of the back end of a volleyball-court booking
shop. The back end is an Express application backed by mongoose. It sells
volleyball products and publishes bookable court time slots ("appointments").
The model covers five pieces:

- **List queries** of the product and time-slot controllers. `parseInt`
  reads the query string with `|| default` fallbacks. A case-insensitive
  search runs over two fields, optionally restricted to published records.
  Then come a sort on one field (ties kept in collection order),
  `skip`/`limit` paging, and the `total` count.
- **Single-record handlers.** `getId`, `edit` and `create` each have an
  `isMongoId` check, an ObjectId cast, update validators, `orFail`, and a
  `catch` block that maps each thrown error to a status and message.
- **Schemas.** The product, time-slot and user schemas have `required`,
  `enum`, `min`, `minlength`/`maxlength` and custom validators. Defaults are
  applied, and the first path in the `ValidationError` gives the reported
  message. For a new document, unset required paths come first, the last
  declared first; the paths the body sets follow in schema order, then the
  defaulted paths, then the array elements. Update validators take the
  present paths in schema order. The user schema adds the `cartQuantity` virtual and the
  `pre('save')` password rule.
- **Passport strategies.** The `jwt` strategy has an expiry exemption for
  `/users/logout` and `/users/extend`, followed by a token lookup. The
  `login` strategy answers "no account" first, then "wrong password".
- **Routing and edge handlers.** The per-route guard chains are a data
  table, with Express's first-match dispatch (case-insensitive, optional
  trailing slash). The `admin` gate, the CORS origin predicate, the 403,
  400 and 404 edge handlers and the composition `Serve` complete the model.

The store is a sequence of documents (`Store.Db`). `Unreachable` stands for
any store failure, which every handler reports as 500 '未知錯誤'. Request
bodies use `Field<T> = Missing | Null | Given(v)`. mongoose applies defaults
only to a missing key, and it strips missing keys from an update.

Several things are parameters of the model rather than definitions:

- the regular-expression engine (`ListQuery.Regex`);
- the sort rank of fields other than the timestamps;
- `validator.isEmail`;
- bcrypt's `compareSync` and `hash`;
- the upload middleware's file path;
- the clock (`now`, `nowMs`);
- the fresh ObjectId of a new document;
- the verdicts of the guards whose code is not part of this model: `auth.jwt` and `auth.login` come as `App.Context`, the signed payload as `Passport.Payload`.

## Model

| member | source | states |
|---|---|---|
| Admin.Gate | middlewares/admin.js:5-15 | The gate calls `next()` exactly for the administrator role. It answers every other role with 403 '權限不足'. |
| Admin.GateOutcomes | middlewares/admin.js:5-15 | The gate calls `next()` exactly when the role is the administrator's. Every other role, and a missing role, gets 403 '權限不足'. |
| ListQuery.TextOr | controllers/products.js:35 | A non-empty query value is used as given. The result differs from the fallback only when it is the given value. |
| ListQuery.IntOr | controllers/products.js:37-41 | A non-zero fallback never gives 0. A non-zero parsed value is kept, and any result other than the fallback is the parsed value. |
| ListQuery.ReadParams | controllers/products.js:35-43 | The sort field is never empty. Sort order, page size and page are never 0. The search text is the query's, or '' when absent. |
| ListQuery.List | controllers/products.js:33-78 | A successful list needs a reachable store, a compiling search and a sort order of ±1, and carries a page. Every failure is 500 '未知錯誤'. A skip left to the store is negative. |
| ListQuery.ReadParamsDefaults | controllers/products.js:35-43 | With no query, or with parameters that parse to NaN or 0, the list reads `createdAt`, descending, 20 per page, page 1, empty search. |
| ListQuery.ReadParamsKeepsNonZero | controllers/appointments.js:36-40 | A non-zero integer written in decimal survives `parseInt(...) \|\| default` unchanged for `sortOrder`, `itemsPerPage` and `page`. |
| ListQuery.LimitOf | controllers/products.js:60 | `itemsPerPage` -1, and only -1, means no limit. A positive value is the page size. |
| ListQuery.Window | controllers/products.js:58-60 | The page is the run of the sorted results starting at `skip`. It is empty past the end and at most `limit` long. It is exactly `limit` long when enough results follow, and a short last page holds every result after `skip`. |
| ListQuery.ListOutcome | controllers/products.js:33-78 | A list succeeds exactly when the search compiles, the sort order is ±1, the skip is non-negative and the store answers. A negative skip is left to the store. Every other failure is 500 '未知錯誤'. |
| ListQuery.MatchedAreSelected | controllers/products.js:48-54 | Every matched record comes from the store and satisfies the search filter. |
| ListQuery.ListedRecordsAreSelected | controllers/appointments.js:46-52 | Every listed record is a stored record that the search selects. |
| ListQuery.PublicListOnlyPublished | controllers/products.js:96-104 | The public list never returns an unpublished record. |
| ListQuery.UnlimitedFirstPageIsComplete | controllers/products.js:56-60 | With `itemsPerPage=-1` and no page, the page holds every matched record, as a permutation. |
| ListQuery.PageSizeBound | controllers/appointments.js:56-58 | A page never exceeds `itemsPerPage`. It is full whenever enough matches lie beyond the skip. A short last page holds exactly the matches past the skip, and a page past the end is empty. |
| ListQuery.PageIsOffsetRun | controllers/products.js:56-60 | The k-th listed record is the (skip+k)-th record of the sorted matches. |
| ListQuery.WindowKeepsOrder | controllers/products.js:58-60 | Skipping and limiting keep the sort order. |
| ListQuery.ListIsOrdered | controllers/products.js:56 | The listed records are ordered by the sort field, ascending for 1 and descending for -1. |
| ListQuery.DefaultListNewestFirst | controllers/appointments.js:34-36 | Without a query, the list is newest first by `createdAt`. |
| ListQuery.TotalIgnoresQuery | controllers/products.js:63 | `total` ignores search and paging. It is the number of all records for the back-office list, and of published ones for the public list. |
| ListQuery.EmptySearchSelectsScope | controllers/products.js:43 | An empty search selects every record in scope. |
| ProductsController.SearchIsNameOrDescription | controllers/products.js:96-104 | A product is selected exactly when it is on sale (public list only) and its name or its description matches. |
| ProductsController.GetOnlyOnSale | controllers/products.js:98 | The public product list holds only products with `sell` true. |
| ProductsController.GetAllTotal | controllers/products.js:63 | The back-office total is the size of the whole collection. |
| ProductsController.GetTotal | controllers/products.js:113 | The public total counts the products on sale. |
| ProductsController.GetId | controllers/products.js:131-166 | A found product is stored, and its id names the same ObjectId as the requested one (hex letter case ignored). A failure carries no result and one of 'ID 格式錯誤', '查無商品' or '未知錯誤'. |
| ProductsController.Create | controllers/products.js:6-30 | A create succeeds exactly with an uploaded file, a reachable store and a valid body. The new product is valid, has the upload's path as image, and is appended. A failed create keeps the store. |
| ProductsController.Edit | controllers/products.js:169-208 | A failed edit keeps the store. A successful one passed the update validators, found the requested ObjectId (hex letter case ignored), and keeps the number of products. |
| ProductsController.CreateWithoutFile | controllers/products.js:6-30 | A create without an uploaded file fails with 500 '未知錯誤' (`req.file.path` throws) and stores nothing. |
| ProductsController.CreateStoresUploadedImage | controllers/products.js:8-14 | A successful create stores the uploaded path as the image. It appends one valid product with the fresh id and time. |
| ProductsController.CreateValidationMessage | controllers/products.js:15-22 | A failed validation answers 400 with the first failing path's message. |
| ProductsController.CreateKeepsCatalogValid | controllers/products.js:6-30 | Creating keeps every stored product valid against the schema. |
| ProductsController.EditKeepsCatalogValid | controllers/products.js:169-208 | Editing with update validators keeps every stored product valid. |
| ProductsController.EditImageComesFromUpload | controllers/products.js:176 | After an edit, the image is the new upload if there is one; otherwise it is unchanged. |
| AppointmentsController.SearchIsHeightOrTag | controllers/appointments.js:92-99 | A time slot is selected exactly when it is online (public list only) and its net height or one of its info tags matches. |
| AppointmentsController.GetOnlyOnline | controllers/appointments.js:94 | The public list holds only online time slots. |
| AppointmentsController.GetTotal | controllers/appointments.js:108 | The public total counts the online time slots. |
| AppointmentsController.GetId | controllers/appointments.js:155-190 | A found slot is stored, and its id names the same ObjectId as the requested one (hex letter case ignored). A failure carries no result and one of the three failure messages. |
| AppointmentsController.Create | controllers/appointments.js:6-29 | A create succeeds exactly with a reachable store and a valid body. The new slot is the validated body, valid, and appended. A failed create keeps the store. |
| AppointmentsController.Edit | controllers/appointments.js:193-231 | A failed edit keeps the store. A successful one passed the update validators, found the requested ObjectId (hex letter case ignored), and keeps the number of slots. |
| AppointmentsController.CreateAppliesDefaults | controllers/appointments.js:6-13 | A created slot is valid. Court 'A', empty info and online apply when those keys are missing. The slot is appended to the store. |
| AppointmentsController.CreateKeepsScheduleValid | controllers/appointments.js:6-29 | Creating keeps every stored slot valid. |
| AppointmentsController.EditKeepsScheduleValid | controllers/appointments.js:193-231 | Editing keeps every stored slot valid. |
| AppointmentsController.TakeOffline | controllers/appointments.js:200 | A successful `{online: false}` edit changes only the addressed slot, and only its `online` flag. |
| Crud.CatchBlocksAgree | controllers/products.js:183-207 | The `edit` catch agrees with `getId`'s on every non-validation failure and with `create`'s on validation failures. No catch reports success. |
| Crud.FindDoc | controllers/products.js:133-139 | A found document is in the store, and its id names the same ObjectId as the requested one (hex letter case ignored). |
| Crud.GetId | controllers/products.js:131-166 | Success is 200 with a stored document whose id names the requested ObjectId. A failure carries no result and is 400 'ID 格式錯誤', 404 with the not-found message, or 500 '未知錯誤'. 500 is answered exactly for a well-formed id and an unreachable store. |
| Crud.GetIdOutcomes | controllers/products.js:131-166 | 400 'ID 格式錯誤' exactly for ids that are not 24 hex digits, without consulting the store. 404 exactly when no document's id names the same ObjectId, hex letter case ignored. 200 with a stored document of that ObjectId otherwise. |
| Crud.UpperCaseIdFound | controllers/products.js:136 | A document stored under 'aaaaaaaaaaaaaaaaaaaaaaaa' is read (200) and edited through 'AAAAAAAAAAAAAAAAAAAAAAAA', because the id is cast to an ObjectId before the lookup. |
| Crud.Edit | controllers/appointments.js:193-231 | A failed edit leaves the store unchanged. A successful one answers 200 with no result, needs a well-formed id, passing validators and a reachable store, and keeps the store's size. |
| Crud.EditOutcomes | controllers/products.js:172-207 | Outcome order is bad id, then failing validator (even for an absent id), then 404 when no document has the ObjectId (hex letter case ignored). A successful edit changes exactly the addressed document and stamps `updatedAt`. |
| Crud.Create | controllers/appointments.js:6-29 | A create succeeds exactly when validation passes and the store answers. A validation failure answers with the first message. A success appends one document with both timestamps. |
| Store.FindIndex | controllers/products.js:136 | The lookup finds the first document whose id names the same ObjectId as the requested one (hex letter case ignored), or reports that none does. |
| Store.UpdateAt | controllers/products.js:177 | An update changes only the addressed document. |
| ProductSchema.ValidateNew | models/products.js:4-31 | A new product is accepted exactly when the name, image and description are non-empty, the price and sell are given, and the category is one of the six. |
| ProductSchema.CreateConditions | models/products.js:4-31 | Path by path, each check of a new product passes exactly under its schema rule. |
| ProductSchema.ValidatePatch | models/products.js:4-31 | An update passes exactly when each present path satisfies its rule. Missing paths are not checked. |
| ProductSchema.ApplyPatch | controllers/products.js:177 | `$set` of the update: every path given in the body takes the given value, and every path missing from it keeps its stored value. |
| ProductSchema.PatchKeepsValidity | models/products.js:4-31 | A valid product stays valid under an update that passes the update validators. |
| ProductSchema.LastMissingReportedFirst | models/products.js:4-31 | On a new product, the missing path declared last is reported, whatever else fails. |
| ProductSchema.FirstFailingReported | models/products.js:4-31 | On a new product with every path present, the first failing path in declaration order is reported. |
| ProductSchema.MissingNameReportedFirst | models/products.js:4-7 | With the other paths present, a missing, null or empty name is the first message reported. |
| ProductSchema.MissingPriceBeforeName | models/products.js:4-11 | A body with neither name nor price is told '缺少商品價格': unset paths come last declared first. |
| ProductSchema.UnknownCategoryMessage | models/products.js:20-27 | A category outside the list is reported as '商品分類錯誤' when the earlier paths pass and `sell` is present. |
| ProductSchema.MissingSellFails | models/products.js:28-31 | A missing `sell` is refused, with no default. |
| ProductSchema.PriceIsUnconstrained | models/products.js:8-11 | Any price, negative included, is accepted. |
| AppointmentSchema.CourtCheck | models/appointments.js:3-10 | The court passes exactly when it is 'A' or '未開放'. |
| AppointmentSchema.PeopleCheck | models/appointments.js:23-27 | `peoplenumber` passes exactly when it is given and at least 0. |
| AppointmentSchema.HeightCheck | models/appointments.js:28-35 | The height passes exactly when it is '女網' or '男網'. |
| AppointmentSchema.CheckConditions | models/appointments.js:3-48 | Path by path, in both modes, each validator passes exactly under its schema rule. Under update validators, a missing path passes. The per-tag `enum` check of `info` comes after `online`, as array element paths follow the top-level paths. |
| AppointmentSchema.TagCheck | models/appointments.js:36-43 | The tag check passes exactly when every given tag is one of the listed descriptions, and fails with '請選擇說明敘述'. |
| AppointmentSchema.ValidateNew | models/appointments.js:3-48 | A new slot is accepted exactly when, after defaults, every path satisfies its rule. The stored slot is the body with the defaults filled in, field for field. |
| AppointmentSchema.ValidatePatch | models/appointments.js:3-48 | An update passes exactly when each present path satisfies its rule. |
| AppointmentSchema.PatchKeepsValidity | models/appointments.js:3-48 | A valid slot stays valid under a passing update. `online` is unchanged when missing. |
| AppointmentSchema.DefaultsApply | models/appointments.js:9 | A missing court, info and online default to 'A', no tags and `true`. |
| AppointmentSchema.LastMissingReportedFirst | models/appointments.js:3-48 | On a new slot, the missing required path declared last is reported, whatever else fails. The defaulted paths are never missing. |
| AppointmentSchema.FirstFailingReported | models/appointments.js:3-48 | On a new slot with no required path missing, the first failing path the body sets is reported, in declaration order. |
| AppointmentSchema.NullCourtFails | models/appointments.js:5 | A null court defeats the default and is reported with '場地，必填' when no required path is missing. |
| AppointmentSchema.MissingDateBeforeNullCourt | models/appointments.js:3-14 | With `court: null` and no `date`, '日期必填' is reported: missing paths come before set ones. |
| AppointmentSchema.NegativePlacesMessage | models/appointments.js:26 | A negative `peoplenumber` is reported with '開放名額不能小於0' when the earlier paths pass and `height` is present. |
| AppointmentSchema.UnknownHeightMessage | models/appointments.js:31-34 | An unknown height is reported with '請選擇女網/男網'. |
| AppointmentSchema.UnknownTagMessage | models/appointments.js:39-48 | An unknown info tag is reported with '請選擇說明敘述', unless `online` is null, whose message comes first. |
| AppointmentSchema.BeginEndUnchecked | models/appointments.js:15-22 | Swapping begin and end of a valid slot is still accepted: no ordering is enforced. |
| Validation.InScope | models/appointments.js:3-48 | Under update validators, a missing path is not validated. Otherwise the path's check applies. |
| Validation.WithDefault | models/appointments.js:9 | A default fills exactly a missing key. |
| Validation.RequiredString | models/products.js:4-7 | A required string fails exactly when it is missing, null or empty, with its message. |
| Validation.Required | models/products.js:8-11 | A required value fails exactly when it is missing or null, with its message. |
| Validation.Gather | controllers/products.js:16-18 | No error is gathered exactly when every path passes. Otherwise the first error (`Object.keys(errors)[0]`) is that of the first failing path in the order the paths are validated. |
| Validation.OriginOf | models/appointments.js:3-14 | A path is unset exactly when its key is missing and it has no default, and set exactly when its key is present (`null` included). |
| Validation.CreateOrder | models/products.js:4-31 | A new document validates exactly its own paths: unset required ones last declared first, then set ones, defaulted ones and array elements. |
| Validation.CreateOrderVerdict | models/products.js:4-31 | The order of a new document's paths decides which message comes first, never whether the document is valid. |
| Validation.FirstUnsetReported | models/products.js:4-31 | When a required path is unset, the last unset one in declaration order is reported. |
| Validation.FirstAssignedReported | models/products.js:4-31 | With no required path unset, the first failing path the body sets is reported. |
| Validation.OnlyFailureReported | models/appointments.js:36-43 | A path that is the only one to fail is reported, wherever the order puts it. |
| Validation.GatherFirst | controllers/appointments.js:15-18 | The reported message is that of the first failing path. |
| UserSchema.CartQuantity | models/users.js:69-74 | Non-negative quantities give a non-negative `cartQuantity`. All-zero quantities give 0. |
| UserSchema.AccountCheck | models/users.js:19-33 | The account passes exactly when it is given, 4 to 12 UTF-16 units long and alphanumeric. Otherwise one of the four account messages is reported, the charset one when the length is right. |
| UserSchema.EmailCheck | models/users.js:34-44 | The e-mail passes exactly when it is given, non-empty and accepted by `isEmail`. |
| UserSchema.CartQuantityAppend | models/users.js:69-74 | `cartQuantity` is additive over a split cart. |
| UserSchema.CartQuantityAtLeastLines | models/users.js:69-74 | Quantities of at least one give a `cartQuantity` of at least the number of lines. |
| UserSchema.SumQuantities | models/users.js:71-73 | The left-to-right `reduce` computes `cartQuantity`. |
| UserSchema.PreSave | models/users.js:76-91 | An unchanged password is kept. A changed one of 4 to 12 UTF-16 units is hashed. Any other length stops the save with the length message. A successful save changes nothing but the password. |
| UserSchema.PreSaveAsWritten | models/users.js:82-86 | The hook as written: same outcomes as `PreSave`. On a wrong length, the error holds one `password` entry saying 'Validation failed' when `addError` keeps a nested error, and no entry at all when `addError` flattens it. |
| UserSchema.LengthMessageLostAsWritten | models/users.js:82-86 | As written, a wrong-length password is never reported with the length message, under either `addError` behaviour. Nested, the first message is 'Validation failed'; flattened, the error has no entries. |
| UserSchema.ShortPasswordAsWritten | models/users.js:82-86 | As written, the password 'abc' gives the `password` entry 'Validation failed' (nested) or an error with no entries (flattened). |
| UserSchema.NoDoubleHashing | models/users.js:80 | A later save that leaves the password alone keeps the stored hash. |
| UserSchema.Register | models/users.js:19-61 | Registration succeeds exactly when the account, e-mail and password rules hold. The stored user has the hashed password, no tokens, an empty cart (quantity 0) and role 0 by default. |
| UserSchema.BadPasswordLengthMessage | models/users.js:82-86 | A wrong password length is reported once the schema validators pass. |
| UserSchema.LastMissingReportedFirst | models/users.js:19-48 | On registration, the missing path declared last is reported, whatever else fails. |
| UserSchema.FirstFailingReported | models/users.js:19-48 | With account, e-mail and password present, the first failing one is reported. |
| UserSchema.MissingEmailReportedFirst | models/users.js:34-48 | A body without e-mail but with a password is told '使用者信箱必填', whatever the account. |
| UserSchema.AccountCharsetMessage | models/users.js:26-32 | A non-alphanumeric account of valid length gets the charset message when e-mail and password are present. |
| UserSchema.EmailFormatMessage | models/users.js:37-43 | A malformed e-mail gets '信箱格式不正確' when the account passes and a password is present. |
| Passport.VerifyJwt | passport/passport.js:42-72 | 'JWT 過期' exactly for an expired token off the exempt paths. An accepted token is held by a stored user with the payload's id, and that user and token are handed on. Every refusal is one of the three messages. |
| Passport.Login | passport/passport.js:13-33 | '未知錯誤' exactly when the store fails. A logged-in user is stored, has the e-mail, and its hash matches the password. Every refusal is one of the three messages. |
| Passport.FindHolder | passport/passport.js:57 | The lookup finds a user with the payload's id who holds the token, or reports that none does. |
| Passport.FindByEmail | passport/passport.js:15 | `findOne({ email })` finds the first user with that e-mail, or reports that none has it. |
| Passport.Revoke | passport/passport.js:57 | Removing a token keeps the store's reachability and size. |
| Passport.ExpiredAcceptedOnlyWhenExempt | passport/passport.js:47-52 | An expired token is accepted only on the two exempt paths. |
| Passport.ExpiredRejectedUnlessExempt | passport/passport.js:47-52 | Off the exempt paths, an expired token is refused with 'JWT 過期' before the store is consulted. |
| Passport.ExemptPathsIgnoreExpiry | passport/passport.js:49-52 | On the exempt paths, the expiry makes no difference. |
| Passport.AcceptedIffListed | passport/passport.js:55-62 | A token is accepted exactly when a user with the payload's id holds it. The accepted user and token are those. Otherwise the answer is 'JWT 無效'. |
| Passport.JwtMessages | passport/passport.js:63-72 | A refusal is always one of the three messages. |
| Passport.RevokedTokenRejected | passport/passport.js:55-60 | A token removed from its user is never accepted again. |
| Passport.RevokeKeepsOtherTokens | passport/passport.js:57 | Removing one token keeps every other token. |
| Passport.LoginOutcomes | passport/passport.js:13-33 | '帳號不存在' exactly when no user has the e-mail. '密碼錯誤' exactly when the first such user's password does not match. A login yields a matching user. |
| Passport.LoginUserIsUnique | passport/passport.js:15 | With unique e-mails, the logged-in user is the only user with that e-mail. |
| Passport.StoreFailureIsUnknown | passport/passport.js:29-31 | A store failure is reported as '未知錯誤' by both strategies. |
| Routes.Dispatch | routes/products.js:9-17 | Dispatch picks the first route that matches, or reports that none does. |
| Routes.Resolve | index.js:44-46 | A resolved route belongs to a mount whose prefix matches the first segment, ignoring case, and it matches the rest of the path. Nothing resolves exactly when no matching mount has a matching route. The first such mount wins. |
| Routes.RunChain | routes/products.js:9 | A chain reaches the handler exactly when every guard calls `next()`. Otherwise it stops at the first guard that answers. |
| Routes.PathText | passport/passport.js:49 | `baseUrl + path` is empty exactly for no segments and starts with '/' otherwise. |
| Routes.PathTextInjective | passport/passport.js:49-50 | Different slash-free paths give different URL texts. |
| Routes.ResolvedChainIsRegistered | routes/appointments.js:8-16 | A resolved route carries the guard chain registered for its handler. |
| Routes.WritesAreAdminGated | routes/products.js:9-17 | Every product or time-slot route except the public reads runs `auth.jwt` then `admin` first. So does every non-GET request. |
| Routes.AllIsNeverAnId | routes/products.js:11-17 | GET `/products/all` (any letter case) reaches `getAll`, since it is registered before `/:id`. Any other single segment reaches `getId`. |
| Routes.AppointmentLookupUnreachable | routes/appointments.js:3-16 | The time-slot `getId` handler is reachable by no request. |
| Routes.UserRouteGuards | routes/users.js:6-12 | No user route checks the role. Registration has no guard, login has `auth.login`, and every other user route has `auth.jwt`. |
| Routes.ResolvedRouteIsRegistered | index.js:44-46 | A resolved route is one of the registered routes. |
| Routes.AdministrationRoutesGated | routes/products.js:9-13 | The administration handlers are behind `auth.jwt` then `admin`. |
| Routes.DispatchLogout | routes/users.js:8 | `/logout` reaches only DELETE `logout`. |
| Routes.DispatchExtend | routes/users.js:9 | `/extend` reaches only PATCH `extend`. |
| App.AllowedOriginIffOccurs | index.js:19 | An origin is allowed exactly when 'rechilab.com' or 'localhost' occurs in it. |
| App.OriginsAroundAllowedTexts | index.js:19 | Any text around 'localhost' or 'rechilab.com' is allowed, so the check is not anchored. |
| App.RefusedOriginFirst | index.js:15-34 | A refused origin gets 403 '請求被拒絕' whatever the request. |
| App.EdgeFailures | index.js:36-54 | An unparsable body gets 400 '資料格式錯誤'. A path no route matches gets 404 '找不到'. The methods modelled exclude OPTIONS, which `cors` answers before this point. |
| App.UnmatchedPathIsNotFound | index.js:44-54 | When no route under a matching mount matches, the request gets 404 '找不到'. |
| App.Serve | index.js:15-54 | A handler runs only for an allowed origin and a parsed body, and only the handler of the route the path resolves to. The methods modelled exclude OPTIONS, whose preflight `cors` answers first. |
| App.HandlerRunsAfterItsGuards | index.js:15-54 | A handler runs only for an allowed origin and a parsed body, only when its route resolves, and only after every guard of its chain passed, the admin gate included. |
| App.AdministrationNeedsAdmin | middlewares/admin.js:7-14 | An administration handler runs only for an authenticated administrator. |
| App.NonAdminStopped | middlewares/admin.js:7-11 | An authenticated non-administrator on an admin route gets 403 '權限不足'. |
| App.ExemptSegments | passport/passport.js:50 | Only `/users/logout` and `/users/extend` are exempt paths. |
| App.ExemptPathsAreLogoutAndExtend | passport/passport.js:50 | A resolved exempt path is DELETE `logout` or PATCH `extend`. |
| App.ReachesExtend | routes/users.js:9 | Any letter case of `users`, followed by `extend` with an optional trailing slash, reaches `extend`. |
| App.TrailingSlashNotExempt | passport/passport.js:49-50 | `/users/extend/` reaches `extend` but is not exempt from expiry. |
| App.LetterCaseNotExempt | passport/passport.js:49-50 | `/Users/extend` reaches `extend` but is not exempt from expiry. |
| App.OtherFirstSegmentNotExempt | passport/passport.js:49-50 | A five-character first segment other than `users`, followed by `/extend`, gives neither exempt text. |
| App.ExemptOrPublic | passport/passport.js:50 | A route whose `auth.jwt` can pass only on an exempt path is `logout`, `extend`, or an unguarded route. |
| App.ExpiredTokenReachesOnlyExemptRoutes | passport/passport.js:47-52 | With an expired token, only `logout`, `extend` and the unguarded routes can run. |
| JsText.JsLength | models/users.js:82 | `length` counts UTF-16 units: between one and two per character. |
| JsText.JsLengthAppend | models/users.js:82 | `length` is additive. |
| JsText.JsLengthOfBmpText | models/users.js:82 | For BMP text, `length` is the character count. |
| JsText.IncludesAt | index.js:19 | A text occurring at some position is included. |
| JsText.IncludesHasPosition | index.js:19 | Conversely, an included text occurs at some position. |
| JsText.IncludesInside | index.js:19 | A text includes anything embedded in it. |
| JsText.TrimStart | controllers/products.js:37 | `parseInt` skips leading white space. |
| JsText.DigitPrefix | controllers/products.js:37 | `parseInt` reads the longest run of digits of its radix. |
| JsText.NatText | controllers/products.js:37 | Decimal text has no leading zeros and only decimal digits. |
| JsText.ParseInt | controllers/products.js:37-41 | Blank text, or text whose first non-blank character is not a sign or decimal digit, is NaN. A leading digit 1-9 gives a positive number. A negative result needs a leading '-'. |
| JsText.ParseIntText | controllers/products.js:37-41 | `parseInt` reads back any integer written in decimal. |
| JsText.ParseIntNoDigits | controllers/products.js:37 | Text with no leading digit parses to NaN. |
| JsText.ParseIntIgnoresTail | controllers/products.js:39 | Trailing non-digits are ignored. |
| JsText.ParseIntOfPrefixedHex | controllers/products.js:39 | A `0x` prefix switches to hexadecimal. |
| JsText.ParseIntOfTrailingGarbage | controllers/products.js:41 | '12abc' parses to 12. |
| JsText.ParseIntOfBlankSigned | controllers/products.js:37 | ' -3' parses to -3. |
| JsText.ParseIntOfZeros | controllers/products.js:37 | '0' and '-0' parse to 0, which the `\|\| -1` fallback then replaces. |
| JsText.ObjectIdTextIsMongoId | controllers/products.js:133 | Every castable id passes `isMongoId`. The only other ids that pass carry a `0x`/`0h` prefix. |
| JsText.PrefixedIdPassesFormatCheck | controllers/products.js:133-136 | `0x` plus 22 hex digits passes `isMongoId` but fails the ObjectId cast, so it is the CastError path. |
| Sorting.Insert | controllers/products.js:56 | Insertion keeps a sequence sorted and adds exactly one element. |
| Sorting.SortBy | controllers/products.js:56 | `sort` yields a sorted permutation of the matches. |
| Basics.Count | controllers/products.js:113 | A count never exceeds the number of records. |
| Basics.CountAgrees | controllers/appointments.js:108 | Filters that agree record by record count the same records. |
| Basics.Filter | controllers/products.js:96-104 | The filtered records are exactly the stored ones that satisfy the filter: each kept record satisfies it, every stored record that does is kept, their number is the count, and nothing is added. |
| Basics.FilterKeepsOrder | controllers/products.js:96-104 | The filtered records are the stored ones at exactly the positions whose record satisfies the filter, taken in increasing position, so in store order. |

## Left out

- Files outside this model: `middlewares/auth.js`, `middlewares/upload.js`, `controllers/users.js` and the role enumeration are not part of this model.
  - The verdicts of `auth.jwt`, `auth.login` and `upload` are parameters (`App.Context`).
  - The roles are the constants 0 and 1.
  - `Passport.Revoke` stands for the token removal that `logout` and `extend` perform.
- `getDateAppointments`: left out. It depends on `Date` arithmetic and the host time zone (`setHours(8)`). Only its route (`/appointments/date`) is modelled.
- The cart handlers of the two controllers and the users controller's handlers are left out. Only their route rows are kept.
- Server start-up, the database connection, `console.log`, CORS preflight (`OPTIONS`) and response headers are left out.
- ListQuery.ReadParams: each query value is one string or absent. A repeated key (`?search=a&search=b`) becomes an array in Express's query parser, which `new RegExp`, `parseInt` and the computed sort key coerce to "a,b"; that case is not modelled.
- Concurrency is left out. Interleaved requests, token races and the uniqueness indexes of `account` and `email` are not modelled; `Passport.LoginUserIsUnique` takes unique e-mails as a precondition.
- Floating point: `price` and `peoplenumber` are integers, and `Number` precision is not modelled.
- `date` is a given/not-given value. Date casting is not modelled.
- bcrypt, `validator.isEmail`, the regular-expression engine and `new RegExp` compile errors are parameters.
- JsText.IsObjectIdText: the ObjectId cast is modelled as "24 hexadecimal digits". The cast of a 12-character string is not modelled.
- ListQuery.ListOutcome: a negative `skip` (page 0 or less after the fallback, or a negative page size) is reported as `SkipLeftToStore`, because its outcome belongs to the database driver.
- ListQuery.SortKey: fields other than `createdAt`/`updatedAt` sort by a given integer rank. String and mixed-type collation is not modelled.
- ListQuery.TotalIgnoresQuery: `estimatedDocumentCount` is taken to be exact.
- JsText.SameIgnoringAsciiCase: Express's case-insensitive matching is modelled for ASCII letters only.
- UserSchema.BadPasswordLengthMessage: states the evidently intended message. As written, the hook loses the length message (see Findings); `UserSchema.PreSaveAsWritten` models that.
- UserSchema.PreSaveAsWritten: the mongoose release is not part of this model, so the behaviour of `ValidationError.addError` on a nested `ValidationError` is a parameter (`AddErrorStyle`). Which of the two error shapes the deployed server produces is not promised.
- ProductSchema.ValidatePatch: the first failing path is taken in schema order. mongoose's update validators follow the order of the update's keys, so an edit with several bad fields may report another field's message first.
- AppointmentSchema.ValidatePatch: likewise, the first failing path is taken in schema order, not in the order of the update's keys.
- ProductSchema.ValidateNew: fields arrive already typed, so cast failures are not modelled. In the source, `price: "abc"` or `sell: "maybe"` is a cast error answered with 400, and `price: ""` casts to null and fails `required`. Product create and edit bodies are multipart, so every field arrives as a string and is cast.
- ProductSchema.ValidatePatch: the same casts are not modelled for updates.
- AppointmentSchema.ValidateNew: Number and Boolean casts of `peoplenumber` and `online` are not modelled. A non-numeric `peoplenumber` is a cast error in the source, and '' casts to null.
- AppointmentSchema.ValidatePatch: the same casts are not modelled for updates.
- Sorting.SortBy: MongoDB does not promise any order among records with equal sort keys. The model keeps ties in collection order, and ListQuery.PageIsOffsetRun relies on that choice.
- Validation.CreateOrder: the paths the body sets are taken in schema order, as the document constructor assigns them. An older mongoose that assigns them in the order of the body's keys would report a different first message when several set paths fail.
- Passport.FindHolder: the payload's id is compared as text. The payload is signed by the server and carries the stored id as the server wrote it, so no case variant reaches the lookup.
- index.js has no default-deny handler. The 4-argument handler at index.js:29-34 sees only the CORS error, and a malformed body goes to the 400 handler at index.js:37-42.

## Findings

| source | as written | input that shows it | evidently intended | confidence | as-written member | corrected member |
|---|---|---|---|---|---|---|
| models/users.js:83-84 | the `password` error is built as `new Error.ValidationError({ message: ... })`; that constructor takes a document and sets its own message, 'Validation failed', with no path errors | registering with password 'abc' | the `password` error carries '密碼長度最少 4 個字，最多 12 個字' | medium, not executed; depends on mongoose's `ValidationError` constructor, and the exact error shape on `addError`: a nested error is kept as the `password` entry, or flattened into no entry at all | UserSchema.PreSaveAsWritten, UserSchema.LengthMessageLostAsWritten | UserSchema.PreSave, UserSchema.BadPasswordLengthMessage |

=== FILE: admin.dfy ===
/** The administrator gate that follows authentication on the protected
    product and time-slot routes. */
module Admin {
  import opened Basics
  import opened Http
  import opened UserSchema

  const PERMISSION_DENIED: string := "權限不足"

  /** What a middleware does: call `next()` and write nothing, or answer
      and stop the chain. */
  datatype Verdict = Next | Deny(response: Response<()>)

  /** `req.user.role !== UserRole.ADMIN`: a strict comparison, so a user
      without a role is refused like any other non-administrator. */
  function Gate(role: Option<int>): (r: Verdict)
    ensures r.Next? <==> role == Some(ADMIN)
    ensures r.Deny? ==> r.response == Response(FORBIDDEN, false, PERMISSION_DENIED, None)
  {
    if role != Some(ADMIN) then Deny(Failure(FORBIDDEN, PERMISSION_DENIED)) else Next
  }

  /** The gate lets a request through exactly when the role is the
      administrator's, writing nothing; every other role, and a missing
      one, gets 403 '權限不足'. */
  lemma GateOutcomes(role: Option<int>)
    ensures Gate(role) == Next <==> role == Some(ADMIN)
    ensures role != Some(ADMIN) ==> Gate(role) == Deny(Response(FORBIDDEN, false, PERMISSION_DENIED, None))
    ensures Gate(None).Deny? && Gate(Some(USER)).Deny?
  {
  }
}

=== FILE: app.dfy ===
/** The application edge: the CORS origin rule, the two error handlers
    registered around the JSON body parser, the three mounted routers and
    the final not-found handler, composed with the guard chains. */
module App {
  import opened Basics
  import opened JsText
  import opened Http
  import opened Admin
  import opened Routes
  import opened Passport
  import opened UserSchema
  import opened Store

  const REQUEST_REFUSED: string := "請求被拒絕"
  const BAD_FORMAT: string := "資料格式錯誤"
  const NOTHING_HERE: string := "找不到"

  /** The `origin` callback: a request without an `Origin` header, or one
      whose origin contains 'rechilab.com' or 'localhost' anywhere. */
  predicate AllowedOrigin(origin: Option<string>)
  {
    origin.None? || Includes(origin.value, "rechilab.com") || Includes(origin.value, "localhost")
  }

  /** What the model needs of a request: the method, the path split at
      '/', the `Origin` header, and whether the JSON body parser failed. */
  datatype Request = Request(verb: Method, segments: seq<string>, origin: Option<string>, bodyError: bool)

  /** How the guards decide: the token check, the credential check and the
      upload middleware are given; the administrator gate looks at the
      authenticated user's role. */
  datatype Context = Context(jwt: Verdict, login: Verdict, upload: Verdict, role: Option<int>)

  function Verdicts(ctx: Context): Guard -> Verdict
  {
    (g: Guard) => match g
      case Jwt => ctx.jwt
      case Login => ctx.login
      case Upload => ctx.upload
      case AdminGate => Gate(ctx.role)
  }

  /** A request is answered at the edge or by a guard, or reaches a
      handler. */
  datatype Outcome = Answered(response: Response<()>) | Handled(handler: Handler)

  /** The middleware order of the application: a CORS failure skips to the
      first error handler (403); a body parser failure skips to the second
      (400); then the routers; then 404. The method is never OPTIONS (see
      `Method`), whose preflight answer `cors` gives before all of this. */
  function Serve(req: Request, ctx: Context): (r: Outcome)
    ensures r.Handled? ==> && AllowedOrigin(req.origin) && !req.bodyError
                           && Resolve(req.verb, req.segments).Some?
                           && r.handler == Resolve(req.verb, req.segments).value.handler
  {
    if !AllowedOrigin(req.origin) then Answered(Failure(FORBIDDEN, REQUEST_REFUSED))
    else if req.bodyError then Answered(Failure(BAD_REQUEST, BAD_FORMAT))
    else match Resolve(req.verb, req.segments)
      case None => Answered(Failure(NOT_FOUND, NOTHING_HERE))
      case Some(route) =>
        match RunChain(route.guards, Verdicts(ctx))
        case Reached => Handled(route.handler)
        case Stopped(_, response) => Answered(response)
  }

  // ------------------------------------------------------------ properties

  /** `sub` occurs in `s` starting at position `i`. */
  predicate OccursAt(s: string, sub: string, i: nat)
  {
    i + |sub| <= |s| && s[i..i + |sub|] == sub
  }

  /** The origin rule is a substring test, not a host comparison: an
      origin is allowed exactly when one of the two texts occurs at some
      position of it. */
  lemma AllowedOriginIffOccurs(o: string)
    ensures AllowedOrigin(Some(o)) <==>
            (exists i: nat :: OccursAt(o, "rechilab.com", i)) || (exists i: nat :: OccursAt(o, "localhost", i))
  {
    if Includes(o, "rechilab.com") {
      var i := IncludesHasPosition(o, "rechilab.com");
      assert OccursAt(o, "rechilab.com", i);
    }
    if Includes(o, "localhost") {
      var i := IncludesHasPosition(o, "localhost");
      assert OccursAt(o, "localhost", i);
    }
    if exists i: nat :: OccursAt(o, "rechilab.com", i) {
      var i: nat :| OccursAt(o, "rechilab.com", i);
      IncludesAt(o, "rechilab.com", i);
    }
    if exists i: nat :: OccursAt(o, "localhost", i) {
      var i: nat :| OccursAt(o, "localhost", i);
      IncludesAt(o, "localhost", i);
    }
  }

  /** Whatever surrounds them, origins mentioning either text pass, such
      as `https://localhost.example.org` or `http://rechilab.com.example.net`. */
  lemma OriginsAroundAllowedTexts(before: string, after: string)
    ensures AllowedOrigin(Some(before + "localhost" + after))
    ensures AllowedOrigin(Some(before + "rechilab.com" + after))
  {
    IncludesInside(before, "localhost", after);
    IncludesInside(before, "rechilab.com", after);
  }

  /** A refused origin is answered 403 '請求被拒絕' before anything else:
      the body, the path and the guards play no part. */
  lemma RefusedOriginFirst(req: Request, ctx: Context)
    requires !AllowedOrigin(req.origin)
    ensures Serve(req, ctx) == Answered(Response(FORBIDDEN, false, REQUEST_REFUSED, None))
  {
  }

  /** With an allowed origin, a body the parser refuses is answered 400
      '資料格式錯誤' whatever the path; a well-formed request no router
      matches is answered 404 '找不到'. OPTIONS is not among the methods,
      so a preflight never reaches this 404. */
  lemma EdgeFailures(req: Request, ctx: Context)
    requires AllowedOrigin(req.origin)
    ensures req.bodyError ==> Serve(req, ctx) == Answered(Response(BAD_REQUEST, false, BAD_FORMAT, None))
    ensures !req.bodyError && Resolve(req.verb, req.segments).None? ==>
              Serve(req, ctx) == Answered(Response(NOT_FOUND, false, NOTHING_HERE, None))
  {
  }

  /** The final `app.all('*')`: a well-formed request from an allowed origin
      for which no route of any router mounted under its first segment
      matches is answered 404 '找不到'. */
  lemma {:induction false} UnmatchedPathIsNotFound(req: Request, ctx: Context)
    requires AllowedOrigin(req.origin) && !req.bodyError
    requires |req.segments| > 0
    requires forall i, j :: (0 <= i < |Mounts| && SameIgnoringAsciiCase(req.segments[0], Mounts[i].0)
                             && 0 <= j < |Mounts[i].1|) ==> !RouteMatches(Mounts[i].1[j], req.verb, req.segments[1..])
    ensures Serve(req, ctx) == Answered(Response(NOT_FOUND, false, NOTHING_HERE, None))
  {
    forall i | 0 <= i < |Mounts| && SameIgnoringAsciiCase(req.segments[0], Mounts[i].0)
      ensures Dispatch(Mounts[i].1, req.verb, req.segments[1..]).None?
    {
    }
    assert Resolve(req.verb, req.segments).None?;
  }

  /** A handler runs only when every guard of its route let the request
      through; so a route carrying the administrator gate runs its handler
      only for an administrator. */
  lemma HandlerRunsAfterItsGuards(req: Request, ctx: Context)
    requires Serve(req, ctx).Handled?
    ensures var route := Resolve(req.verb, req.segments);
      && AllowedOrigin(req.origin) && !req.bodyError && route.Some?
      && Serve(req, ctx).handler == route.value.handler
      && (forall i :: 0 <= i < |route.value.guards| ==> Verdicts(ctx)(route.value.guards[i]) == Next)
      && (AdminGate in route.value.guards ==> ctx.role == Some(ADMIN))
  {
    var r := Resolve(req.verb, req.segments);
    assert AllowedOrigin(req.origin) && !req.bodyError && r.Some?;
    var route := r.value;
    var verdict := Verdicts(ctx);
    assert RunChain(route.guards, verdict).Reached?;
    if AdminGate in route.guards {
      var i :| 0 <= i < |route.guards| && route.guards[i] == AdminGate;
      assert verdict(route.guards[i]) == Gate(ctx.role) == Next;
    }
  }

  /** Creating, editing and listing everything, for products and time
      slots alike, happen only for an authenticated administrator. */
  lemma {:induction false} AdministrationNeedsAdmin(req: Request, ctx: Context)
    requires Serve(req, ctx).Handled?
    requires Serve(req, ctx).handler in AdministrationHandlers
    ensures ctx.jwt == Next && ctx.role == Some(ADMIN)
  {
    HandlerRunsAfterItsGuards(req, ctx);
    var route := Resolve(req.verb, req.segments).value;
    ResolvedRouteIsRegistered(req.verb, req.segments);
    AdministrationRoutesGated(route);
    assert Verdicts(ctx)(route.guards[0]) == Next;
  }

  /** A non-administrator whose token passes is stopped by the gate with
      403 '權限不足' on every administration route; the handler never runs. */
  lemma NonAdminStopped(req: Request, ctx: Context)
    requires AllowedOrigin(req.origin) && !req.bodyError
    requires Resolve(req.verb, req.segments).Some?
    requires var g := Resolve(req.verb, req.segments).value.guards; |g| >= 2 && g[0] == Jwt && g[1] == AdminGate
    requires ctx.jwt == Next && ctx.role != Some(ADMIN)
    ensures Serve(req, ctx) == Answered(Response(FORBIDDEN, false, PERMISSION_DENIED, None))
  {
    var g := Resolve(req.verb, req.segments).value.guards;
    var v := Verdicts(ctx);
    assert v(g[0]) == Next;
    assert v(g[1]) == Deny(Failure(FORBIDDEN, PERMISSION_DENIED));
    var e := RunChain(g, v);
    assert e.Stopped? && e.at == 1;
  }

  lemma LogoutPathText()
    ensures PathText(["users", "logout"]) == "/users/logout"
  {
    var segments := ["users", "logout"];
    assert PathText(segments[1..]) == "/logout";
  }

  lemma ExtendPathText()
    ensures PathText(["users", "extend"]) == "/users/extend"
  {
    var segments := ["users", "extend"];
    assert PathText(segments[1..]) == "/extend";
  }

  /** Only two segment lists have an exempt text. */
  lemma {:induction false} ExemptSegments(segments: seq<string>)
    requires SlashFree(segments)
    requires ExemptPath(PathText(segments))
    ensures segments == ["users", "logout"] || segments == ["users", "extend"]
  {
    LogoutPathText();
    ExtendPathText();
    if PathText(segments) == "/users/logout" {
      PathTextInjective(segments, ["users", "logout"]);
    } else {
      PathTextInjective(segments, ["users", "extend"]);
    }
  }

  /** The two exempt texts name exactly the logout and extend routes: a
      request whose path text is exempt reaches `DELETE /users/logout` or
      `PATCH /users/extend`, or nothing. */
  lemma {:induction false} ExemptPathsAreLogoutAndExtend(m: Method, segments: seq<string>)
    requires SlashFree(segments)
    requires ExemptPath(PathText(segments))
    requires Resolve(m, segments).Some?
    ensures var h := Resolve(m, segments).value.handler;
      (h == UsersLogout && m == DELETE) || (h == UsersExtend && m == PATCH)
  {
    ExemptSegments(segments);
    if segments == ["users", "logout"] {
      ResolveLogout(m);
    } else {
      ResolveExtend(m);
    }
  }

  lemma ResolveLogout(m: Method)
    ensures Resolve(m, ["users", "logout"]) == if m == DELETE then Some(UserRoutes[2]) else None
  {
    var segments := ["users", "logout"];
    assert SameIgnoringAsciiCase(segments[0], "users");
    ResolveUnderUsers(m, segments);
    assert segments[1..] == ["logout"] && Trimmed(["logout"]) == ["logout"];
    DispatchLogout(m, segments[1..]);
  }

  lemma ResolveExtend(m: Method)
    ensures Resolve(m, ["users", "extend"]) == if m == PATCH then Some(UserRoutes[3]) else None
  {
    var segments := ["users", "extend"];
    assert SameIgnoringAsciiCase(segments[0], "users");
    ResolveUnderUsers(m, segments);
    assert segments[1..] == ["extend"] && Trimmed(["extend"]) == ["extend"];
    DispatchExtend(m, segments[1..]);
  }

  /** A first segment equal to `users` up to letter case, followed by
      `extend` and at most a trailing slash, reaches the extend route. */
  lemma ReachesExtend(u: string, rest: seq<string>)
    requires SameIgnoringAsciiCase(u, "users") && Trimmed(rest) == ["extend"]
    ensures Resolve(PATCH, [u] + rest) == Some(UserRoutes[3])
  {
    var segments := [u] + rest;
    assert segments[0] == u && segments[1..] == rest;
    ResolveUnderUsers(PATCH, segments);
    DispatchExtend(PATCH, rest);
  }

  /** The exemption compares the text as written: `/users/extend/`
      reaches the extend route, yet an expired token is refused there. */
  lemma TrailingSlashNotExempt(u: string)
    requires SameIgnoringAsciiCase(u, "users")
    ensures Resolve(PATCH, [u, "extend", ""]) == Some(UserRoutes[3])
    ensures !ExemptPath(PathText([u, "extend", ""]))
  {
    var rest := ["extend", ""];
    assert Trimmed(rest) == ["extend"];
    assert [u] + rest == [u, "extend", ""];
    ReachesExtend(u, rest);
    SlashedTextIsLonger(u);
  }

  lemma SlashedTextIsLonger(u: string)
    requires |u| == 5
    ensures !ExemptPath(PathText([u, "extend", ""]))
  {
    var segments := [u, "extend", ""];
    assert |PathText(segments[2..])| == 1;
    assert |PathText(segments[1..])| == 8;
    assert |PathText(segments)| == 14;
  }

  /** Likewise `/Users/extend`, or any other capitalisation of `users`. */
  lemma LetterCaseNotExempt(u: string)
    requires SameIgnoringAsciiCase(u, "users") && u != "users"
    ensures Resolve(PATCH, [u, "extend"]) == Some(UserRoutes[3])
    ensures !ExemptPath(PathText([u, "extend"]))
  {
    var rest := ["extend"];
    assert Trimmed(rest) == ["extend"];
    assert [u] + rest == [u, "extend"];
    ReachesExtend(u, rest);
    OtherFirstSegmentNotExempt(u);
  }

  /** A five-character first segment other than `users` never gives one
      of the two exempt texts before `/extend`. */
  lemma OtherFirstSegmentNotExempt(u: string)
    requires |u| == 5 && u != "users"
    ensures !ExemptPath(PathText([u, "extend"]))
  {
    var segments := [u, "extend"];
    var tail := PathText(segments[1..]);
    assert tail == "/extend" by {
      assert PathText(segments[2..]) == "";
    }
    var text := PathText(segments);
    assert text == "/" + u + tail;
    assert text[1..6] == u;
    assert text[|text| - 1] == 'd';
    assert "/users/extend"[1..6] == "users";
    assert "/users/logout"[12] == 't';
  }

  /** The handlers registered without the token check, the time-slot
      lookup (which no request reaches) aside. */
  lemma OpenHandlers(h: Handler)
    requires Jwt !in ChainOf(h) && h != AppointmentsGetId
    ensures h in {UsersCreate, UsersLogin, ProductsGet, ProductsGetId, AppointmentsGet, AppointmentsByDate}
  {
  }

  /** A route a request reaches carries the token check only if the path
      text is exempt, then it is logout or extend; otherwise it is public. */
  lemma {:induction false} ExemptOrPublic(m: Method, segments: seq<string>)
    requires SlashFree(segments)
    requires Resolve(m, segments).Some?
    requires Jwt in Resolve(m, segments).value.guards ==> ExemptPath(PathText(segments))
    ensures Resolve(m, segments).value.handler in {UsersLogout, UsersExtend, UsersCreate, UsersLogin,
                                                   ProductsGet, ProductsGetId, AppointmentsGet, AppointmentsByDate}
  {
    if Jwt in Resolve(m, segments).value.guards {
      ExemptPathsAreLogoutAndExtend(m, segments);
    } else {
      ResolvedChainIsRegistered(m, segments);
      AppointmentLookupUnreachable(m, segments);
      OpenHandlers(Resolve(m, segments).value.handler);
    }
  }

  /** When the token guard passes only tokens the strategy accepted, a
      request with an expired token reaches a handler only on a public
      route or on logout or extend. */
  lemma {:induction false} ExpiredTokenReachesOnlyExemptRoutes(req: Request, ctx: Context, db: Db<User>,
                                                               p: Payload, token: string, nowMs: int)
    requires SlashFree(req.segments)
    requires ctx.jwt == Next ==> VerifyJwt(db, p, PathText(req.segments), token, nowMs).Accepted?
    requires Expired(p.exp, nowMs)
    requires Serve(req, ctx).Handled?
    ensures Serve(req, ctx).handler in {UsersLogout, UsersExtend, UsersCreate, UsersLogin,
                                        ProductsGet, ProductsGetId, AppointmentsGet, AppointmentsByDate}
  {
    HandlerRunsAfterItsGuards(req, ctx);
    var route := Resolve(req.verb, req.segments).value;
    if Jwt in route.guards {
      var i :| 0 <= i < |route.guards| && route.guards[i] == Jwt;
      assert Verdicts(ctx)(route.guards[i]) == ctx.jwt;
      ExpiredAcceptedOnlyWhenExempt(db, p, PathText(req.segments), token, nowMs);
    }
    ExemptOrPublic(req.verb, req.segments);
  }
}

=== FILE: appointment_schema.dfy ===
/** The appointment (open court time slot) schema: court and net-height
    enums, a list of description tags from a fixed set, a non-negative
    number of places, free-text begin and end times, and defaults for the
    court and the online flag. */
module AppointmentSchema {
  import opened Basics
  import opened Validation

  /** A stored time slot; `date` is the epoch time in milliseconds. */
  datatype Appointment = Appointment(court: string, date: int, begin: string, end: string,
                                     peoplenumber: int, height: string, info: seq<string>,
                                     online: bool)

  /** A time slot as it arrives in a request body. */
  datatype AppointmentBody = AppointmentBody(court: Field<string>, date: Field<int>,
                                             begin: Field<string>, end: Field<string>,
                                             peoplenumber: Field<int>, height: Field<string>,
                                             info: Field<seq<string>>, online: Field<bool>)

  const Courts: seq<string> := ["A", "未開放"]
  const Heights: seq<string> := ["女網", "男網"]
  const InfoTags: seq<string> := ["新手友善", "男女混打", "僅限女生", "僅限男生", "宵夜場", "早場",
                                  "一般場", "高手場", "未開放", "只開放季打", "徵臨打"]

  const PEOPLE_MIN_ERROR: string := "開放名額不能小於0"
  const HEIGHT_ERROR: string := "請選擇女網/男網"
  const INFO_ERROR: string := "請選擇說明敘述"
  const ONLINE_REQUIRED: string := "是否開放報名，必填"

  /** What every stored time slot satisfies. */
  predicate ValidAppointment(a: Appointment)
  {
    && a.court in Courts && |a.begin| > 0 && |a.end| > 0 && a.peoplenumber >= 0
    && a.height in Heights && forall i :: 0 <= i < |a.info| ==> a.info[i] in InfoTags
  }

  function CourtCheck(f: Field<string>): (r: Option<string>)
    ensures r.None? <==> f.Given? && f.value in Courts
  {
    var required := RequiredString(f, "場地，必填");
    if required.Some? then required
    else if f.value !in Courts then Some(DefaultEnumMessage(f.value, "court"))
    else None
  }

  function PeopleCheck(f: Field<int>): (r: Option<string>)
    ensures r.None? <==> f.Given? && f.value >= 0
  {
    var required := Required(f, "開放名額，必填");
    if required.Some? then required
    else if f.value < 0 then Some(PEOPLE_MIN_ERROR)
    else None
  }

  function HeightCheck(f: Field<string>): (r: Option<string>)
    ensures r.None? <==> f.Given? && f.value in Heights
  {
    var required := RequiredString(f, "女網/男網，必填");
    if required.Some? then required
    else if f.value !in Heights then Some(HEIGHT_ERROR)
    else None
  }

  /** The `enum` of an array path belongs to its element caster, so each
      element is validated as a path of its own (`info.0`, `info.1`, ...);
      an array that is not given has no elements to check. */
  function TagCheck(f: Field<seq<string>>): (r: Option<string>)
    ensures r.None? <==> (f.Given? ==> forall i :: 0 <= i < |f.value| ==> f.value[i] in InfoTags)
    ensures r.Some? ==> r.value == INFO_ERROR
  {
    if f.Given? && exists i :: 0 <= i < |f.value| && f.value[i] !in InfoTags then Some(INFO_ERROR)
    else None
  }

  /** The paths validated, in order: the schema's top-level paths in
      declaration order (`info` with its `required` only), then the element
      paths of `info`, which mongoose appends after every top-level path. */
  function Checks(b: AppointmentBody, mode: Mode): seq<(string, Option<string>)>
  {
    [ ("court", InScope(mode, b.court, CourtCheck(b.court))),
      ("date", InScope(mode, b.date, Required(b.date, "日期必填"))),
      ("begin", InScope(mode, b.begin, RequiredString(b.begin, "開始時間必填"))),
      ("end", InScope(mode, b.end, RequiredString(b.end, "結束時間必填"))),
      ("peoplenumber", InScope(mode, b.peoplenumber, PeopleCheck(b.peoplenumber))),
      ("height", InScope(mode, b.height, HeightCheck(b.height))),
      ("info", InScope(mode, b.info, Required(b.info, "說明必填"))),
      ("online", InScope(mode, b.online, Required(b.online, ONLINE_REQUIRED))),
      ("info.<i>", InScope(mode, b.info, TagCheck(b.info))) ]
  }

  /** A new document: `court` defaults to 'A', `info` to the empty array
      and `online` to true, when (and only when) the key is missing. */
  function WithDefaults(b: AppointmentBody): AppointmentBody
  {
    b.(court := WithDefault(b.court, "A"), info := WithDefault(b.info, []),
       online := WithDefault(b.online, true))
  }

  /** Path by path: when each check passes, in either mode. */
  lemma CheckConditions(b: AppointmentBody, mode: Mode)
    ensures var cs := Checks(b, mode);
      && |cs| == 9
      && (cs[0].1.None? <==> (mode == Update && b.court.Missing?) || (b.court.Given? && b.court.value in Courts))
      && (cs[1].1.None? <==> (mode == Update && b.date.Missing?) || b.date.Given?)
      && (cs[2].1.None? <==> (mode == Update && b.begin.Missing?) || (b.begin.Given? && |b.begin.value| > 0))
      && (cs[3].1.None? <==> (mode == Update && b.end.Missing?) || (b.end.Given? && |b.end.value| > 0))
      && (cs[4].1.None? <==> (mode == Update && b.peoplenumber.Missing?)
                             || (b.peoplenumber.Given? && b.peoplenumber.value >= 0))
      && (cs[5].1.None? <==> (mode == Update && b.height.Missing?) || (b.height.Given? && b.height.value in Heights))
      && (cs[6].1.None? <==> (mode == Update && b.info.Missing?) || b.info.Given?)
      && (cs[7].1.None? <==> (mode == Update && b.online.Missing?) || b.online.Given?)
      && (cs[8].1.None? <==> (b.info.Given? ==> forall i :: 0 <= i < |b.info.value| ==> b.info.value[i] in InfoTags))
  {
  }

  /** All nine checks pass exactly when no error is gathered. */
  lemma NoErrorIffAllPass(b: AppointmentBody, mode: Mode)
    ensures var cs := Checks(b, mode);
      |Gather(cs)| == 0 <==> (&& cs[0].1.None? && cs[1].1.None? && cs[2].1.None? && cs[3].1.None?
                               && cs[4].1.None? && cs[5].1.None? && cs[6].1.None? && cs[7].1.None?
                               && cs[8].1.None?)
  {
    var cs := Checks(b, mode);
    assert |cs| == 9;
    if cs[0].1.None? && cs[1].1.None? && cs[2].1.None? && cs[3].1.None?
       && cs[4].1.None? && cs[5].1.None? && cs[6].1.None? && cs[7].1.None? && cs[8].1.None? {
      forall i | 0 <= i < |cs|
        ensures cs[i].1.None?
      {
        if i == 0 {} else if i == 1 {} else if i == 2 {} else if i == 3 {}
        else if i == 4 {} else if i == 5 {} else if i == 6 {} else if i == 7 {} else {}
      }
    }
  }

  /** Where each validated path of a new time slot stands: `court`, `info`
      and `online` have defaults, and the element paths of `info` come
      last. */
  function Origins(b: AppointmentBody): seq<Origin>
  {
    [ OriginOf(b.court, true), OriginOf(b.date, false), OriginOf(b.begin, false),
      OriginOf(b.end, false), OriginOf(b.peoplenumber, false), OriginOf(b.height, false),
      OriginOf(b.info, true), OriginOf(b.online, true), Element ]
  }

  /** Validation of a new time slot (`appointments.create`): the defaults
      are applied, every path is checked, and the errors come in the order
      of `CreateOrder`. */
  function ValidateNew(b: AppointmentBody): (r: Result<Appointment, ValidationError>)
    ensures var d := WithDefaults(b);
      r.Ok? <==> (&& d.court.Given? && d.court.value in Courts && d.date.Given?
                  && b.begin.Given? && |b.begin.value| > 0 && b.end.Given? && |b.end.value| > 0
                  && b.peoplenumber.Given? && b.peoplenumber.value >= 0
                  && b.height.Given? && b.height.value in Heights
                  && d.info.Given? && (forall i :: 0 <= i < |d.info.value| ==> d.info.value[i] in InfoTags)
                  && d.online.Given?)
    ensures r.Ok? ==> ValidAppointment(r.value)
    ensures var d := WithDefaults(b);
      r.Ok? ==> r.value == Appointment(d.court.value, d.date.value, b.begin.value, b.end.value,
                                       b.peoplenumber.value, b.height.value, d.info.value, d.online.value)
    ensures r.Err? ==> |r.error.errors| > 0
  {
    var d := WithDefaults(b);
    var cs := Checks(d, Create);
    CheckConditions(d, Create);
    NoErrorIffAllPass(d, Create);
    if |Gather(cs)| > 0 then Err(ValidationError(CreateErrors(cs, Origins(b))))
    else
      Ok(Appointment(d.court.value, d.date.value, d.begin.value, d.end.value,
                     d.peoplenumber.value, d.height.value, d.info.value, d.online.value))
  }

  /** Update validators: the present paths only, no defaults. */
  function ValidatePatch(b: AppointmentBody): (r: Option<ValidationError>)
    ensures r.None? <==>
              (&& (b.court.Present() ==> b.court.Given? && b.court.value in Courts)
               && (b.date.Present() ==> b.date.Given?)
               && (b.begin.Present() ==> b.begin.Given? && |b.begin.value| > 0)
               && (b.end.Present() ==> b.end.Given? && |b.end.value| > 0)
               && (b.peoplenumber.Present() ==> b.peoplenumber.Given? && b.peoplenumber.value >= 0)
               && (b.height.Present() ==> b.height.Given? && b.height.value in Heights)
               && (b.info.Present() ==> b.info.Given?
                                        && forall i :: 0 <= i < |b.info.value| ==> b.info.value[i] in InfoTags)
               && (b.online.Present() ==> b.online.Given?))
    ensures r.Some? ==> |r.value.errors| > 0
  {
    var errs := Gather(Checks(b, Update));
    CheckConditions(b, Update);
    NoErrorIffAllPass(b, Update);
    if |errs| > 0 then Some(ValidationError(errs)) else None
  }

  /** `$set` of the present fields of an update. */
  function ApplyPatch(a: Appointment, b: AppointmentBody): Appointment
  {
    Appointment(Assign(b.court, a.court), Assign(b.date, a.date), Assign(b.begin, a.begin),
                Assign(b.end, a.end), Assign(b.peoplenumber, a.peoplenumber),
                Assign(b.height, a.height), Assign(b.info, a.info), Assign(b.online, a.online))
  }

  /** An update that passes the update validators keeps a valid time slot
      valid; fields outside the update keep their values. */
  lemma PatchKeepsValidity(a: Appointment, b: AppointmentBody)
    requires ValidAppointment(a) && ValidatePatch(b).None?
    ensures ValidAppointment(ApplyPatch(a, b))
    ensures b.online.Missing? ==> ApplyPatch(a, b).online == a.online
  {
  }

  /** A body that leaves out `court`, `info` and `online` gets 'A', no
      tags, and online. */
  lemma DefaultsApply(b: AppointmentBody)
    requires b.court.Missing? && b.info.Missing? && b.online.Missing?
    requires ValidateNew(b).Ok?
    ensures var a := ValidateNew(b).value; a.court == "A" && a.info == [] && a.online
  {
  }

  /** A new time slot missing some required path reports the missing
      path declared last, whatever else is wrong. */
  lemma LastMissingReportedFirst(b: AppointmentBody, k: nat)
    requires k < 9 && Origins(b)[k] == Unset
    requires forall j :: k < j < 9 ==> Origins(b)[j] != Unset
    ensures Checks(WithDefaults(b), Create)[k].1.Some?
    ensures var r := ValidateNew(b);
      r.Err? && FirstMessage(r.error.errors) == Checks(WithDefaults(b), Create)[k].1.value
  {
    CheckConditions(WithDefaults(b), Create);
    FirstUnsetReported(Checks(WithDefaults(b), Create), Origins(b), k);
  }

  /** A new time slot with no required path missing reports the first
      failing path the body sets, in declaration order, once every earlier
      path passes. */
  lemma FirstFailingReported(b: AppointmentBody, k: nat)
    requires forall j :: 0 <= j < 9 ==> Origins(b)[j] != Unset
    requires k < 9 && Origins(b)[k] == Assigned && Checks(WithDefaults(b), Create)[k].1.Some?
    requires forall j :: 0 <= j < k ==> Checks(WithDefaults(b), Create)[j].1.None?
    ensures var r := ValidateNew(b);
      r.Err? && FirstMessage(r.error.errors) == Checks(WithDefaults(b), Create)[k].1.value
  {
    FirstAssignedReported(Checks(WithDefaults(b), Create), Origins(b), k);
  }

  /** An explicit `null` defeats the default: `court: null` fails as
      missing, before any problem of the other paths the body sets. */
  lemma NullCourtFails(b: AppointmentBody)
    requires b.court.Null?
    requires b.date.Present() && b.begin.Present() && b.end.Present()
    requires b.peoplenumber.Present() && b.height.Present()
    ensures var r := ValidateNew(b); r.Err? && FirstMessage(r.error.errors) == "場地，必填"
  {
    FirstFailingReported(b, 0);
  }

  /** A missing path comes before a null one: with `court: null` and no
      `date`, the date is reported. */
  lemma MissingDateBeforeNullCourt(b: AppointmentBody)
    requires b.court.Null? && b.date.Missing?
    requires b.begin.Present() && b.end.Present() && b.peoplenumber.Present() && b.height.Present()
    ensures var r := ValidateNew(b); r.Err? && FirstMessage(r.error.errors) == "日期必填"
  {
    LastMissingReportedFirst(b, 1);
  }

  /** A negative number of places fails with its own message once the
      earlier paths pass and nothing is missing. */
  lemma NegativePlacesMessage(b: AppointmentBody)
    requires b.court.Missing? && b.date.Given?
    requires b.begin.Given? && |b.begin.value| > 0 && b.end.Given? && |b.end.value| > 0
    requires b.peoplenumber.Given? && b.peoplenumber.value < 0
    requires b.height.Present()
    ensures var r := ValidateNew(b); r.Err? && FirstMessage(r.error.errors) == PEOPLE_MIN_ERROR
  {
    FirstFailingReported(b, 4);
  }

  /** A net height other than the two values fails with its own message
      once the earlier paths pass. */
  lemma UnknownHeightMessage(b: AppointmentBody)
    requires b.court.Missing? && b.date.Given?
    requires b.begin.Given? && |b.begin.value| > 0 && b.end.Given? && |b.end.value| > 0
    requires b.peoplenumber.Given? && b.peoplenumber.value >= 0
    requires b.height.Given? && |b.height.value| > 0 && b.height.value !in Heights
    ensures var r := ValidateNew(b); r.Err? && FirstMessage(r.error.errors) == HEIGHT_ERROR
  {
    FirstFailingReported(b, 5);
  }

  /** One unknown tag anywhere in `info` fails with '請選擇說明敘述' once
      the top-level paths pass; the element paths come after `online`, so
      an explicit `online: null` is reported first. */
  lemma UnknownTagMessage(b: AppointmentBody, k: nat)
    requires b.court.Missing? && b.date.Given?
    requires b.begin.Given? && |b.begin.value| > 0 && b.end.Given? && |b.end.value| > 0
    requires b.peoplenumber.Given? && b.peoplenumber.value >= 0
    requires b.height.Given? && b.height.value in Heights
    requires b.info.Given? && k < |b.info.value| && b.info.value[k] !in InfoTags
    ensures var r := ValidateNew(b);
      r.Err? && FirstMessage(r.error.errors) == (if b.online.Null? then ONLINE_REQUIRED else INFO_ERROR)
  {
    var cs := Checks(WithDefaults(b), Create);
    CheckConditions(WithDefaults(b), Create);
    if b.online.Null? {
      FirstFailingReported(b, 7);
    } else {
      OnlyFailureReported(cs, Origins(b), 8);
    }
  }

  /** `begin` and `end` are free text: any two non-empty strings pass, in
      either order. */
  lemma BeginEndUnchecked(b: AppointmentBody, begin: string, end: string)
    requires ValidateNew(b).Ok? && |begin| > 0 && |end| > 0
    ensures var r := ValidateNew(b.(begin := Given(end), end := Given(begin)));
      r.Ok? && r.value.begin == end && r.value.end == begin
  {
  }
}

=== FILE: appointments_controller.dfy ===
/** The time-slot handlers: the administrator and public lists, lookup by
    id, creation and editing. */
module AppointmentsController {
  import opened Basics
  import opened Http
  import opened Store
  import opened Validation
  import opened AppointmentSchema
  import opened ListQuery
  import Crud

  const NOT_FOUND_MESSAGE: string := "查無開放時段"

  /** Time slots are searched on `height` and on every tag of `info` (a
      pattern on an array field matches when one element matches), and
      published by `online`. */
  function Schedule(rank: (string, Appointment) -> int): Collection<Appointment>
  {
    Collection((a: Appointment) => [a.height] + a.info, (a: Appointment) => a.online, rank)
  }

  /** `getAll`: every time slot, total = collection size. */
  function GetAll(db: Db<Appointment>, q: Query, re: Regex, rank: (string, Appointment) -> int)
    : ListReply<Appointment>
  {
    List(Schedule(rank), AllRecords, db, q, re)
  }

  /** `get`: online time slots only, total = number online. */
  function Get(db: Db<Appointment>, q: Query, re: Regex, rank: (string, Appointment) -> int)
    : ListReply<Appointment>
  {
    List(Schedule(rank), PublishedOnly, db, q, re)
  }

  function GetId(db: Db<Appointment>, id: string): (r: Response<Doc<Appointment>>)
    ensures r.success ==> r.result.Some? && SameId(r.result.value.id, id) && db.Reachable? && r.result.value in db.docs
    ensures !r.success ==> r.result.None? && r.message in {BAD_ID, NOT_FOUND_MESSAGE, UNKNOWN_ERROR}
  {
    Crud.GetId(db, id, NOT_FOUND_MESSAGE)
  }

  /** `create`: the body is validated with the schema defaults and stored. */
  function Create(db: Db<Appointment>, body: AppointmentBody, newId: string, now: int)
    : (r: (Response<Doc<Appointment>>, Db<Appointment>))
    ensures !r.0.success ==> r.1 == db
    ensures r.0.success <==> db.Reachable? && ValidateNew(body).Ok?
    ensures r.0.success ==> && r.0.result.Some? && ValidAppointment(r.0.result.value.body)
                            && r.0.result.value.body == ValidateNew(body).value
                            && r.1 == Reachable(db.docs + [r.0.result.value])
  {
    Crud.Create(db, ValidateNew(body), newId, now)
  }

  /** `edit`: the body is the update, checked by the update validators. */
  function Edit(db: Db<Appointment>, id: string, body: AppointmentBody, now: int)
    : (r: (Response<()>, Db<Appointment>))
    ensures !r.0.success ==> r.1 == db
    ensures r.0.success ==> && ValidatePatch(body).None?
                            && db.Reachable? && r.1.Reachable? && |r.1.docs| == |db.docs|
  {
    Crud.Edit(db, id, ValidatePatch(body), Patcher(body), now, NOT_FOUND_MESSAGE)
  }

  /** The update `findByIdAndUpdate` applies: `$set` of the present fields. */
  function Patcher(body: AppointmentBody): Appointment -> Appointment
  {
    (a: Appointment) => ApplyPatch(a, body)
  }

  predicate IsOnline(d: Doc<Appointment>)
  {
    d.body.online
  }

  /** Every stored time slot satisfies the schema. */
  ghost predicate ValidSchedule(db: Db<Appointment>)
  {
    db.Reachable? ==> forall i :: 0 <= i < |db.docs| ==> ValidAppointment(db.docs[i].body)
  }

  // ------------------------------------------------------------ properties

  /** A time slot matches a search exactly when its net height or one of
      its tags matches; the public list also requires `online`. */
  lemma SearchIsHeightOrTag(rank: (string, Appointment) -> int, scope: Scope, re: Regex, pattern: string,
                            d: Doc<Appointment>)
    ensures Selected(Schedule(rank), scope, re, pattern, d)
            <==> (scope == PublishedOnly ==> d.body.online)
                 && (re.matches(pattern, d.body.height)
                     || exists i :: 0 <= i < |d.body.info| && re.matches(pattern, d.body.info[i]))
  {
    var texts := [d.body.height] + d.body.info;
    assert texts[0] == d.body.height;
    assert forall i :: 0 <= i < |d.body.info| ==> texts[i + 1] == d.body.info[i];
    if AnyMatches(re, pattern, texts) {
      var j :| 0 <= j < |texts| && re.matches(pattern, texts[j]);
      if j > 0 {
        assert re.matches(pattern, d.body.info[j - 1]);
      }
    }
  }

  /** The public list never shows a time slot that is not online. */
  lemma GetOnlyOnline(db: Db<Appointment>, q: Query, re: Regex, rank: (string, Appointment) -> int, k: nat)
    requires var r := Get(db, q, re, rank);
      r.Replied? && r.response.success && r.response.result.Some? && k < |r.response.result.value.data|
    ensures Get(db, q, re, rank).response.result.value.data[k].body.online
  {
    PublicListOnlyPublished(Schedule(rank), db, q, re, k);
  }

  /** The public total counts the online time slots, whatever the search,
      sort and page. */
  lemma GetTotal(docs: seq<Doc<Appointment>>, q: Query, re: Regex, rank: (string, Appointment) -> int)
    requires var r := Get(Reachable(docs), q, re, rank); r.Replied? && r.response.success
    ensures Get(Reachable(docs), q, re, rank).response.result.value.total == Count(docs, IsOnline)
  {
    TotalIgnoresQuery(Schedule(rank), PublishedOnly, docs, q, re);
    assert forall i :: 0 <= i < |docs| ==> PublishedDoc(Schedule(rank))(docs[i]) == IsOnline(docs[i]);
    CountAgrees(docs, PublishedDoc(Schedule(rank)), IsOnline);
  }

  /** A created time slot is valid, carries the schema defaults for the
      keys the body left out, and is appended to the store. */
  lemma CreateAppliesDefaults(db: Db<Appointment>, body: AppointmentBody, newId: string, now: int)
    requires Create(db, body, newId, now).0.success
    ensures var (r, db') := Create(db, body, newId, now);
      && r.result.Some? && ValidAppointment(r.result.value.body)
      && (body.court.Missing? ==> r.result.value.body.court == "A")
      && (body.info.Missing? ==> r.result.value.body.info == [])
      && (body.online.Missing? ==> r.result.value.body.online)
      && db.Reachable? && db' == Reachable(db.docs + [r.result.value])
  {
  }

  /** Creating and editing keep every stored time slot valid. */
  lemma CreateKeepsScheduleValid(db: Db<Appointment>, body: AppointmentBody, newId: string, now: int)
    requires ValidSchedule(db)
    ensures ValidSchedule(Create(db, body, newId, now).1)
  {
  }

  lemma {:induction false} EditKeepsScheduleValid(db: Db<Appointment>, id: string, body: AppointmentBody, now: int)
    requires ValidSchedule(db)
    ensures ValidSchedule(Edit(db, id, body, now).1)
  {
    var update := Patcher(body);
    Crud.EditOutcomes(db, id, ValidatePatch(body), update, now, NOT_FOUND_MESSAGE);
    var (r, db') := Edit(db, id, body, now);
    if r.success {
      var k :| 0 <= k < |db.docs| && SameId(db.docs[k].id, id)
               && db'.docs[k] == db.docs[k].(body := update(db.docs[k].body), updatedAt := now)
               && forall j :: 0 <= j < |db.docs| && j != k ==> db'.docs[j] == db.docs[j];
      PatchKeepsValidity(db.docs[k].body, body);
      forall j | 0 <= j < |db'.docs|
        ensures ValidAppointment(db'.docs[j].body)
      {
        if j != k {
          assert db'.docs[j] == db.docs[j];
        }
      }
    }
  }

  /** Taking a slot offline is an edit with `online: false` alone: on
      success exactly the addressed slot goes offline and keeps every
      other field, so it drops out of the public list. */
  lemma TakeOffline(db: Db<Appointment>, id: string, now: int)
    requires Edit(db, id, OfflineBody, now).0.success
    ensures var db' := Edit(db, id, OfflineBody, now).1;
      && db.Reachable? && db'.Reachable? && |db'.docs| == |db.docs|
      && exists k :: 0 <= k < |db.docs| && SameId(db.docs[k].id, id)
           && db'.docs[k].body == db.docs[k].body.(online := false)
           && forall j :: 0 <= j < |db.docs| && j != k ==> db'.docs[j] == db.docs[j]
  {
    var patch := OfflineBody;
    OfflineBodyPasses();
    Crud.EditOutcomes(db, id, None, Patcher(patch), now, NOT_FOUND_MESSAGE);
    var db' := Edit(db, id, patch, now).1;
    var k :| 0 <= k < |db.docs| && SameId(db.docs[k].id, id)
             && db'.docs[k] == db.docs[k].(body := Patcher(patch)(db.docs[k].body), updatedAt := now)
             && forall j :: 0 <= j < |db.docs| && j != k ==> db'.docs[j] == db.docs[j];
    assert Patcher(patch)(db.docs[k].body) == db.docs[k].body.(online := false);
  }

  lemma OfflineBodyPasses()
    ensures ValidatePatch(OfflineBody).None?
  {
  }

  const OfflineBody: AppointmentBody :=
    AppointmentBody(Missing, Missing, Missing, Missing, Missing, Missing, Missing, Given(false))
}

=== FILE: basics.dfy ===
/** Small value types shared by every module of the model. */
module Basics {

  /** The outcome of an operation that may fail with an error value. */
  datatype Result<+T, +E> = Ok(value: T) | Err(error: E)

  /** A value that may be absent (`undefined` in the JavaScript source). */
  datatype Option<+T> = None | Some(value: T)

  /** One field of a JSON request body, as mongoose sees it: the key may be
      missing (`undefined`, so a schema default applies), explicitly `null`
      (no default applies, `required` fails), or given. */
  datatype Field<+T> = Missing | Null | Given(value: T)
  {
    /** The field takes part in an update: mongoose strips `undefined` keys. */
    predicate Present() {
      !Missing?
    }
  }

  /** Number of elements of `s` satisfying `p`. */
  function Count<T>(s: seq<T>, p: T -> bool): (n: nat)
    ensures n <= |s|
  {
    if |s| == 0 then 0 else Count(s[..|s| - 1], p) + (if p(s[|s| - 1]) then 1 else 0)
  }

  /** Two tests that agree on every element count the same elements. */
  lemma {:induction false} CountAgrees<T>(s: seq<T>, p: T -> bool, q: T -> bool)
    requires forall i :: 0 <= i < |s| ==> p(s[i]) == q(s[i])
    ensures Count(s, p) == Count(s, q)
  {
    if |s| > 0 {
      CountAgrees(s[..|s| - 1], p, q);
    }
  }

  /** `idx` lists, in increasing order, exactly the positions of `s` whose
      element satisfies `p`, and `r` holds the elements at those
      positions. */
  ghost predicate SelectedAt<T>(s: seq<T>, p: T -> bool, idx: seq<nat>, r: seq<T>)
  {
    && |idx| == |r|
    && (forall i :: 0 <= i < |idx| ==> idx[i] < |s| && r[i] == s[idx[i]])
    && (forall i, j :: 0 <= i < j < |idx| ==> idx[i] < idx[j])
    && (forall k :: 0 <= k < |s| ==> (p(s[k]) <==> k in idx))
  }

  /** The positions of `s` whose element satisfies `p`, in increasing
      order. */
  ghost function Positions<T>(s: seq<T>, p: T -> bool): seq<nat>
  {
    if |s| == 0 then []
    else Positions(s[..|s| - 1], p) + (if p(s[|s| - 1]) then [|s| - 1] else [])
  }

  /** Selecting one more element keeps the selection in order. */
  lemma SelectedAtSnoc<T>(s: seq<T>, p: T -> bool, idx: seq<nat>, r: seq<T>)
    requires |s| > 0 && SelectedAt(s[..|s| - 1], p, idx, r)
    ensures var last := |s| - 1;
      SelectedAt(s, p, idx + (if p(s[last]) then [last] else []), r + (if p(s[last]) then [s[last]] else []))
  {
  }

  /** The elements of `s` satisfying `p`, in their original order (see
      `FilterKeepsOrder`). */
  function Filter<T>(s: seq<T>, p: T -> bool): (r: seq<T>)
    ensures |r| == Count(s, p)
    ensures forall i :: 0 <= i < |r| ==> r[i] in s && p(r[i])
    ensures forall i :: 0 <= i < |s| && p(s[i]) ==> s[i] in r
    ensures multiset(r) <= multiset(s)
  {
    if |s| == 0 then []
    else
      var init := Filter(s[..|s| - 1], p);
      assert s == s[..|s| - 1] + [s[|s| - 1]];
      if p(s[|s| - 1]) then init + [s[|s| - 1]] else init
  }

  /** `Filter` keeps the original order: its result is `s` at exactly the
      positions whose element passes, taken in increasing order. */
  lemma {:induction false} FilterKeepsOrder<T>(s: seq<T>, p: T -> bool)
    ensures SelectedAt(s, p, Positions(s, p), Filter(s, p))
  {
    if |s| > 0 {
      FilterKeepsOrder(s[..|s| - 1], p);
      SelectedAtSnoc(s, p, Positions(s[..|s| - 1], p), Filter(s[..|s| - 1], p));
    }
  }
}

=== FILE: crud.dfy ===
/** The steps the product and appointment handlers share: the thrown
    failures and the three `catch` blocks that turn them into responses,
    the id lookup of `getId`, the update of `edit` and the insert of
    `create`. */
module Crud {
  import opened Basics
  import opened JsText
  import opened Http
  import opened Validation
  import opened Store

  /** What a handler's `try` block can throw: `new Error('ID')`, a
      mongoose `CastError`, `new Error('NOT FOUND')`, a `ValidationError`,
      or anything else (a store failure, a `TypeError`). */
  datatype Thrown = BadIdError | CastError | NotFoundError | Invalid(error: ValidationError) | Other

  predicate WellFormed(t: Thrown)
  {
    t.Invalid? ==> |t.error.errors| > 0
  }

  /** The `catch` of `getId`. */
  function CatchLookup<T>(t: Thrown, notFound: string): Response<T>
  {
    if t.CastError? || t.BadIdError? then Failure(BAD_REQUEST, BAD_ID)
    else if t.NotFoundError? then Failure(NOT_FOUND, notFound)
    else Failure(INTERNAL_SERVER_ERROR, UNKNOWN_ERROR)
  }

  /** The `catch` of `edit`: `getId`'s, plus a validation failure reported
      with its first path's message. */
  function CatchEdit<T>(t: Thrown, notFound: string): Response<T>
    requires WellFormed(t)
  {
    if t.CastError? || t.BadIdError? then Failure(BAD_REQUEST, BAD_ID)
    else if t.NotFoundError? then Failure(NOT_FOUND, notFound)
    else if t.Invalid? then Failure(BAD_REQUEST, FirstMessage(t.error.errors))
    else Failure(INTERNAL_SERVER_ERROR, UNKNOWN_ERROR)
  }

  /** The `catch` of `create`: a validation failure or 500. */
  function CatchCreate<T>(t: Thrown): Response<T>
    requires WellFormed(t)
  {
    if t.Invalid? then Failure(BAD_REQUEST, FirstMessage(t.error.errors))
    else Failure(INTERNAL_SERVER_ERROR, UNKNOWN_ERROR)
  }

  /** The three catch blocks agree on every failure they share: `edit`
      answers like `getId` except for validation failures, and like
      `create` on validation failures. */
  lemma CatchBlocksAgree<T>(t: Thrown, notFound: string)
    requires WellFormed(t)
    ensures !t.Invalid? ==> CatchEdit<T>(t, notFound) == CatchLookup<T>(t, notFound)
    ensures t.Invalid? ==> CatchEdit<T>(t, notFound) == CatchCreate<T>(t)
    ensures !CatchEdit<T>(t, notFound).success && CatchEdit<T>(t, notFound).result.None?
  {
  }

  /** `isMongoId` first (`new Error('ID')`), then the store's cast of the
      id (`CastError`), then the query. */
  function FindDoc<T>(db: Db<T>, id: string): (r: Result<Doc<T>, Thrown>)
    ensures r.Ok? ==> db.Reachable? && r.value in db.docs && SameId(r.value.id, id)
  {
    if !IsMongoId(id) then Err(BadIdError)
    else if !IsObjectIdText(id) then Err(CastError)
    else match db
      case Unreachable => Err(Other)
      case Reachable(docs) =>
        match FindIndex(docs, id)
        case None => Err(NotFoundError)
        case Some(k) => Ok(docs[k])
  }

  /** `getId`. */
  function GetId<T>(db: Db<T>, id: string, notFound: string): (r: Response<Doc<T>>)
    ensures r.success ==> && r.status == OK && r.result.Some? && SameId(r.result.value.id, id)
                          && db.Reachable? && r.result.value in db.docs
    ensures !r.success ==> && r.result.None?
                           && (r.status, r.message) in {(BAD_REQUEST, BAD_ID), (NOT_FOUND, notFound),
                                                        (INTERNAL_SERVER_ERROR, UNKNOWN_ERROR)}
    ensures r.status == INTERNAL_SERVER_ERROR <==> IsObjectIdText(id) && db.Unreachable?
  {
    ObjectIdTextIsMongoId(id);
    match FindDoc(db, id)
    case Ok(d) => Success(Some(d))
    case Err(t) => CatchLookup(t, notFound)
  }

  /** `getId` answers 400 exactly for the ids that are not 24 hexadecimal
      digits, without consulting the store; 404 for a well-formed id no
      document has; 200 with the first document holding the id otherwise. */
  lemma GetIdOutcomes<T>(db: Db<T>, id: string, notFound: string)
    ensures var r := GetId(db, id, notFound);
      && (r == Failure(BAD_REQUEST, BAD_ID) <==> !IsObjectIdText(id))
      && (!IsObjectIdText(id) ==> r == GetId(Reachable([]), id, notFound))
      && (r.status == NOT_FOUND <==>
            (IsObjectIdText(id) && db.Reachable? && forall j :: 0 <= j < |db.docs| ==> !SameId(db.docs[j].id, id)))
      && (r.success <==> IsObjectIdText(id) && db.Reachable? && exists j :: 0 <= j < |db.docs| && SameId(db.docs[j].id, id))
      && (r.success ==> r.result.Some? && SameId(r.result.value.id, id) && r.result.value in db.docs)
  {
    ObjectIdTextIsMongoId(id);
    if IsObjectIdText(id) && db.Reachable? {
      var k := FindIndex(db.docs, id);
    }
  }

  /** Ids are matched as ObjectIds: a document stored under a lower-case
      id is read and edited through the same id written in upper case. */
  lemma UpperCaseIdFound<T>(x: T, update: T -> T, now: int, notFound: string)
    ensures var stored := Doc("aaaaaaaaaaaaaaaaaaaaaaaa", 0, 0, x);
      && GetId(Reachable([stored]), "AAAAAAAAAAAAAAAAAAAAAAAA", notFound) == Success(Some(stored))
      && Edit(Reachable([stored]), "AAAAAAAAAAAAAAAAAAAAAAAA", None, update, now, notFound)
         == (Success(None), Reachable([stored.(body := update(x), updatedAt := now)]))
  {
    var upper := "AAAAAAAAAAAAAAAAAAAAAAAA";
    assert IsObjectIdText(upper) by {
      assert forall i :: 0 <= i < |upper| ==> upper[i] == 'A';
    }
    ObjectIdTextIsMongoId(upper);
    var stored := Doc("aaaaaaaaaaaaaaaaaaaaaaaa", 0, 0, x);
    assert SameId(stored.id, upper);
    assert FindIndex([stored], upper) == Some(0);
    assert FindDoc(Reachable([stored]), upper) == Ok(stored);
    assert UpdateAt([stored], 0, update, now) == [stored.(body := update(x), updatedAt := now)];
  }

  /** `findByIdAndUpdate(id, body, { runValidators: true }).orFail(...)`
      after the `isMongoId` check: the id is cast, the update validators
      run, then the store is queried. A failed edit leaves the store as it
      was. */
  function Edit<T>(db: Db<T>, id: string, invalid: Option<ValidationError>, update: T -> T,
                   now: int, notFound: string): (r: (Response<()>, Db<T>))
    requires invalid.Some? ==> |invalid.value.errors| > 0
    ensures !r.0.success ==> r.1 == db
    ensures r.0.success ==> && r.0 == Success(None) && invalid.None? && IsObjectIdText(id)
                            && db.Reachable? && r.1.Reachable? && |r.1.docs| == |db.docs|
  {
    var outcome: Result<nat, Thrown> :=
      if !IsMongoId(id) then Err(BadIdError)
      else if !IsObjectIdText(id) then Err(CastError)
      else if invalid.Some? then Err(Invalid(invalid.value))
      else match db
        case Unreachable => Err(Other)
        case Reachable(docs) =>
          match FindIndex(docs, id)
          case None => Err(NotFoundError)
          case Some(k) => Ok(k);
    match outcome
    case Ok(k) => (Success(None), Reachable(UpdateAt(db.docs, k, update, now)))
    case Err(t) => (CatchEdit(t, notFound), db)
  }

  /** Every edit outcome: a malformed id is refused first, then a failing
      update validator (even for an id no document has), then an absent
      id; a successful edit changes exactly the addressed document. */
  lemma EditOutcomes<T>(db: Db<T>, id: string, invalid: Option<ValidationError>, update: T -> T,
                        now: int, notFound: string)
    requires invalid.Some? ==> |invalid.value.errors| > 0
    ensures var (r, db') := Edit(db, id, invalid, update, now, notFound);
      && (!IsObjectIdText(id) ==> r == Failure(BAD_REQUEST, BAD_ID))
      && (IsObjectIdText(id) && invalid.Some? ==>
            r == Failure(BAD_REQUEST, FirstMessage(invalid.value.errors)))
      && ((IsObjectIdText(id) && invalid.None? && db.Reachable?
           && forall j :: 0 <= j < |db.docs| ==> !SameId(db.docs[j].id, id)) ==> r == Failure(NOT_FOUND, notFound))
      && (r.success <==> IsObjectIdText(id) && invalid.None? && db.Reachable?
                          && exists j :: 0 <= j < |db.docs| && SameId(db.docs[j].id, id))
      && (r.success ==>
            (&& r == Success(None) && db'.Reachable? && |db'.docs| == |db.docs|
             && exists k :: 0 <= k < |db.docs| && SameId(db.docs[k].id, id)
                  && db'.docs[k] == db.docs[k].(body := update(db.docs[k].body), updatedAt := now)
                  && forall j :: 0 <= j < |db.docs| && j != k ==> db'.docs[j] == db.docs[j]))
  {
    ObjectIdTextIsMongoId(id);
    if IsObjectIdText(id) && invalid.None? && db.Reachable? {
      var k := FindIndex(db.docs, id);
    }
  }

  /** `Model.create(body)`: validation, then the insert; the new document
      gets a fresh id and both timestamps. */
  function Create<T>(db: Db<T>, validated: Result<T, ValidationError>, newId: string, now: int): (r: (Response<Doc<T>>, Db<T>))
    requires validated.Err? ==> |validated.error.errors| > 0
    ensures !r.0.success ==> r.1 == db
    ensures r.0.success <==> validated.Ok? && db.Reachable?
    ensures validated.Err? ==> r.0 == Failure(BAD_REQUEST, FirstMessage(validated.error.errors))
    ensures r.0.success ==> r.0.result == Some(Doc(newId, now, now, validated.value))
                            && r.1 == Reachable(db.docs + [Doc(newId, now, now, validated.value)])
  {
    match validated
    case Err(e) => (CatchCreate(Invalid(e)), db)
    case Ok(body) =>
      match db
      case Unreachable => (CatchCreate(Other), db)
      case Reachable(docs) =>
        var d := Doc(newId, now, now, body);
        (Success(Some(d)), Reachable(docs + [d]))
  }
}

=== FILE: http.dfy ===
/** The JSON envelope every handler answers with, the status codes the
    backend uses, and the fixed messages shared by several handlers. */
module Http {
  import opened Basics

  const OK: int := 200
  const BAD_REQUEST: int := 400
  const FORBIDDEN: int := 403
  const NOT_FOUND: int := 404
  const INTERNAL_SERVER_ERROR: int := 500

  /** `{ success, message, result? }` sent with an HTTP status. */
  datatype Response<+T> = Response(status: int, success: bool, message: string, result: Option<T>)

  /** The success envelope: status 200, empty message. */
  function Success<T>(result: Option<T>): Response<T>
  {
    Response(OK, true, "", result)
  }

  /** A failure envelope: no result. */
  function Failure<T>(status: int, message: string): Response<T>
  {
    Response(status, false, message, None)
  }

  const UNKNOWN_ERROR: string := "未知錯誤"
  const BAD_ID: string := "ID 格式錯誤"
}

=== FILE: js_text.dfy ===
/** The pieces of JavaScript's string handling the backend relies on:
    `String.prototype.length`, `String.prototype.includes`, the global
    `parseInt`, and the two `validator` predicates whose definitions are
    plain character classes (`isAlphanumeric` for the default `en-US`
    locale, and `isMongoId`). */
module JsText {

  // ---------------------------------------------------------------- length

  /** UTF-16 code units used by one character. */
  function CodeUnits(c: char): nat
  {
    if c as int > 0xFFFF then 2 else 1
  }

  /** `s.length` in JavaScript: a count of UTF-16 code units, so a
      character outside the Basic Multilingual Plane counts twice. */
  function JsLength(s: string): (n: nat)
    ensures |s| <= n <= 2 * |s|
  {
    if |s| == 0 then 0 else JsLength(s[..|s| - 1]) + CodeUnits(s[|s| - 1])
  }

  lemma {:induction false} JsLengthAppend(a: string, b: string)
    ensures JsLength(a + b) == JsLength(a) + JsLength(b)
    decreases |b|
  {
    if |b| == 0 {
      assert a + b == a;
    } else {
      var b' := b[..|b| - 1];
      assert (a + b)[..|a + b| - 1] == a + b';
      JsLengthAppend(a, b');
    }
  }

  /** For text made only of Basic Multilingual Plane characters the
      JavaScript length is the number of characters. */
  lemma {:induction false} JsLengthOfBmpText(s: string)
    requires forall i :: 0 <= i < |s| ==> s[i] as int <= 0xFFFF
    ensures JsLength(s) == |s|
  {
    if |s| > 0 {
      JsLengthOfBmpText(s[..|s| - 1]);
    }
  }

  // -------------------------------------------------------------- includes

  predicate IsPrefix(p: string, s: string)
  {
    |p| <= |s| && s[..|p|] == p
  }

  /** `s.includes(sub)`: `sub` occurs somewhere in `s`. */
  predicate Includes(s: string, sub: string)
    decreases |s|
  {
    IsPrefix(sub, s) || (|s| > 0 && Includes(s[1..], sub))
  }

  /** `Includes` agrees with the positional reading: some index of `s`
      starts an occurrence of `sub`. */
  lemma {:induction false} IncludesAt(s: string, sub: string, i: nat)
    requires i + |sub| <= |s| && s[i..i + |sub|] == sub
    ensures Includes(s, sub)
    decreases i
  {
    if i == 0 {
      assert s[..|sub|] == sub;
    } else {
      assert s[1..][i - 1..i - 1 + |sub|] == s[i..i + |sub|];
      IncludesAt(s[1..], sub, i - 1);
    }
  }

  lemma {:induction false} IncludesHasPosition(s: string, sub: string) returns (i: nat)
    requires Includes(s, sub)
    ensures i + |sub| <= |s| && s[i..i + |sub|] == sub
    decreases |s|
  {
    if IsPrefix(sub, s) {
      i := 0;
    } else {
      var j := IncludesHasPosition(s[1..], sub);
      assert s[1..][j..j + |sub|] == s[j + 1..j + 1 + |sub|];
      i := j + 1;
    }
  }

  /** Whatever surrounds it, text containing `sub` includes it. */
  lemma IncludesInside(a: string, sub: string, b: string)
    ensures Includes(a + sub + b, sub)
  {
    var s := a + sub + b;
    assert s[|a|..|a| + |sub|] == sub;
    IncludesAt(s, sub, |a|);
  }

  // -------------------------------------------------------------- parseInt

  /** The result of the global `parseInt`: `NaN` or an integer value.
      A parsed `-0` is represented as `Num(0)`; both are falsy. */
  datatype Parsed = NaN | Num(value: int)

  /** StrWhiteSpaceChar of ECMAScript: WhiteSpace and LineTerminator. */
  predicate IsJsWhiteSpace(c: char)
  {
    var k := c as int;
    k == 0x09 || k == 0x0A || k == 0x0B || k == 0x0C || k == 0x0D || k == 0x20
    || k == 0xA0 || k == 0x1680 || (0x2000 <= k <= 0x200A) || k == 0x2028
    || k == 0x2029 || k == 0x202F || k == 0x205F || k == 0x3000 || k == 0xFEFF
  }

  function TrimStart(s: string): (r: string)
    ensures |r| <= |s|
    ensures |r| > 0 ==> !IsJsWhiteSpace(r[0])
  {
    if |s| > 0 && IsJsWhiteSpace(s[0]) then TrimStart(s[1..]) else s
  }

  /** Digit value of an ASCII letter or digit in radix 36; 36 otherwise. */
  function DigitValue(c: char): (d: nat)
    ensures d <= 36
  {
    if '0' <= c <= '9' then c as int - '0' as int
    else if 'a' <= c <= 'z' then c as int - 'a' as int + 10
    else if 'A' <= c <= 'Z' then c as int - 'A' as int + 10
    else 36
  }

  predicate IsDigitIn(c: char, radix: nat)
  {
    DigitValue(c) < radix
  }

  /** The longest prefix of `s` made of digits of `radix`. */
  function DigitPrefix(s: string, radix: nat): (z: string)
    ensures IsPrefix(z, s)
    ensures forall i :: 0 <= i < |z| ==> IsDigitIn(z[i], radix)
    ensures |z| < |s| ==> !IsDigitIn(s[|z|], radix)
  {
    if |s| > 0 && IsDigitIn(s[0], radix) then [s[0]] + DigitPrefix(s[1..], radix) else []
  }

  /** Positional value of a digit string. */
  function DigitsValue(z: string, radix: nat): nat
  {
    if |z| == 0 then 0
    else DigitsValue(z[..|z| - 1], radix) * radix + (if DigitValue(z[|z| - 1]) < radix then DigitValue(z[|z| - 1]) else 0)
  }

  /** `parseInt(s)` with no radix argument: skip leading white space, take
      an optional sign, then read the magnitude. */
  function ParseInt(s: string): (r: Parsed)
    ensures var t := TrimStart(s);
      (|t| == 0 || (t[0] != '-' && t[0] != '+' && !IsDigitIn(t[0], 10))) ==> r == NaN
    ensures var t := TrimStart(s); |t| > 0 && '1' <= t[0] <= '9' ==> r.Num? && r.value > 0
    ensures var t := TrimStart(s); r.Num? && r.value < 0 ==> t[0] == '-'
  {
    var t := TrimStart(s);
    if |t| > 0 && t[0] == '-' then Negate(ParseMagnitude(t[1..]))
    else if |t| > 0 && t[0] == '+' then ParseMagnitude(t[1..])
    else ParseMagnitude(t)
  }

  /** A digit string is worth at least its leading digit. */
  lemma {:induction false} LeadingDigitBound(z: string, radix: nat)
    requires |z| > 0 && radix >= 1
    requires forall i :: 0 <= i < |z| ==> IsDigitIn(z[i], radix)
    ensures DigitsValue(z, radix) >= DigitValue(z[0])
  {
    if |z| > 1 {
      var init := z[..|z| - 1];
      assert init[0] == z[0];
      LeadingDigitBound(init, radix);
      var v := DigitsValue(init, radix);
      assert DigitsValue(z, radix) >= v * radix;
      ScaleUp(v, radix);
    }
  }

  lemma ScaleUp(v: nat, k: nat)
    requires k >= 1
    ensures v * k >= v
  {
  }

  function Negate(p: Parsed): Parsed
  {
    match p
    case NaN => NaN
    case Num(v) => Num(-v)
  }

  /** An unsigned magnitude: a `0x`/`0X` prefix selects radix 16, radix 10
      otherwise; the longest run of digits is read, and no digits is `NaN`. */
  function ParseMagnitude(u: string): Parsed
  {
    if |u| >= 2 && u[0] == '0' && (u[1] == 'x' || u[1] == 'X') then ParseDigits(u[2..], 16)
    else ParseDigits(u, 10)
  }

  function ParseDigits(v: string, radix: nat): (r: Parsed)
    ensures r.Num? <==> |v| > 0 && IsDigitIn(v[0], radix)
    ensures r.Num? ==> r.value >= DigitValue(v[0])
  {
    var z := DigitPrefix(v, radix);
    if |z| == 0 then NaN
    else
      LeadingDigitBound(z, radix);
      Num(DigitsValue(z, radix))
  }

  /** Decimal text of a natural number, as `String(n)` writes it. */
  function NatText(n: nat): (s: string)
    ensures |s| > 0
    ensures forall i :: 0 <= i < |s| ==> '0' <= s[i] <= '9'
    ensures |s| > 1 ==> s[0] != '0'
  {
    if n < 10 then ['0' + n as char]
    else NatText(n / 10) + ['0' + (n % 10) as char]
  }

  /** Decimal text of an integer, with a leading `-` when negative. */
  function IntText(n: int): string
  {
    if n < 0 then "-" + NatText(-n) else NatText(n)
  }

  lemma {:induction false} DigitPrefixOfDigits(s: string)
    requires forall i :: 0 <= i < |s| ==> '0' <= s[i] <= '9'
    ensures DigitPrefix(s, 10) == s
  {
    if |s| > 0 {
      DigitPrefixOfDigits(s[1..]);
    }
  }

  lemma {:induction false} NatTextValue(n: nat)
    ensures DigitsValue(NatText(n), 10) == n
  {
    var s := NatText(n);
    if n >= 10 {
      NatTextValue(n / 10);
      assert s[..|s| - 1] == NatText(n / 10);
    }
  }

  lemma MagnitudeOfNatText(m: nat)
    ensures ParseMagnitude(NatText(m)) == Num(m)
  {
    DigitPrefixOfDigits(NatText(m));
    NatTextValue(m);
  }

  /** Without leading blank or sign, `parseInt` reads the magnitude. */
  lemma ParseIntUnsigned(s: string)
    requires |s| > 0 && !IsJsWhiteSpace(s[0]) && s[0] != '-' && s[0] != '+'
    ensures ParseInt(s) == ParseMagnitude(s)
  {
    assert TrimStart(s) == s;
  }

  /** A leading `-` negates the magnitude after it. */
  lemma ParseIntMinus(z: string)
    ensures ParseInt("-" + z) == Negate(ParseMagnitude(z))
  {
    var m := "-" + z;
    assert m[0] == '-' && m[1..] == z;
    assert !IsJsWhiteSpace(m[0]);
    assert TrimStart(m) == m;
  }

  /** A run of decimal digits has no radix prefix: it is read in radix 10
      as its value. */
  lemma MagnitudeOfDigits(z: string)
    requires |z| > 0 && forall i :: 0 <= i < |z| ==> '0' <= z[i] <= '9'
    ensures ParseMagnitude(z) == Num(DigitsValue(z, 10))
  {
    assert ParseMagnitude(z) == ParseDigits(z, 10);
    DigitPrefixOfDigits(z);
  }

  /** A run of decimal digits is read as its value. */
  lemma ParseIntOfDigits(z: string)
    requires |z| > 0 && forall i :: 0 <= i < |z| ==> '0' <= z[i] <= '9'
    ensures ParseInt(z) == Num(DigitsValue(z, 10))
  {
    MagnitudeOfDigits(z);
    ParseIntUnsigned(z);
  }

  /** A run of decimal digits after a `-` is read as the negated value. */
  lemma ParseIntOfNegatedDigits(z: string)
    requires |z| > 0 && forall i :: 0 <= i < |z| ==> '0' <= z[i] <= '9'
    ensures ParseInt("-" + z) == Num(-(DigitsValue(z, 10) as int))
  {
    ParseIntMinus(z);
    MagnitudeOfDigits(z);
  }

  /** `parseInt` reads back the decimal text of every integer. */
  lemma ParseIntText(n: int)
    ensures ParseInt(IntText(n)) == Num(n)
  {
    if n < 0 {
      NatTextValue(-n);
      ParseIntOfNegatedDigits(NatText(-n));
    } else {
      NatTextValue(n);
      ParseIntOfDigits(NatText(n));
    }
  }

  /** A text whose first non-blank character is neither a sign nor a digit
      parses to `NaN`. */
  lemma ParseIntNoDigits(s: string)
    requires var t := TrimStart(s); |t| > 0 && t[0] != '-' && t[0] != '+' && !IsDigitIn(t[0], 10)
    ensures ParseInt(s) == NaN
  {
  }

  /** The digit run stops at the first character that is not a digit. */
  lemma {:induction false} DigitPrefixStops(z: string, rest: string, radix: nat)
    requires forall i :: 0 <= i < |z| ==> IsDigitIn(z[i], radix)
    requires |rest| > 0 ==> !IsDigitIn(rest[0], radix)
    ensures DigitPrefix(z + rest, radix) == z
  {
    if |z| > 0 {
      assert (z + rest)[1..] == z[1..] + rest;
      DigitPrefixStops(z[1..], rest, radix);
    } else {
      assert z + rest == rest;
    }
  }

  /** `parseInt` reads the decimal text of a natural number and ignores
      whatever follows it from the first character that is not a digit
      (an `x` right after a lone `0` would select radix 16 instead). */
  lemma ParseIntIgnoresTail(n: nat, rest: string)
    requires |rest| > 0 ==> !IsDigitIn(rest[0], 10) && rest[0] != 'x' && rest[0] != 'X'
    ensures ParseInt(NatText(n) + rest) == Num(n)
  {
    var z := NatText(n);
    var s := z + rest;
    assert s[0] == z[0] && '0' <= s[0] <= '9';
    ParseIntUnsigned(s);
    assert |s| >= 2 ==> s[1] == (if |z| >= 2 then z[1] else rest[0]);
    assert ParseMagnitude(s) == ParseDigits(s, 10);
    DigitPrefixStops(z, rest, 10);
    NatTextValue(n);
  }

  /** A `0x` prefix selects radix 16. */
  lemma ParseIntOfPrefixedHex(z: string)
    requires |z| > 0 && forall i :: 0 <= i < |z| ==> IsDigitIn(z[i], 16)
    ensures ParseInt("0x" + z) == Num(DigitsValue(z, 16))
  {
    var u := "0x" + z;
    assert u[0] == '0' && u[1] == 'x' && u[2..] == z;
    ParseIntUnsigned(u);
    assert z + "" == z;
    DigitPrefixStops(z, "", 16);
  }

  /** `parseInt` on a few texts a query string may carry. */
  lemma ParseIntOfNonNumeric()
    ensures ParseInt("abc") == NaN
  {
    var t := "abc";
    assert t[0] == 'a';
    ParseIntUnsigned(t);
    assert DigitPrefix(t, 10) == [];
  }

  lemma ParseIntOfZeros()
    ensures ParseInt("0") == Num(0)
    ensures ParseInt("-0") == Num(0)
  {
    var z := "0";
    assert "-" + z == "-0";
    ParseIntOfDigits(z);
    ParseIntOfNegatedDigits(z);
  }

  lemma ParseIntOfTrailingGarbage()
    ensures ParseInt("12abc") == Num(12)
  {
    assert NatText(12) == NatText(1) + ['2'] == "12";
    assert "12abc" == NatText(12) + "abc";
    assert "abc"[0] == 'a';
    ParseIntIgnoresTail(12, "abc");
  }

  lemma ParseIntOfBlankSigned()
    ensures ParseInt(" -3") == Num(-3)
  {
    var t := " -3";
    assert IsJsWhiteSpace(t[0]) && t[1..] == "-3";
    assert !IsJsWhiteSpace('-');
    assert TrimStart(t) == "-3";
    assert IntText(-3) == "-3";
    ParseIntText(-3);
  }

  /** `parseInt('-1')` is -1. */
  lemma ParseIntOfMinusOne()
    ensures ParseInt("-1") == Num(-1)
  {
    assert IntText(-1) == "-1";
    ParseIntText(-1);
  }

  // ------------------------------------------------------------ validators

  /** `validator.isAlphanumeric(s)` with the default `en-US` locale:
      `/^[0-9A-Z]+$/i`. */
  predicate IsAlphanumeric(s: string)
  {
    |s| > 0 && forall i :: 0 <= i < |s| ==> DigitValue(s[i]) < 36
  }

  predicate IsHexDigits(s: string)
  {
    |s| > 0 && forall i :: 0 <= i < |s| ==> IsDigitIn(s[i], 16)
  }

  /** `validator.isHexadecimal(s)`: `/^(0x|0h)?[0-9a-f]+$/i`. */
  predicate IsHexadecimal(s: string)
  {
    IsHexDigits(s)
    || (|s| > 2 && s[0] == '0' && s[1] in "xXhH" && IsHexDigits(s[2..]))
  }

  /** `validator.isMongoId(s)`: hexadecimal and 24 code units long. */
  predicate IsMongoId(s: string)
  {
    IsHexadecimal(s) && JsLength(s) == 24
  }

  /** The store's ObjectId cast accepts exactly 24 hexadecimal digits. */
  predicate IsObjectIdText(s: string)
  {
    |s| == 24 && IsHexDigits(s)
  }

  /** Every id the store can cast passes `isMongoId`; the converse fails
      only for the `0x`/`0h`-prefixed texts. */
  lemma ObjectIdTextIsMongoId(s: string)
    ensures IsObjectIdText(s) ==> IsMongoId(s)
    ensures IsMongoId(s) && !IsObjectIdText(s) ==> s[0] == '0' && s[1] in "xXhH"
  {
    if IsObjectIdText(s) {
      JsLengthOfBmpText(s);
    }
    if IsMongoId(s) && !IsObjectIdText(s) {
      if IsHexDigits(s) {
        JsLengthOfBmpText(s);
      }
    }
  }

  /** Every `0x`-prefixed text of 22 hexadecimal digits passes `isMongoId`
      but the cast refuses it. */
  lemma PrefixedIdPassesFormatCheck(z: string)
    requires |z| == 22 && IsHexDigits(z)
    ensures IsMongoId("0x" + z) && !IsObjectIdText("0x" + z)
  {
    var id := "0x" + z;
    assert id[0] == '0' && id[1] == 'x' && id[2..] == z;
    assert !IsDigitIn(id[1], 16);
    forall i | 0 <= i < |id|
      ensures id[i] as int <= 0xFFFF
    {
      if i >= 2 {
        assert id[i] == z[i - 2];
      }
    }
    JsLengthOfBmpText(id);
  }

  // --------------------------------------------------------- case folding

  function AsciiLower(c: char): char
  {
    if 'A' <= c <= 'Z' then (c as int + 32) as char else c
  }

  /** Equality up to ASCII letter case. */
  predicate SameIgnoringAsciiCase(a: string, b: string)
  {
    |a| == |b| && forall i :: 0 <= i < |a| ==> AsciiLower(a[i]) == AsciiLower(b[i])
  }
}

=== FILE: list_query.dfy ===
/** The list semantics shared by the product and appointment listings
    (`getAll` for administrators, `get` for the public site): query
    parameters with their `|| default` fall-backs, a case-insensitive
    pattern tried against the record's searchable texts, an optional
    published-only filter, a sort on one field, the skip/limit window, and
    the reported total. */
module ListQuery {
  import opened Basics
  import opened JsText
  import opened Http
  import opened Store
  import opened Sorting

  // ------------------------------------------------------------ parameters

  /** The query-string values the list handlers read (absent = undefined). */
  datatype Query = Query(sortBy: Option<string>, sortOrder: Option<string>,
                         itemsPerPage: Option<string>, page: Option<string>,
                         search: Option<string>)

  const NoQuery: Query := Query(None, None, None, None, None)

  /** The parameters after the fall-backs are applied. */
  datatype Params = Params(sortBy: string, sortOrder: int, itemsPerPage: int, page: int, search: string)

  /** `value || fallback` on a query string: undefined and '' are falsy. */
  function TextOr(v: Option<string>, fallback: string): (r: string)
    ensures v.Some? && |v.value| > 0 ==> r == v.value
    ensures r != fallback ==> v == Some(r)
  {
    if v.Some? && |v.value| > 0 then v.value else fallback
  }

  /** `parseInt(value) || fallback`: `parseInt(undefined)` is NaN, and NaN
      and zero are falsy. */
  function IntOr(v: Option<string>, fallback: int): (r: int)
    ensures fallback != 0 ==> r != 0
    ensures r != fallback ==> v.Some? && ParseInt(v.value) == Num(r)
    ensures v.Some? && ParseInt(v.value).Num? && ParseInt(v.value).value != 0 ==> r == ParseInt(v.value).value
  {
    var parsed := if v.Some? then ParseInt(v.value) else NaN;
    if parsed.Num? && parsed.value != 0 then parsed.value else fallback
  }

  function ReadParams(q: Query): (p: Params)
    ensures |p.sortBy| > 0 && p.sortOrder != 0 && p.itemsPerPage != 0 && p.page != 0
    ensures q.search.Some? ==> p.search == q.search.value
    ensures q.search.None? ==> p.search == ""
  {
    Params(TextOr(q.sortBy, "createdAt"), IntOr(q.sortOrder, -1), IntOr(q.itemsPerPage, 20),
           IntOr(q.page, 1), TextOr(q.search, ""))
  }

  /** With no query string, or with zero or non-numeric values, the list
      is sorted by `createdAt`, descending, 20 per page, first page. */
  lemma ReadParamsDefaults(sortOrder: string, itemsPerPage: string, page: string)
    requires ParseInt(sortOrder) in {NaN, Num(0)}
    requires ParseInt(itemsPerPage) in {NaN, Num(0)}
    requires ParseInt(page) in {NaN, Num(0)}
    ensures ReadParams(NoQuery) == Params("createdAt", -1, 20, 1, "")
    ensures ReadParams(Query(Some(""), Some(sortOrder), Some(itemsPerPage), Some(page), Some("")))
            == Params("createdAt", -1, 20, 1, "")
  {
  }

  /** Every non-zero integer written in the query is kept as it is,
      negatives included. */
  lemma {:induction false} ReadParamsKeepsNonZero(sortOrder: int, itemsPerPage: int, page: int)
    requires sortOrder != 0 && itemsPerPage != 0 && page != 0
    ensures var p := ReadParams(Query(None, Some(IntText(sortOrder)), Some(IntText(itemsPerPage)),
                                      Some(IntText(page)), None));
            p.sortOrder == sortOrder && p.itemsPerPage == itemsPerPage && p.page == page
  {
    ParseIntText(sortOrder);
    ParseIntText(itemsPerPage);
    ParseIntText(page);
  }

  // ------------------------------------------------------ search and scope

  /** The pattern engine of `new RegExp(search, 'i')`: whether the text
      compiles (an invalid pattern throws), and whether a compiled pattern
      matches a text ignoring case. */
  datatype Regex = Regex(compiles: string -> bool, matches: (string, string) -> bool)

  /** A store filter `{ $or: [{ f1: regex }, { f2: regex }] }` over string
      and string-array fields: some searchable text matches. */
  predicate AnyMatches(re: Regex, pattern: string, texts: seq<string>)
  {
    exists i :: 0 <= i < |texts| && re.matches(pattern, texts[i])
  }

  /** What the list handlers need to know of a record type: its
      searchable texts, its published flag, and the sort rank of a record
      on any field other than the two timestamps. */
  datatype Collection<!T> = Collection(texts: T -> seq<string>, published: T -> bool,
                                      rank: (string, T) -> int)

  /** `getAll` lists every record; `get` only the published ones. */
  datatype Scope = AllRecords | PublishedOnly

  predicate Selected<T>(c: Collection<T>, scope: Scope, re: Regex, pattern: string, d: Doc<T>)
  {
    (scope == PublishedOnly ==> c.published(d.body)) && AnyMatches(re, pattern, c.texts(d.body))
  }

  /** The key of `.sort({ [field]: order })`: timestamps sort by their
      value, other fields by the store's rank. */
  function SortKey<T>(c: Collection<T>, field: string, d: Doc<T>): int
  {
    if field == "createdAt" then d.createdAt
    else if field == "updatedAt" then d.updatedAt
    else c.rank(field, d.body)
  }

  // ---------------------------------------------------------------- window

  datatype Limit = Unlimited | AtMost(n: nat)

  /** `.limit(itemsPerPage === -1 ? undefined : itemsPerPage)`: -1 lifts the
      limit; another negative value asks the store for a single batch of
      its absolute value. */
  function LimitOf(itemsPerPage: int): (l: Limit)
    ensures itemsPerPage == -1 <==> l == Unlimited
    ensures itemsPerPage > 0 ==> l == AtMost(itemsPerPage)
  {
    if itemsPerPage == -1 then Unlimited
    else AtMost(if itemsPerPage < 0 then -itemsPerPage else itemsPerPage)
  }

  /** `.skip((page - 1) * itemsPerPage)`. */
  function SkipOf(p: Params): int
  {
    (p.page - 1) * p.itemsPerPage
  }

  /** `.skip(skip).limit(limit)` over an ordered result. */
  function Window<T>(s: seq<T>, skip: nat, limit: Limit): (r: seq<T>)
    ensures skip >= |s| ==> r == []
    ensures limit == Unlimited && skip <= |s| ==> r == s[skip..]
    ensures limit.AtMost? ==> |r| <= limit.n
    ensures limit.AtMost? && skip + limit.n <= |s| ==> |r| == limit.n
    ensures limit.AtMost? && skip <= |s| ==> |r| == (if limit.n <= |s| - skip then limit.n else |s| - skip)
    ensures forall i :: 0 <= i < |r| ==> skip + i < |s| && r[i] == s[skip + i]
  {
    var rest := if skip <= |s| then s[skip..] else [];
    match limit
    case Unlimited => rest
    case AtMost(n) => if n < |rest| then rest[..n] else rest
  }

  // ------------------------------------------------------------ the handler

  datatype Page<T> = Page(data: seq<Doc<T>>, total: nat)

  /** A list reply; a negative skip (a negative page size beyond the first
      page, or a negative page) is passed to the store, whose answer the
      model leaves open. */
  datatype ListReply<T> = Replied(response: Response<Page<T>>) | SkipLeftToStore(skip: int)

  /** The matching records, in collection order. */
  function Matched<T>(c: Collection<T>, scope: Scope, re: Regex, pattern: string, docs: seq<Doc<T>>): seq<Doc<T>>
  {
    Filter(docs, d => Selected(c, scope, re, pattern, d))
  }

  /** The sort key of `.sort({ [field]: order })`: ascending in the field
      for 1, descending for -1. */
  function OrderKey<T>(c: Collection<T>, field: string, order: int): Doc<T> -> int
  {
    (d: Doc<T>) => order * SortKey(c, field, d)
  }

  /** The matching records in the requested order (`order` is 1 or -1). */
  function Ordered<T>(c: Collection<T>, field: string, order: int, matched: seq<Doc<T>>): seq<Doc<T>>
  {
    SortBy(matched, OrderKey(c, field, order))
  }

  /** The published filter as a test on stored documents. */
  function PublishedDoc<T>(c: Collection<T>): Doc<T> -> bool
  {
    (d: Doc<T>) => c.published(d.body)
  }

  /** `estimatedDocumentCount()` for `getAll`; `countDocuments` of the
      published filter alone for `get`. */
  function Total<T>(c: Collection<T>, scope: Scope, docs: seq<Doc<T>>): nat
  {
    match scope
    case AllRecords => |docs|
    case PublishedOnly => Count(docs, PublishedDoc(c))
  }

  /** `getAll` (scope `AllRecords`) and `get` (scope `PublishedOnly`). The
      pattern is compiled first, then the sort is built (the query builder
      throws on a sort value other than 1 or -1), then the query runs; every
      throw ends in 500 '未知錯誤'. */
  function List<T>(c: Collection<T>, scope: Scope, db: Db<T>, q: Query, re: Regex): (r: ListReply<T>)
    ensures r.SkipLeftToStore? ==> r.skip < 0 && re.compiles(ReadParams(q).search)
    ensures r.Replied? && !r.response.success ==> r.response == Failure(INTERNAL_SERVER_ERROR, UNKNOWN_ERROR)
    ensures r.Replied? && r.response.success ==>
              && db.Reachable? && re.compiles(ReadParams(q).search) && ReadParams(q).sortOrder in {1, -1}
              && r.response.result.Some?
  {
    var p := ReadParams(q);
    if !re.compiles(p.search) || (p.sortOrder != 1 && p.sortOrder != -1) then
      Replied(Failure(INTERNAL_SERVER_ERROR, UNKNOWN_ERROR))
    else if SkipOf(p) < 0 then
      SkipLeftToStore(SkipOf(p))
    else match db
      case Unreachable => Replied(Failure(INTERNAL_SERVER_ERROR, UNKNOWN_ERROR))
      case Reachable(docs) =>
        var ordered := Ordered(c, p.sortBy, p.sortOrder, Matched(c, scope, re, p.search, docs));
        Replied(Success(Some(Page(Window(ordered, SkipOf(p), LimitOf(p.itemsPerPage)),
                                  Total(c, scope, docs)))))
  }

  /** A list succeeds exactly when the pattern compiles, the sort order is
      1 or -1, the skip is not negative and the store answers; every
      failure it reports is 500 '未知錯誤'. */
  lemma ListOutcome<T>(c: Collection<T>, scope: Scope, db: Db<T>, q: Query, re: Regex)
    ensures var p := ReadParams(q); var r := List(c, scope, db, q, re);
      && (r.SkipLeftToStore? <==> re.compiles(p.search) && p.sortOrder in {1, -1} && SkipOf(p) < 0)
      && (r.Replied? && r.response.success <==>
            re.compiles(p.search) && p.sortOrder in {1, -1} && SkipOf(p) >= 0 && db.Reachable?)
      && (r.Replied? && !r.response.success ==>
            r.response == Failure(INTERNAL_SERVER_ERROR, UNKNOWN_ERROR))
  {
  }

  /** Helper: a member of the matched records satisfies the filter. */
  lemma MatchedAreSelected<T>(c: Collection<T>, scope: Scope, re: Regex, pattern: string,
                              docs: seq<Doc<T>>, x: Doc<T>)
    requires x in multiset(Matched(c, scope, re, pattern, docs))
    ensures x in docs && Selected(c, scope, re, pattern, x)
  {
    var m := Matched(c, scope, re, pattern, docs);
    assert x in m;
    var i :| 0 <= i < |m| && m[i] == x;
  }

  /** Every listed record is a stored record that matches the search and,
      for the public list, is published. */
  lemma {:induction false} ListedRecordsAreSelected<T>(c: Collection<T>, scope: Scope, db: Db<T>, q: Query,
                                                       re: Regex, k: nat)
    requires var r := List(c, scope, db, q, re);
      r.Replied? && r.response.success && r.response.result.Some? && k < |r.response.result.value.data|
    ensures db.Reachable?
    ensures var d := List(c, scope, db, q, re).response.result.value.data[k];
      d in db.docs && Selected(c, scope, re, ReadParams(q).search, d)
  {
    var p := ReadParams(q);
    var m := Matched(c, scope, re, p.search, db.docs);
    var o := Ordered(c, p.sortBy, p.sortOrder, m);
    var w := Window(o, SkipOf(p), LimitOf(p.itemsPerPage));
    assert List(c, scope, db, q, re).response.result.value.data == w;
    assert w[k] == o[SkipOf(p) + k];
    assert w[k] in multiset(o);
    MatchedAreSelected(c, scope, re, p.search, db.docs, w[k]);
  }

  /** The public list never contains an unpublished record. */
  lemma PublicListOnlyPublished<T>(c: Collection<T>, db: Db<T>, q: Query, re: Regex, k: nat)
    requires var r := List(c, PublishedOnly, db, q, re);
      r.Replied? && r.response.success && r.response.result.Some? && k < |r.response.result.value.data|
    ensures c.published(List(c, PublishedOnly, db, q, re).response.result.value.data[k].body)
  {
    ListedRecordsAreSelected(c, PublishedOnly, db, q, re, k);
  }

  /** With `itemsPerPage=-1` on the first page every matching record is
      returned, each as often as it is stored. */
  lemma UnlimitedFirstPageIsComplete<T>(c: Collection<T>, scope: Scope, docs: seq<Doc<T>>, q: Query, re: Regex)
    requires q.itemsPerPage == Some("-1") && q.page.None?
    requires var p := ReadParams(q); re.compiles(p.search) && p.sortOrder in {1, -1}
    ensures var r := List(c, scope, Reachable(docs), q, re);
      r.Replied? && r.response.success
      && multiset(r.response.result.value.data)
         == multiset(Matched(c, scope, re, ReadParams(q).search, docs))
  {
    ParseIntOfMinusOne();
    var p := ReadParams(q);
    assert p.itemsPerPage == -1 && p.page == 1;
    assert SkipOf(p) == 0;
    var ordered := Ordered(c, p.sortBy, p.sortOrder, Matched(c, scope, re, p.search, docs));
    assert Window(ordered, 0, LimitOf(p.itemsPerPage)) == ordered[0..] == ordered;
  }

  /** A page holds at most `itemsPerPage` records when that is positive:
      exactly that many when enough matches lie beyond the skip, the rest
      of the matches on a short last page, none past the end. */
  lemma {:induction false} PageSizeBound<T>(c: Collection<T>, scope: Scope, docs: seq<Doc<T>>, q: Query, re: Regex)
    requires var r := List(c, scope, Reachable(docs), q, re); r.Replied? && r.response.success
    requires ReadParams(q).itemsPerPage > 0
    ensures var p := ReadParams(q);
      var data := List(c, scope, Reachable(docs), q, re).response.result.value.data;
      var matched := |Matched(c, scope, re, p.search, docs)|;
      && |data| <= p.itemsPerPage
      && (SkipOf(p) + p.itemsPerPage <= matched ==> |data| == p.itemsPerPage)
      && (SkipOf(p) <= matched ==> |data| == (if p.itemsPerPage <= matched - SkipOf(p) then p.itemsPerPage
                                              else matched - SkipOf(p)))
      && (SkipOf(p) >= matched ==> data == [])
  {
    var p := ReadParams(q);
    var o := Ordered(c, p.sortBy, p.sortOrder, Matched(c, scope, re, p.search, docs));
    assert |o| == |Matched(c, scope, re, p.search, docs)|;
  }

  /** A page is the run of the ordered matches starting right after the
      `(page - 1) * itemsPerPage` records of the earlier pages. */
  lemma PageIsOffsetRun<T>(c: Collection<T>, scope: Scope, docs: seq<Doc<T>>, q: Query, re: Regex, k: nat)
    requires var r := List(c, scope, Reachable(docs), q, re);
      r.Replied? && r.response.success && k < |r.response.result.value.data|
    ensures var p := ReadParams(q);
      var o := Ordered(c, p.sortBy, p.sortOrder, Matched(c, scope, re, p.search, docs));
      SkipOf(p) + k < |o|
      && List(c, scope, Reachable(docs), q, re).response.result.value.data[k] == o[SkipOf(p) + k]
  {
    var p := ReadParams(q);
    var o := Ordered(c, p.sortBy, p.sortOrder, Matched(c, scope, re, p.search, docs));
    var w := Window(o, SkipOf(p), LimitOf(p.itemsPerPage));
    assert List(c, scope, Reachable(docs), q, re).response.result.value.data == w;
  }

  /** Helper: a window of a key-ordered sequence is key-ordered. */
  lemma WindowKeepsOrder<T>(s: seq<T>, skip: nat, limit: Limit, key: T -> int)
    requires SortedBy(s, key)
    ensures SortedBy(Window(s, skip, limit), key)
  {
    var w := Window(s, skip, limit);
    forall i, j | 0 <= i < j < |w|
      ensures key(w[i]) <= key(w[j])
    {
      assert w[i] == s[skip + i] && w[j] == s[skip + j];
    }
  }

  /** Listed records follow the requested field and direction: ascending
      for 1, descending for -1. */
  lemma {:induction false} ListIsOrdered<T>(c: Collection<T>, scope: Scope, docs: seq<Doc<T>>, q: Query, re: Regex,
                                            i: nat, j: nat)
    requires var r := List(c, scope, Reachable(docs), q, re);
      r.Replied? && r.response.success && i < j < |r.response.result.value.data|
    ensures var p := ReadParams(q);
      var data := List(c, scope, Reachable(docs), q, re).response.result.value.data;
      && (p.sortOrder == 1 ==> SortKey(c, p.sortBy, data[i]) <= SortKey(c, p.sortBy, data[j]))
      && (p.sortOrder == -1 ==> SortKey(c, p.sortBy, data[i]) >= SortKey(c, p.sortBy, data[j]))
  {
    var p := ReadParams(q);
    var key := OrderKey(c, p.sortBy, p.sortOrder);
    var o := Ordered(c, p.sortBy, p.sortOrder, Matched(c, scope, re, p.search, docs));
    var w := Window(o, SkipOf(p), LimitOf(p.itemsPerPage));
    assert List(c, scope, Reachable(docs), q, re).response.result.value.data == w;
    WindowKeepsOrder(o, SkipOf(p), LimitOf(p.itemsPerPage), key);
    assert key(w[i]) <= key(w[j]);
  }

  /** With the default parameters the newest records come first. */
  lemma DefaultListNewestFirst<T>(c: Collection<T>, scope: Scope, docs: seq<Doc<T>>, re: Regex, i: nat, j: nat)
    requires var r := List(c, scope, Reachable(docs), NoQuery, re);
      r.Replied? && r.response.success && i < j < |r.response.result.value.data|
    ensures var data := List(c, scope, Reachable(docs), NoQuery, re).response.result.value.data;
      data[i].createdAt >= data[j].createdAt
  {
    ListIsOrdered(c, scope, docs, NoQuery, re, i, j);
  }

  /** The reported total depends on the scope and the collection only:
      `getAll` reports the collection size and `get` the number of
      published records, whatever the search, sort and page. */
  lemma TotalIgnoresQuery<T>(c: Collection<T>, scope: Scope, docs: seq<Doc<T>>, q: Query, re: Regex)
    requires var r := List(c, scope, Reachable(docs), q, re); r.Replied? && r.response.success
    ensures var total := List(c, scope, Reachable(docs), q, re).response.result.value.total;
      && (scope == AllRecords ==> total == |docs|)
      && (scope == PublishedOnly ==> total == Count(docs, PublishedDoc(c)))
  {
  }

  /** If the engine compiles the empty pattern and it matches any text,
      an empty search keeps every record of the scope. */
  lemma EmptySearchSelectsScope<T>(c: Collection<T>, scope: Scope, re: Regex, d: Doc<T>)
    requires forall t :: re.matches("", t)
    requires |c.texts(d.body)| > 0
    ensures Selected(c, scope, re, "", d) <==> (scope == PublishedOnly ==> c.published(d.body))
  {
    assert re.matches("", c.texts(d.body)[0]);
  }
}

=== FILE: passport.dfy ===
/** The two authentication strategies: the bearer-token check, with its
    manual expiry rule and the token-list lookup that makes revocation
    work, and the e-mail/password login. Signature checking, token
    extraction and the bcrypt comparison are parameters or happen before
    the strategies run. */
module Passport {
  import opened Basics
  import opened JsText
  import opened Http
  import opened Store
  import opened UserSchema

  const EXPIRED_MESSAGE: string := "JWT 過期"
  const INVALID_TOKEN_MESSAGE: string := "JWT 無效"
  const NO_ACCOUNT_MESSAGE: string := "帳號不存在"
  const WRONG_PASSWORD_MESSAGE: string := "密碼錯誤"

  /** The decoded payload of a token whose signature checked out: the user
      id and the expiry time in seconds (absent when the token has none). */
  datatype Payload = Payload(id: string, exp: Option<int>)

  /** What the strategy hands on: the user and the presented token, or no
      user and a message. */
  datatype JwtOutcome = Accepted(user: Doc<User>, token: string) | Rejected(message: string)

  datatype LoginOutcome = LoggedIn(user: Doc<User>) | LoginRejected(message: string)

  /** `payload.exp * 1000 < Date.now()`: seconds against milliseconds. A
      missing `exp` gives `NaN`, and a comparison with `NaN` is false. */
  predicate Expired(exp: Option<int>, nowMs: int)
  {
    exp.Some? && exp.value * 1000 < nowMs
  }

  /** The request paths (`req.baseUrl + req.path`, as written in the
      request) on which an expired token is still looked up. */
  predicate ExemptPath(url: string)
  {
    url == "/users/extend" || url == "/users/logout"
  }

  /** Position of the first user with id `id` whose `tokens` hold `token`
      (`findOne({ _id, tokens: token })`). */
  function FindHolder(docs: seq<Doc<User>>, id: string, token: string): (r: Option<nat>)
    ensures r.Some? ==> r.value < |docs| && docs[r.value].id == id && token in docs[r.value].body.tokens
    ensures r.None? <==> forall j :: 0 <= j < |docs| ==> !(docs[j].id == id && token in docs[j].body.tokens)
  {
    if |docs| == 0 then None
    else if docs[0].id == id && token in docs[0].body.tokens then Some(0)
    else match FindHolder(docs[1..], id, token)
      case None => None
      case Some(k) => Some(k + 1)
  }

  /** The `jwt` strategy callback. The expiry rule comes first, then the
      lookup (an id the store cannot cast, or a store failure, ends in
      '未知錯誤'). */
  function VerifyJwt(db: Db<User>, p: Payload, url: string, token: string, nowMs: int): (r: JwtOutcome)
    ensures r == Rejected(EXPIRED_MESSAGE) <==> Expired(p.exp, nowMs) && !ExemptPath(url)
    ensures r.Accepted? ==> && db.Reachable? && IsObjectIdText(p.id)
                            && r.user in db.docs && r.user.id == p.id
                            && r.token == token && token in r.user.body.tokens
    ensures r.Rejected? ==> r.message in {EXPIRED_MESSAGE, INVALID_TOKEN_MESSAGE, UNKNOWN_ERROR}
  {
    if Expired(p.exp, nowMs) && !ExemptPath(url) then Rejected(EXPIRED_MESSAGE)
    else if !IsObjectIdText(p.id) then Rejected(UNKNOWN_ERROR)
    else match db
      case Unreachable => Rejected(UNKNOWN_ERROR)
      case Reachable(docs) =>
        match FindHolder(docs, p.id, token)
        case None => Rejected(INVALID_TOKEN_MESSAGE)
        case Some(k) => Accepted(docs[k], token)
  }

  /** Position of the first user with the given e-mail (`findOne({ email })`). */
  function FindByEmail(docs: seq<Doc<User>>, email: string): (r: Option<nat>)
    ensures r.Some? ==> r.value < |docs| && docs[r.value].body.email == email
                        && forall j :: 0 <= j < r.value ==> docs[j].body.email != email
    ensures r.None? <==> forall j :: 0 <= j < |docs| ==> docs[j].body.email != email
  {
    if |docs| == 0 then None
    else if docs[0].body.email == email then Some(0)
    else match FindByEmail(docs[1..], email)
      case None => None
      case Some(k) => Some(k + 1)
  }

  /** The `login` strategy callback; `matches(password, hash)` is bcrypt's
      `compareSync`. */
  function Login(db: Db<User>, email: string, password: string, matches: (string, string) -> bool): (r: LoginOutcome)
    ensures r == LoginRejected(UNKNOWN_ERROR) <==> db.Unreachable?
    ensures r.LoggedIn? ==> && db.Reachable? && r.user in db.docs && r.user.body.email == email
                            && matches(password, r.user.body.password)
    ensures r.LoginRejected? ==> r.message in {UNKNOWN_ERROR, NO_ACCOUNT_MESSAGE, WRONG_PASSWORD_MESSAGE}
  {
    match db
    case Unreachable => LoginRejected(UNKNOWN_ERROR)
    case Reachable(docs) =>
      match FindByEmail(docs, email)
      case None => LoginRejected(NO_ACCOUNT_MESSAGE)
      case Some(k) =>
        if !matches(password, docs[k].body.password) then LoginRejected(WRONG_PASSWORD_MESSAGE)
        else LoggedIn(docs[k])
  }

  /** The state after a token leaves a user's list (what logging out, or
      swapping the token for a new one, does to the old token). */
  function Revoke(db: Db<User>, id: string, token: string): (r: Db<User>)
    ensures r.Reachable? <==> db.Reachable?
    ensures r.Reachable? ==> |r.docs| == |db.docs|
  {
    match db
    case Unreachable => Unreachable
    case Reachable(docs) =>
      Reachable(seq(|docs|, i requires 0 <= i < |docs| =>
        if docs[i].id == id
        then docs[i].(body := docs[i].body.(tokens := Filter(docs[i].body.tokens, (t: string) => t != token)))
        else docs[i]))
  }

  // ------------------------------------------------------------ properties

  /** An expired token is accepted only on an exempt path. */
  lemma ExpiredAcceptedOnlyWhenExempt(db: Db<User>, p: Payload, url: string, token: string, nowMs: int)
    requires Expired(p.exp, nowMs) && VerifyJwt(db, p, url, token, nowMs).Accepted?
    ensures ExemptPath(url)
  {
  }

  /** An expired token is refused with 'JWT 過期' on every path but the two
      exempt ones, before any lookup: whatever the store holds, revoked
      tokens and store failures included. */
  lemma ExpiredRejectedUnlessExempt(db: Db<User>, p: Payload, url: string, token: string, nowMs: int)
    requires Expired(p.exp, nowMs) && !ExemptPath(url)
    ensures VerifyJwt(db, p, url, token, nowMs) == Rejected(EXPIRED_MESSAGE)
    ensures VerifyJwt(db, p, url, token, nowMs) == VerifyJwt(Unreachable, p, url, token, nowMs)
  {
  }

  /** On the exempt paths the expiry is not looked at: the outcome is the
      one the same token without `exp` would get. */
  lemma ExemptPathsIgnoreExpiry(db: Db<User>, p: Payload, url: string, token: string, nowMs: int)
    requires ExemptPath(url)
    ensures VerifyJwt(db, p, url, token, nowMs) == VerifyJwt(db, p.(exp := None), url, token, nowMs)
    ensures VerifyJwt(db, p, url, token, nowMs) != Rejected(EXPIRED_MESSAGE)
  {
  }

  /** Past the expiry step, with a castable id and a reachable store, a
      token is accepted exactly when some user with the payload's id lists
      it, and the authenticated value is that user with the presented
      token; otherwise it is refused with 'JWT 無效'. */
  lemma AcceptedIffListed(docs: seq<Doc<User>>, p: Payload, url: string, token: string, nowMs: int)
    requires !Expired(p.exp, nowMs) || ExemptPath(url)
    requires IsObjectIdText(p.id)
    ensures var r := VerifyJwt(Reachable(docs), p, url, token, nowMs);
      && (r.Accepted? <==> exists j :: 0 <= j < |docs| && docs[j].id == p.id && token in docs[j].body.tokens)
      && (r.Accepted? ==> r.user in docs && r.user.id == p.id && token in r.user.body.tokens && r.token == token)
      && (!r.Accepted? ==> r == Rejected(INVALID_TOKEN_MESSAGE))
  {
    var k := FindHolder(docs, p.id, token);
    if k.None? {
      assert !exists j :: 0 <= j < |docs| && docs[j].id == p.id && token in docs[j].body.tokens;
    }
  }

  /** Every outcome is acceptance or one of the three messages, and only
      acceptance carries a user. */
  lemma JwtMessages(db: Db<User>, p: Payload, url: string, token: string, nowMs: int)
    ensures var r := VerifyJwt(db, p, url, token, nowMs);
      r.Rejected? ==> r.message in {EXPIRED_MESSAGE, INVALID_TOKEN_MESSAGE, UNKNOWN_ERROR}
  {
  }

  /** Revocation: once a token has left the user's list, every later
      request presenting it with that user's id is refused, on every path
      and at every time, expired or not. */
  lemma {:induction false} RevokedTokenRejected(db: Db<User>, p: Payload, url: string, token: string, nowMs: int)
    ensures !VerifyJwt(Revoke(db, p.id, token), p, url, token, nowMs).Accepted?
  {
    var db' := Revoke(db, p.id, token);
    if db'.Reachable? && IsObjectIdText(p.id) && (!Expired(p.exp, nowMs) || ExemptPath(url)) {
      forall j | 0 <= j < |db'.docs| && db'.docs[j].id == p.id
        ensures token !in db'.docs[j].body.tokens
      {
        var ts := db.docs[j].body.tokens;
        var kept := Filter(ts, (t: string) => t != token);
        assert db'.docs[j].body.tokens == kept;
      }
    }
  }

  /** Revoking one token leaves every other listed token of the user
      working. */
  lemma {:induction false} RevokeKeepsOtherTokens(db: Db<User>, id: string, token: string, other: string, j: nat)
    requires db.Reachable? && j < |db.docs| && other != token && other in db.docs[j].body.tokens
    ensures other in Revoke(db, id, token).docs[j].body.tokens
  {
    var ts := db.docs[j].body.tokens;
    var i :| 0 <= i < |ts| && ts[i] == other;
    assert ts[i] != token;
  }

  /** Login looks the e-mail up before comparing the password: an unknown
      e-mail is '帳號不存在' whatever the password; a known one with a
      mismatching password is '密碼錯誤'; success yields the first user
      with that e-mail, whose stored hash matches the password. */
  lemma LoginOutcomes(docs: seq<Doc<User>>, email: string, password: string, matches: (string, string) -> bool)
    ensures var r := Login(Reachable(docs), email, password, matches);
      && ((forall j :: 0 <= j < |docs| ==> docs[j].body.email != email) <==> r == LoginRejected(NO_ACCOUNT_MESSAGE))
      && (r == LoginRejected(WRONG_PASSWORD_MESSAGE) <==>
            exists k :: 0 <= k < |docs| && docs[k].body.email == email
                        && (forall j :: 0 <= j < k ==> docs[j].body.email != email)
                        && !matches(password, docs[k].body.password))
      && (r.LoggedIn? ==> && r.user in docs && r.user.body.email == email
                          && matches(password, r.user.body.password))
  {
    var k := FindByEmail(docs, email);
    if k.Some? {
      forall k' | 0 <= k' < |docs| && docs[k'].body.email == email
                  && (forall j :: 0 <= j < k' ==> docs[j].body.email != email)
        ensures k' == k.value
      {
      }
    }
  }

  /** With e-mails unique (the store's unique index), the user a login
      yields is the only one with that e-mail. */
  lemma LoginUserIsUnique(docs: seq<Doc<User>>, email: string, password: string, matches: (string, string) -> bool)
    requires forall i, j :: 0 <= i < j < |docs| ==> docs[i].body.email != docs[j].body.email
    requires Login(Reachable(docs), email, password, matches).LoggedIn?
    ensures forall j :: 0 <= j < |docs| && docs[j].body.email == email ==>
              docs[j] == Login(Reachable(docs), email, password, matches).user
  {
  }

  /** A store failure gives '未知錯誤' and no user to either strategy. */
  lemma StoreFailureIsUnknown(p: Payload, url: string, token: string, nowMs: int,
                              email: string, password: string, matches: (string, string) -> bool)
    requires !Expired(p.exp, nowMs) || ExemptPath(url)
    ensures VerifyJwt(Unreachable, p, url, token, nowMs) == Rejected(UNKNOWN_ERROR)
    ensures Login(Unreachable, email, password, matches) == LoginRejected(UNKNOWN_ERROR)
  {
  }
}

=== FILE: product_schema.dfy ===
/** The product schema: six required fields, a category enum, no
    default for the published flag and no range on the price. */
module ProductSchema {
  import opened Basics
  import opened Validation

  /** A stored product. */
  datatype Product = Product(name: string, price: int, image: string, description: string,
                             category: string, sell: bool)

  /** A product as it arrives in a request body. */
  datatype ProductBody = ProductBody(name: Field<string>, price: Field<int>, image: Field<string>,
                                     description: Field<string>, category: Field<string>,
                                     sell: Field<bool>)

  const Categories: seq<string> := ["排球衣", "排球褲", "排球襪", "排球鞋", "球具", "配件"]

  const CATEGORY_ERROR: string := "商品分類錯誤"

  /** What every stored product satisfies. */
  predicate ValidProduct(p: Product)
  {
    |p.name| > 0 && |p.image| > 0 && |p.description| > 0 && p.category in Categories
  }

  function CategoryCheck(f: Field<string>): Option<string>
  {
    var required := RequiredString(f, "缺少商品分類");
    if required.Some? then required
    else if f.value !in Categories then Some(CATEGORY_ERROR)
    else None
  }

  /** The paths of the schema, in declaration order, with their checks. */
  function Checks(b: ProductBody, mode: Mode): seq<(string, Option<string>)>
  {
    [ ("name", InScope(mode, b.name, RequiredString(b.name, "缺少商品名稱"))),
      ("price", InScope(mode, b.price, Required(b.price, "缺少商品價格"))),
      ("image", InScope(mode, b.image, RequiredString(b.image, "缺少商品圖片"))),
      ("description", InScope(mode, b.description, RequiredString(b.description, "缺少商品說明"))),
      ("category", InScope(mode, b.category, CategoryCheck(b.category))),
      ("sell", InScope(mode, b.sell, Required(b.sell, "缺少商品上架狀態"))) ]
  }

  /** Path by path: when each check of a new product passes. */
  lemma CreateConditions(b: ProductBody)
    ensures var cs := Checks(b, Create);
      && |cs| == 6
      && (cs[0].1.None? <==> b.name.Given? && |b.name.value| > 0)
      && (cs[1].1.None? <==> b.price.Given?)
      && (cs[2].1.None? <==> b.image.Given? && |b.image.value| > 0)
      && (cs[3].1.None? <==> b.description.Given? && |b.description.value| > 0)
      && (cs[4].1.None? <==> b.category.Given? && b.category.value in Categories)
      && (cs[5].1.None? <==> b.sell.Given?)
  {
  }

  /** All six checks pass exactly when no error is gathered. */
  lemma NoErrorIffAllPass(b: ProductBody, mode: Mode)
    ensures var cs := Checks(b, mode);
      |Gather(cs)| == 0 <==> (&& cs[0].1.None? && cs[1].1.None? && cs[2].1.None? && cs[3].1.None?
                               && cs[4].1.None? && cs[5].1.None?)
  {
    var cs := Checks(b, mode);
    if cs[0].1.None? && cs[1].1.None? && cs[2].1.None? && cs[3].1.None? && cs[4].1.None? && cs[5].1.None? {
      forall i | 0 <= i < |cs|
        ensures cs[i].1.None?
      {
        if i == 0 {} else if i == 1 {} else if i == 2 {} else if i == 3 {} else if i == 4 {} else {}
      }
    }
  }

  /** Where each path of a new product stands; no path has a default. */
  function Origins(b: ProductBody): seq<Origin>
  {
    [ OriginOf(b.name, false), OriginOf(b.price, false), OriginOf(b.image, false),
      OriginOf(b.description, false), OriginOf(b.category, false), OriginOf(b.sell, false) ]
  }

  /** Validation of a new product (`products.create`): every path is
      checked, and the errors come in the order of `CreateOrder`. */
  function ValidateNew(b: ProductBody): (r: Result<Product, ValidationError>)
    ensures r.Ok? <==> (&& b.name.Given? && |b.name.value| > 0 && b.price.Given?
                        && b.image.Given? && |b.image.value| > 0
                        && b.description.Given? && |b.description.value| > 0
                        && b.category.Given? && b.category.value in Categories && b.sell.Given?)
    ensures r.Ok? ==> ValidProduct(r.value)
                      && r.value == Product(b.name.value, b.price.value, b.image.value,
                                            b.description.value, b.category.value, b.sell.value)
    ensures r.Err? ==> |r.error.errors| > 0
  {
    var cs := Checks(b, Create);
    NoErrorIffAllPass(b, Create);
    CreateConditions(b);
    if |Gather(cs)| > 0 then
      Err(ValidationError(CreateErrors(cs, Origins(b))))
    else
      Ok(Product(b.name.value, b.price.value, b.image.value, b.description.value,
                 b.category.value, b.sell.value))
  }

  /** Update validators: the present paths only. */
  function ValidatePatch(b: ProductBody): (r: Option<ValidationError>)
    ensures r.None? <==> (&& (b.name.Present() ==> b.name.Given? && |b.name.value| > 0)
                          && (b.price.Present() ==> b.price.Given?)
                          && (b.image.Present() ==> b.image.Given? && |b.image.value| > 0)
                          && (b.description.Present() ==> b.description.Given? && |b.description.value| > 0)
                          && (b.category.Present() ==> b.category.Given? && b.category.value in Categories)
                          && (b.sell.Present() ==> b.sell.Given?))
    ensures r.Some? ==> |r.value.errors| > 0
  {
    var errs := Gather(Checks(b, Update));
    NoErrorIffAllPass(b, Update);
    if |errs| > 0 then Some(ValidationError(errs)) else None
  }

  /** `$set` of the present fields of an update. */
  function ApplyPatch(p: Product, b: ProductBody): (r: Product)
    ensures b.name.Missing? ==> r.name == p.name
    ensures b.price.Missing? ==> r.price == p.price
    ensures b.image.Missing? ==> r.image == p.image
    ensures b.description.Missing? ==> r.description == p.description
    ensures b.category.Missing? ==> r.category == p.category
    ensures b.sell.Missing? ==> r.sell == p.sell
    ensures b.name.Given? ==> r.name == b.name.value
    ensures b.price.Given? ==> r.price == b.price.value
    ensures b.image.Given? ==> r.image == b.image.value
    ensures b.description.Given? ==> r.description == b.description.value
    ensures b.category.Given? ==> r.category == b.category.value
    ensures b.sell.Given? ==> r.sell == b.sell.value
  {
    Product(Assign(b.name, p.name), Assign(b.price, p.price), Assign(b.image, p.image),
            Assign(b.description, p.description), Assign(b.category, p.category), Assign(b.sell, p.sell))
  }

  /** An update that passes the update validators keeps a valid product
      valid. */
  lemma PatchKeepsValidity(p: Product, b: ProductBody)
    requires ValidProduct(p) && ValidatePatch(b).None?
    ensures ValidProduct(ApplyPatch(p, b))
  {
  }

  /** A new product missing some required path reports the missing path
      declared last, whatever else is wrong. */
  lemma LastMissingReportedFirst(b: ProductBody, k: nat)
    requires k < 6 && Origins(b)[k] == Unset
    requires forall j :: k < j < 6 ==> Origins(b)[j] != Unset
    ensures Checks(b, Create)[k].1.Some?
    ensures var r := ValidateNew(b); r.Err? && FirstMessage(r.error.errors) == Checks(b, Create)[k].1.value
  {
    FirstUnsetReported(Checks(b, Create), Origins(b), k);
  }

  /** A new product with every path present reports the first failing
      path in declaration order. */
  lemma FirstFailingReported(b: ProductBody, k: nat)
    requires forall j :: 0 <= j < 6 ==> Origins(b)[j] != Unset
    requires k < 6 && Checks(b, Create)[k].1.Some?
    requires forall j :: 0 <= j < k ==> Checks(b, Create)[j].1.None?
    ensures var r := ValidateNew(b); r.Err? && FirstMessage(r.error.errors) == Checks(b, Create)[k].1.value
  {
    FirstAssignedReported(Checks(b, Create), Origins(b), k);
  }

  /** With the other paths present, a missing, null or empty name is
      reported before any other problem. */
  lemma MissingNameReportedFirst(b: ProductBody)
    requires b.name.Missing? || b.name.Null? || b.name == Given("")
    requires b.price.Present() && b.image.Present() && b.description.Present()
    requires b.category.Present() && b.sell.Present()
    ensures var r := ValidateNew(b); r.Err? && FirstMessage(r.error.errors) == "缺少商品名稱"
  {
    if b.name.Missing? {
      LastMissingReportedFirst(b, 0);
    } else {
      FirstFailingReported(b, 0);
    }
  }

  /** Unset required paths are reported last declared first: a body
      without name and price is told that the price is missing. */
  lemma MissingPriceBeforeName(b: ProductBody)
    requires b.name.Missing? && b.price.Missing?
    requires b.image.Present() && b.description.Present() && b.category.Present() && b.sell.Present()
    ensures var r := ValidateNew(b); r.Err? && FirstMessage(r.error.errors) == "缺少商品價格"
  {
    LastMissingReportedFirst(b, 1);
  }

  /** A category outside the six values fails with its own message once
      the earlier fields pass and nothing is missing. */
  lemma UnknownCategoryMessage(b: ProductBody)
    requires b.name.Given? && |b.name.value| > 0 && b.price.Given?
    requires b.image.Given? && |b.image.value| > 0
    requires b.description.Given? && |b.description.value| > 0
    requires b.category.Given? && |b.category.value| > 0 && b.category.value !in Categories
    requires b.sell.Present()
    ensures var r := ValidateNew(b); r.Err? && FirstMessage(r.error.errors) == CATEGORY_ERROR
  {
    FirstFailingReported(b, 4);
  }

  /** `sell` has no default: leaving it out of an otherwise valid body
      fails with '缺少商品上架狀態'. */
  lemma MissingSellFails(b: ProductBody)
    requires b.name.Given? && |b.name.value| > 0 && b.price.Given?
    requires b.image.Given? && |b.image.value| > 0
    requires b.description.Given? && |b.description.value| > 0
    requires b.category.Given? && b.category.value in Categories
    requires b.sell.Missing?
    ensures var r := ValidateNew(b); r.Err? && FirstMessage(r.error.errors) == "缺少商品上架狀態"
  {
    LastMissingReportedFirst(b, 5);
  }

  /** Any price, negative ones included, passes validation. */
  lemma PriceIsUnconstrained(b: ProductBody, price: int)
    requires ValidateNew(b).Ok?
    ensures ValidateNew(b.(price := Given(price))) == Ok(ValidateNew(b).value.(price := price))
  {
  }
}

=== FILE: products_controller.dfy ===
/** The product handlers: the administrator and public lists, lookup by
    id, creation with the uploaded image path, and editing. */
module ProductsController {
  import opened Basics
  import opened Http
  import opened Store
  import opened ProductSchema
  import opened ListQuery
  import opened Validation
  import Crud

  const NOT_FOUND_MESSAGE: string := "查無商品"

  /** Products are searched on `name` and `description` and published by
      `sell`. */
  function Catalog(rank: (string, Product) -> int): Collection<Product>
  {
    Collection((p: Product) => [p.name, p.description], (p: Product) => p.sell, rank)
  }

  /** `getAll`: every product, total = collection size. */
  function GetAll(db: Db<Product>, q: Query, re: Regex, rank: (string, Product) -> int): ListReply<Product>
  {
    List(Catalog(rank), AllRecords, db, q, re)
  }

  /** `get`: products on sale only, total = number on sale. */
  function Get(db: Db<Product>, q: Query, re: Regex, rank: (string, Product) -> int): ListReply<Product>
  {
    List(Catalog(rank), PublishedOnly, db, q, re)
  }

  function GetId(db: Db<Product>, id: string): (r: Response<Doc<Product>>)
    ensures r.success ==> r.result.Some? && SameId(r.result.value.id, id) && db.Reachable? && r.result.value in db.docs
    ensures !r.success ==> r.result.None? && r.message in {BAD_ID, NOT_FOUND_MESSAGE, UNKNOWN_ERROR}
  {
    Crud.GetId(db, id, NOT_FOUND_MESSAGE)
  }

  /** `create`: `req.body.image = req.file.path` runs first, so without an
      uploaded file the handler throws before validating anything. */
  function Create(db: Db<Product>, body: ProductBody, file: Option<string>, newId: string, now: int)
    : (r: (Response<Doc<Product>>, Db<Product>))
    ensures !r.0.success ==> r.1 == db
    ensures r.0.success <==> file.Some? && db.Reachable? && ValidateNew(body.(image := Given(file.value))).Ok?
    ensures r.0.success ==> && r.0.result.Some? && r.0.result.value.body.image == file.value
                            && ValidProduct(r.0.result.value.body)
                            && r.1 == Reachable(db.docs + [r.0.result.value])
  {
    if file.None? then (Failure(INTERNAL_SERVER_ERROR, UNKNOWN_ERROR), db)
    else Crud.Create(db, ValidateNew(body.(image := Given(file.value))), newId, now)
  }

  /** The update `edit` sends: `req.body.image = req.file?.path` replaces
      whatever image the body carried, and an `undefined` image is dropped
      from the update. */
  function EditPatch(body: ProductBody, file: Option<string>): ProductBody
  {
    body.(image := if file.Some? then Given(file.value) else Missing)
  }

  function Edit(db: Db<Product>, id: string, body: ProductBody, file: Option<string>, now: int)
    : (r: (Response<()>, Db<Product>))
    ensures !r.0.success ==> r.1 == db
    ensures r.0.success ==> && ValidatePatch(EditPatch(body, file)).None?
                            && db.Reachable? && r.1.Reachable? && |r.1.docs| == |db.docs|
  {
    var patch := EditPatch(body, file);
    Crud.Edit(db, id, ValidatePatch(patch), Patcher(patch), now, NOT_FOUND_MESSAGE)
  }

  /** The update `findByIdAndUpdate` applies: `$set` of the present fields. */
  function Patcher(patch: ProductBody): Product -> Product
  {
    (p: Product) => ApplyPatch(p, patch)
  }

  predicate OnSale(d: Doc<Product>)
  {
    d.body.sell
  }

  /** Every stored product satisfies the schema. */
  ghost predicate ValidCatalog(db: Db<Product>)
  {
    db.Reachable? ==> forall i :: 0 <= i < |db.docs| ==> ValidProduct(db.docs[i].body)
  }

  // ------------------------------------------------------------ properties

  /** A product matches a search exactly when its name or its description
      matches; the public list also requires `sell`, the administrator list
      does not look at it. */
  lemma SearchIsNameOrDescription(rank: (string, Product) -> int, scope: Scope, re: Regex, pattern: string,
                                  d: Doc<Product>)
    ensures Selected(Catalog(rank), scope, re, pattern, d)
            <==> (scope == PublishedOnly ==> d.body.sell)
                 && (re.matches(pattern, d.body.name) || re.matches(pattern, d.body.description))
  {
    var texts := [d.body.name, d.body.description];
    if re.matches(pattern, d.body.name) {
      assert re.matches(pattern, texts[0]);
    }
    if re.matches(pattern, d.body.description) {
      assert re.matches(pattern, texts[1]);
    }
  }

  /** The public list never shows a product that is not on sale. */
  lemma GetOnlyOnSale(db: Db<Product>, q: Query, re: Regex, rank: (string, Product) -> int, k: nat)
    requires var r := Get(db, q, re, rank);
      r.Replied? && r.response.success && r.response.result.Some? && k < |r.response.result.value.data|
    ensures Get(db, q, re, rank).response.result.value.data[k].body.sell
  {
    PublicListOnlyPublished(Catalog(rank), db, q, re, k);
  }

  /** The totals: the administrator list reports the whole collection and
      the public list the number of products on sale, whatever the search,
      sort and page. */
  lemma GetAllTotal(docs: seq<Doc<Product>>, q: Query, re: Regex, rank: (string, Product) -> int)
    requires var r := GetAll(Reachable(docs), q, re, rank); r.Replied? && r.response.success
    ensures GetAll(Reachable(docs), q, re, rank).response.result.value.total == |docs|
  {
    TotalIgnoresQuery(Catalog(rank), AllRecords, docs, q, re);
  }

  lemma GetTotal(docs: seq<Doc<Product>>, q: Query, re: Regex, rank: (string, Product) -> int)
    requires var r := Get(Reachable(docs), q, re, rank); r.Replied? && r.response.success
    ensures Get(Reachable(docs), q, re, rank).response.result.value.total
            == Count(docs, OnSale)
  {
    TotalIgnoresQuery(Catalog(rank), PublishedOnly, docs, q, re);
    assert forall i :: 0 <= i < |docs| ==> PublishedDoc(Catalog(rank))(docs[i]) == OnSale(docs[i]);
    CountAgrees(docs, PublishedDoc(Catalog(rank)), OnSale);
  }

  /** Without an uploaded file `create` answers 500 '未知錯誤' and stores
      nothing, whatever the body, an invalid one included. */
  lemma CreateWithoutFile(db: Db<Product>, body: ProductBody, newId: string, now: int)
    ensures Create(db, body, None, newId, now) == (Failure(INTERNAL_SERVER_ERROR, UNKNOWN_ERROR), db)
  {
  }

  /** With a file, a created product stores the uploaded path as its image
      (an image given in the body is ignored), is valid, and is appended. */
  lemma CreateStoresUploadedImage(db: Db<Product>, body: ProductBody, path: string, newId: string, now: int)
    requires Create(db, body, Some(path), newId, now).0.success
    ensures var (r, db') := Create(db, body, Some(path), newId, now);
      && r.result.Some? && r.result.value.body.image == path && ValidProduct(r.result.value.body)
      && r.result.value.id == newId && r.result.value.createdAt == now
      && db.Reachable? && db' == Reachable(db.docs + [r.result.value])
  {
  }

  /** With a file, validation failures are reported with the first failing
      path's message. */
  lemma CreateValidationMessage(db: Db<Product>, body: ProductBody, path: string, newId: string, now: int)
    requires ValidateNew(body.(image := Given(path))).Err?
    ensures Create(db, body, Some(path), newId, now).0
            == Failure(BAD_REQUEST, FirstMessage(ValidateNew(body.(image := Given(path))).error.errors))
  {
  }

  /** Creating and editing keep every stored product valid. */
  lemma CreateKeepsCatalogValid(db: Db<Product>, body: ProductBody, file: Option<string>, newId: string, now: int)
    requires ValidCatalog(db)
    ensures ValidCatalog(Create(db, body, file, newId, now).1)
  {
  }

  lemma {:induction false} EditKeepsCatalogValid(db: Db<Product>, id: string, body: ProductBody, file: Option<string>, now: int)
    requires ValidCatalog(db)
    ensures ValidCatalog(Edit(db, id, body, file, now).1)
  {
    var patch := EditPatch(body, file);
    var update := Patcher(patch);
    Crud.EditOutcomes(db, id, ValidatePatch(patch), update, now, NOT_FOUND_MESSAGE);
    var (r, db') := Edit(db, id, body, file, now);
    if r.success {
      var k :| 0 <= k < |db.docs| && SameId(db.docs[k].id, id)
               && db'.docs[k] == db.docs[k].(body := update(db.docs[k].body), updatedAt := now)
               && forall j :: 0 <= j < |db.docs| && j != k ==> db'.docs[j] == db.docs[j];
      PatchKeepsValidity(db.docs[k].body, patch);
      forall j | 0 <= j < |db'.docs|
        ensures ValidProduct(db'.docs[j].body)
      {
        if j != k {
          assert db'.docs[j] == db.docs[j];
        }
      }
    }
  }

  /** The edited product's image is the uploaded path when a file comes
      with the request and stays as stored otherwise; an image string in
      the body never reaches the store. */
  lemma EditImageComesFromUpload(p: Product, body: ProductBody, file: Option<string>)
    ensures var after := ApplyPatch(p, EditPatch(body, file));
      after.image == (if file.Some? then file.value else p.image)
  {
  }
}

=== FILE: routes.dfy ===
/** The three routers as data: each route is a method, a path pattern,
    the guards that run before the handler, and the handler. A request is
    dispatched to the first route, in registration order, whose method
    and pattern match; its guards then run in order until one answers. */
module Routes {
  import opened Basics
  import opened JsText
  import opened Http
  import opened Admin

  /** The request method. `OtherMethod` is any method no route registers
      other than OPTIONS: the `cors` middleware answers an allowed-origin
      OPTIONS request itself, before any router, and that preflight is not
      modelled. */
  datatype Method = GET | HEAD | POST | PATCH | DELETE | OtherMethod

  /** A path segment of a route pattern: literal text or a `:param`. */
  datatype Segment = Lit(text: string) | Param

  /** `auth.jwt`, `auth.login`, `admin` and `upload`. */
  datatype Guard = Jwt | Login | AdminGate | Upload

  /** Every handler the controllers export, routed or not. */
  datatype Handler =
    | ProductsCreate | ProductsGetAll | ProductsEdit | ProductsGet | ProductsGetId
    | AppointmentsCreate | AppointmentsGetAll | AppointmentsEdit | AppointmentsGet
    | AppointmentsByDate | AppointmentsGetId
    | UsersCreate | UsersLogin | UsersLogout | UsersExtend | UsersProfile | UsersEditCart | UsersGetCart

  datatype Route = Route(verb: Method, pattern: seq<Segment>, guards: seq<Guard>, handler: Handler)

  const ProductRoutes: seq<Route> := [
    Route(POST, [], [Jwt, AdminGate, Upload], ProductsCreate),
    Route(GET, [Lit("all")], [Jwt, AdminGate], ProductsGetAll),
    Route(PATCH, [Param], [Jwt, AdminGate, Upload], ProductsEdit),
    Route(GET, [], [], ProductsGet),
    Route(GET, [Param], [], ProductsGetId)
  ]

  const AppointmentRoutes: seq<Route> := [
    Route(POST, [], [Jwt, AdminGate], AppointmentsCreate),
    Route(GET, [Lit("all")], [Jwt, AdminGate], AppointmentsGetAll),
    Route(PATCH, [Param], [Jwt, AdminGate], AppointmentsEdit),
    Route(GET, [], [], AppointmentsGet),
    Route(GET, [Lit("date")], [], AppointmentsByDate)
  ]

  const UserRoutes: seq<Route> := [
    Route(POST, [], [], UsersCreate),
    Route(POST, [Lit("login")], [Login], UsersLogin),
    Route(DELETE, [Lit("logout")], [Jwt], UsersLogout),
    Route(PATCH, [Lit("extend")], [Jwt], UsersExtend),
    Route(GET, [Lit("me")], [Jwt], UsersProfile),
    Route(PATCH, [Lit("cart")], [Jwt], UsersEditCart),
    Route(GET, [Lit("cart")], [Jwt], UsersGetCart)
  ]

  /** The mount points, in the order the application registers them. */
  const Mounts: seq<(string, seq<Route>)> :=
    [("users", UserRoutes), ("products", ProductRoutes), ("appointments", AppointmentRoutes)]

  // ------------------------------------------------------------- matching

  /** A `get` route also answers `HEAD`. */
  predicate MethodMatches(routeMethod: Method, m: Method)
  {
    routeMethod == m || (routeMethod == GET && m == HEAD)
  }

  /** Literal segments compare ignoring letter case; a parameter takes
      one non-empty segment. */
  predicate SegmentMatches(s: Segment, text: string)
  {
    match s
    case Lit(t) => SameIgnoringAsciiCase(text, t)
    case Param => |text| > 0
  }

  /** Matching is not strict: one trailing slash (a final empty segment)
      is ignored. */
  function Trimmed(rest: seq<string>): (r: seq<string>)
    ensures |r| <= |rest| && r == rest[..|r|]
  {
    if |rest| > 0 && rest[|rest| - 1] == "" then rest[..|rest| - 1] else rest
  }

  predicate PatternMatches(pattern: seq<Segment>, rest: seq<string>)
  {
    var r := Trimmed(rest);
    |r| == |pattern| && forall i :: 0 <= i < |r| ==> SegmentMatches(pattern[i], r[i])
  }

  predicate RouteMatches(route: Route, m: Method, rest: seq<string>)
  {
    MethodMatches(route.verb, m) && PatternMatches(route.pattern, rest)
  }

  /** Index of the first route of `table` that matches: the router tries
      routes in registration order. */
  function Dispatch(table: seq<Route>, m: Method, rest: seq<string>): (r: Option<nat>)
    ensures r.Some? ==> r.value < |table| && RouteMatches(table[r.value], m, rest)
                        && forall j :: 0 <= j < r.value ==> !RouteMatches(table[j], m, rest)
    ensures r.None? <==> forall j :: 0 <= j < |table| ==> !RouteMatches(table[j], m, rest)
  {
    if |table| == 0 then None
    else if RouteMatches(table[0], m, rest) then Some(0)
    else match Dispatch(table[1..], m, rest)
      case None => None
      case Some(k) => Some(k + 1)
  }

  /** The route a request path (split at '/') reaches: the first mount
      whose name matches the first segment and whose router has a match
      for the remaining segments, and within it the first matching route.
      No route is reached exactly when no mount with a matching name has a
      matching route. */
  function Resolve(m: Method, segments: seq<string>): (r: Option<Route>)
    ensures r.Some? ==> |segments| > 0
                        && exists i :: 0 <= i < |Mounts| && SameIgnoringAsciiCase(segments[0], Mounts[i].0)
                                       && r.value in Mounts[i].1 && RouteMatches(r.value, m, segments[1..])
    ensures r.None? <==> |segments| == 0
                         || forall i :: 0 <= i < |Mounts| && SameIgnoringAsciiCase(segments[0], Mounts[i].0)
                                        ==> Dispatch(Mounts[i].1, m, segments[1..]).None?
    ensures r.Some? ==> exists i :: 0 <= i < |Mounts| && SameIgnoringAsciiCase(segments[0], Mounts[i].0)
                                    && Dispatch(Mounts[i].1, m, segments[1..]).Some?
                                    && r.value == Mounts[i].1[Dispatch(Mounts[i].1, m, segments[1..]).value]
                                    && forall j :: 0 <= j < i && SameIgnoringAsciiCase(segments[0], Mounts[j].0)
                                                   ==> Dispatch(Mounts[j].1, m, segments[1..]).None?
  {
    if |segments| == 0 then None
    else ResolveFrom(0, m, segments)
  }

  function ResolveFrom(i: nat, m: Method, segments: seq<string>): (r: Option<Route>)
    requires |segments| > 0
    ensures r.None? <==> forall k :: i <= k < |Mounts| && SameIgnoringAsciiCase(segments[0], Mounts[k].0)
                                     ==> Dispatch(Mounts[k].1, m, segments[1..]).None?
    ensures r.Some? ==> exists k :: i <= k < |Mounts| && SameIgnoringAsciiCase(segments[0], Mounts[k].0)
                                    && Dispatch(Mounts[k].1, m, segments[1..]).Some?
                                    && r.value == Mounts[k].1[Dispatch(Mounts[k].1, m, segments[1..]).value]
                                    && forall j :: i <= j < k && SameIgnoringAsciiCase(segments[0], Mounts[j].0)
                                                   ==> Dispatch(Mounts[j].1, m, segments[1..]).None?
    decreases |Mounts| - i
  {
    if i >= |Mounts| then None
    else if SameIgnoringAsciiCase(segments[0], Mounts[i].0) && Dispatch(Mounts[i].1, m, segments[1..]).Some? then
      Some(Mounts[i].1[Dispatch(Mounts[i].1, m, segments[1..]).value])
    else ResolveFrom(i + 1, m, segments)
  }

  /** The text `req.baseUrl + req.path` of a request whose path splits into
      `segments` (each written as the request wrote it). */
  function PathText(segments: seq<string>): (r: string)
    ensures |segments| == 0 <==> r == ""
    ensures |segments| > 0 ==> r[0] == '/'
  {
    if |segments| == 0 then "" else "/" + segments[0] + PathText(segments[1..])
  }

  /** The segments of a path contain no '/'. */
  ghost predicate SlashFree(segments: seq<string>)
  {
    forall i, k :: 0 <= i < |segments| && 0 <= k < |segments[i]| ==> segments[i][k] != '/'
  }

  // ----------------------------------------------------------- guard runs

  /** How a chain of guards ends: every guard called `next()`, or the guard
      at `at` answered. */
  datatype ChainEnd = Reached | Stopped(at: nat, response: Response<()>)

  /** Guards run in order; the first one that answers ends the chain, and
      nothing after it runs. */
  function RunChain(guards: seq<Guard>, verdict: Guard -> Verdict): (r: ChainEnd)
    ensures r.Reached? <==> forall i :: 0 <= i < |guards| ==> verdict(guards[i]) == Next
    ensures r.Stopped? ==> r.at < |guards| && verdict(guards[r.at]) == Deny(r.response)
                           && forall i :: 0 <= i < r.at ==> verdict(guards[i]) == Next
  {
    if |guards| == 0 then Reached
    else match verdict(guards[0])
      case Deny(response) => Stopped(0, response)
      case Next =>
        match RunChain(guards[1..], verdict)
        case Reached => Reached
        case Stopped(at, response) => Stopped(at + 1, response)
  }


  // ------------------------------------------------------------ properties

  /** `PathText` loses nothing: slash-free segments are recovered from the
      text. */
  lemma {:induction false} PathTextInjective(a: seq<string>, b: seq<string>)
    requires SlashFree(a) && SlashFree(b) && PathText(a) == PathText(b)
    ensures a == b
    decreases |a|
  {
    if |a| == 0 || |b| == 0 {
    } else {
      var ra := PathText(a[1..]);
      var rb := PathText(b[1..]);
      assert "/" + a[0] + ra == "/" + b[0] + rb;
      assert a[0] + ra == ("/" + a[0] + ra)[1..];
      assert b[0] + rb == ("/" + b[0] + rb)[1..];
      assert forall k :: 0 <= k < |a[0]| ==> a[0][k] != '/';
      assert forall k :: 0 <= k < |b[0]| ==> b[0][k] != '/';
      SplitAtFirstSlash(a[0], ra, b[0], rb);
      PathTextInjective(a[1..], b[1..]);
      assert a == [a[0]] + a[1..];
      assert b == [b[0]] + b[1..];
    }
  }

  /** The guard chain each handler is registered behind, stated per
      handler rather than per table row. */
  function ChainOf(h: Handler): seq<Guard>
  {
    match h
    case ProductsCreate => [Jwt, AdminGate, Upload]
    case ProductsEdit => [Jwt, AdminGate, Upload]
    case ProductsGetAll => [Jwt, AdminGate]
    case AppointmentsCreate => [Jwt, AdminGate]
    case AppointmentsGetAll => [Jwt, AdminGate]
    case AppointmentsEdit => [Jwt, AdminGate]
    case UsersLogin => [Login]
    case UsersLogout => [Jwt]
    case UsersExtend => [Jwt]
    case UsersProfile => [Jwt]
    case UsersEditCart => [Jwt]
    case UsersGetCart => [Jwt]
    case _ => []
  }

  /** Whatever request reaches a handler, it passes exactly the chain
      registered for that handler, in that order. */
  lemma {:induction false} ResolvedChainIsRegistered(m: Method, segments: seq<string>)
    requires Resolve(m, segments).Some?
    ensures Resolve(m, segments).value.guards == ChainOf(Resolve(m, segments).value.handler)
  {
    ResolvedRouteIsRegistered(m, segments);
    RegisteredChains(Resolve(m, segments).value);
  }

  /** Row by row: every route carries the chain of its handler, no route
      leads to the time-slot lookup, and the time-slot router leads only
      to the five time-slot handlers it registers. */
  lemma TableRow(table: seq<Route>, k: nat)
    requires table == UserRoutes || table == ProductRoutes || table == AppointmentRoutes
    requires k < |table|
    ensures table[k].guards == ChainOf(table[k].handler)
    ensures table[k].handler != AppointmentsGetId
    ensures table == AppointmentRoutes ==>
              table[k].handler in {AppointmentsCreate, AppointmentsEdit, AppointmentsGetAll, AppointmentsGet, AppointmentsByDate}
  {
    if table == UserRoutes {
      UserTableRow(k);
    } else if table == ProductRoutes {
      ProductTableRow(k);
    } else {
      AppointmentTableRow(k);
    }
  }

  lemma UserTableRow(k: nat)
    requires k < |UserRoutes|
    ensures UserRoutes[k].guards == ChainOf(UserRoutes[k].handler)
    ensures UserRoutes[k].handler != AppointmentsGetId
  {
    if k == 0 {} else if k == 1 {} else if k == 2 {} else if k == 3 {} else if k == 4 {} else if k == 5 {} else {}
  }

  lemma ProductTableRow(k: nat)
    requires k < |ProductRoutes|
    ensures ProductRoutes[k].guards == ChainOf(ProductRoutes[k].handler)
    ensures ProductRoutes[k].handler != AppointmentsGetId
  {
    if k == 0 {} else if k == 1 {} else if k == 2 {} else if k == 3 {} else {}
  }

  lemma AppointmentTableRow(k: nat)
    requires k < |AppointmentRoutes|
    ensures AppointmentRoutes[k].guards == ChainOf(AppointmentRoutes[k].handler)
    ensures AppointmentRoutes[k].handler
              in {AppointmentsCreate, AppointmentsEdit, AppointmentsGetAll, AppointmentsGet, AppointmentsByDate}
  {
    if k == 0 {} else if k == 1 {} else if k == 2 {} else if k == 3 {} else {}
  }

  /** What every registered route satisfies. */
  lemma RegisteredChains(r: Route)
    requires r in UserRoutes || r in ProductRoutes || r in AppointmentRoutes
    ensures r.guards == ChainOf(r.handler)
    ensures r.handler != AppointmentsGetId
    ensures r in AppointmentRoutes ==>
              r.handler in {AppointmentsCreate, AppointmentsEdit, AppointmentsGetAll, AppointmentsGet, AppointmentsByDate}
  {
    if r in AppointmentRoutes {
      var k :| 0 <= k < |AppointmentRoutes| && AppointmentRoutes[k] == r;
      TableRow(AppointmentRoutes, k);
    } else if r in UserRoutes {
      var k :| 0 <= k < |UserRoutes| && UserRoutes[k] == r;
      TableRow(UserRoutes, k);
    } else {
      var k :| 0 <= k < |ProductRoutes| && ProductRoutes[k] == r;
      TableRow(ProductRoutes, k);
    }
  }

  /** The public reads of the product and time-slot routers. */
  const PublicReads: set<Handler> := {ProductsGet, ProductsGetId, AppointmentsGet, AppointmentsByDate}

  /** Row by row: a product or time-slot route that is not a public read
      starts with the token check and then the administrator gate, and
      every public read answers `GET`. */
  lemma GatedRow(table: seq<Route>, k: nat)
    requires table == ProductRoutes || table == AppointmentRoutes
    requires k < |table|
    ensures var r := table[k];
      && (r.handler !in PublicReads ==> |r.guards| >= 2 && r.guards[0] == Jwt && r.guards[1] == AdminGate)
      && (r.verb != GET ==> r.handler !in PublicReads)
  {
    if table == ProductRoutes {
      if k == 0 {} else if k == 1 {} else if k == 2 {} else if k == 3 {} else {}
    } else {
      if k == 0 {} else if k == 1 {} else if k == 2 {} else if k == 3 {} else {}
    }
  }

  /** Every product or time-slot route that is not a public read is
      guarded by authentication and then the administrator gate, before any
      upload and before the handler; a request with a method other than
      `GET` or `HEAD` always meets the gate. */
  lemma {:induction false} WritesAreAdminGated(table: seq<Route>, m: Method, rest: seq<string>)
    requires table == ProductRoutes || table == AppointmentRoutes
    requires Dispatch(table, m, rest).Some?
    ensures var r := table[Dispatch(table, m, rest).value];
      r.handler !in PublicReads ==> |r.guards| >= 2 && r.guards[0] == Jwt && r.guards[1] == AdminGate
    ensures var r := table[Dispatch(table, m, rest).value];
      m !in {GET, HEAD} ==> |r.guards| >= 2 && r.guards[0] == Jwt && r.guards[1] == AdminGate
  {
    var k := Dispatch(table, m, rest).value;
    GatedRow(table, k);
  }

  /** `/all` is registered before `/:id`: a read of `/products/all`, in
      any letter case and with or without a trailing slash, reaches the
      administrator list and never the lookup by id; any other single
      segment reaches the lookup. */
  lemma AllIsNeverAnId(m: Method, rest: seq<string>)
    requires m in {GET, HEAD}
    requires |Trimmed(rest)| == 1 && |Trimmed(rest)[0]| > 0
    ensures SameIgnoringAsciiCase(Trimmed(rest)[0], "all") ==>
              Dispatch(ProductRoutes, m, rest) == Some(1) && ProductRoutes[1].handler == ProductsGetAll
    ensures !SameIgnoringAsciiCase(Trimmed(rest)[0], "all") ==>
              Dispatch(ProductRoutes, m, rest) == Some(4) && ProductRoutes[4].handler == ProductsGetId
  {
    var w := Trimmed(rest)[0];
    assert Trimmed(rest) == [w];
    OneSegmentMatch(ProductRoutes[0], m, rest, w);
    OneSegmentMatch(ProductRoutes[1], m, rest, w);
    OneSegmentMatch(ProductRoutes[3], m, rest, w);
    assert !MethodMatches(ProductRoutes[2].verb, m);
    assert PatternMatches(ProductRoutes[4].pattern, rest);
    if SameIgnoringAsciiCase(w, "all") {
      DispatchFirst(ProductRoutes, m, rest, 1);
    } else {
      DispatchFirst(ProductRoutes, m, rest, 4);
    }
  }

  /** The time-slot lookup by id is exported but never routed: no request
      reaches it, and the only time-slot handlers a request can reach are
      create, edit, the two lists and the by-date query. */
  lemma AppointmentLookupUnreachable(m: Method, segments: seq<string>)
    requires Resolve(m, segments).Some?
    ensures Resolve(m, segments).value.handler != AppointmentsGetId
    ensures Resolve(m, segments).value in AppointmentRoutes ==>
              Resolve(m, segments).value.handler
                in {AppointmentsCreate, AppointmentsEdit, AppointmentsGetAll, AppointmentsGet, AppointmentsByDate}
  {
    ResolvedRouteIsRegistered(m, segments);
    RegisteredChains(Resolve(m, segments).value);
  }

  /** No user route uses the administrator gate; registration is open,
      login runs only the credential check, and every other user route
      runs only the token check. */
  lemma UserRouteGuards(m: Method, rest: seq<string>)
    requires Dispatch(UserRoutes, m, rest).Some?
    ensures var r := UserRoutes[Dispatch(UserRoutes, m, rest).value];
      && AdminGate !in r.guards
      && (r.handler == UsersCreate <==> r.guards == [])
      && (r.handler == UsersLogin <==> r.guards == [Login])
      && (r.handler !in {UsersCreate, UsersLogin} <==> r.guards == [Jwt])
  {
    var k := Dispatch(UserRoutes, m, rest).value;
    UserRow(k);
  }

  lemma UserRow(k: nat)
    requires k < |UserRoutes|
    ensures var r := UserRoutes[k];
      && AdminGate !in r.guards
      && (r.handler == UsersCreate <==> r.guards == [])
      && (r.handler == UsersLogin <==> r.guards == [Login])
      && (r.handler !in {UsersCreate, UsersLogin} <==> r.guards == [Jwt])
  {
    if k == 0 {} else if k == 1 {} else if k == 2 {} else if k == 3 {} else if k == 4 {} else if k == 5 {} else {}
  }

  /** The handlers only an administrator may reach. */
  const AdministrationHandlers: set<Handler> :=
    {ProductsCreate, ProductsGetAll, ProductsEdit, AppointmentsCreate, AppointmentsGetAll, AppointmentsEdit}

  /** A resolved route comes from one of the three routers. */
  lemma {:induction false} ResolvedRouteIsRegistered(m: Method, segments: seq<string>)
    requires Resolve(m, segments).Some?
    ensures var r := Resolve(m, segments).value;
      r in UserRoutes || r in ProductRoutes || r in AppointmentRoutes
  {
    var r := Resolve(m, segments).value;
    var i :| 0 <= i < |Mounts| && SameIgnoringAsciiCase(segments[0], Mounts[i].0)
             && r in Mounts[i].1 && RouteMatches(r, m, segments[1..]);
    if i == 0 {
      assert Mounts[0].1 == UserRoutes;
    } else if i == 1 {
      assert Mounts[1].1 == ProductRoutes;
    } else {
      assert Mounts[2].1 == AppointmentRoutes;
    }
  }

  /** Every registered route of an administration handler starts with the
      token check and then the administrator gate. */
  lemma AdministrationRoutesGated(r: Route)
    requires r in UserRoutes || r in ProductRoutes || r in AppointmentRoutes
    requires r.handler in AdministrationHandlers
    ensures |r.guards| >= 2 && r.guards[0] == Jwt && r.guards[1] == AdminGate
  {
    RegisteredChains(r);
    AdministrationChains(r.handler);
  }

  lemma AdministrationChains(h: Handler)
    requires h in AdministrationHandlers
    ensures var g := ChainOf(h); |g| >= 2 && g[0] == Jwt && g[1] == AdminGate
  {
  }

  /** Under a path starting with `users` (in any letter case) only the
      user router is consulted: the other mount names differ in length. */
  lemma ResolveUnderUsers(m: Method, segments: seq<string>)
    requires |segments| > 0 && SameIgnoringAsciiCase(segments[0], "users")
    ensures Resolve(m, segments) == match Dispatch(UserRoutes, m, segments[1..])
                                      case None => None
                                      case Some(k) => Some(UserRoutes[k])
  {
    assert Mounts[0].0 == "users";
    assert |Mounts[1].0| == 8 && |Mounts[2].0| == 12;
  }

  /** Matching a route against a one-segment path comes down to the
      method and the segment's text. */
  lemma OneSegmentMatch(r: Route, m: Method, rest: seq<string>, w: string)
    requires Trimmed(rest) == [w]
    ensures |r.pattern| != 1 ==> !RouteMatches(r, m, rest)
    ensures |r.pattern| == 1 && r.pattern[0].Lit? ==>
              (RouteMatches(r, m, rest) <==> MethodMatches(r.verb, m) && SameIgnoringAsciiCase(w, r.pattern[0].text))
  {
    var t := Trimmed(rest);
    assert t[0] == w;
  }

  /** `Dispatch` picks the first matching route. */
  lemma DispatchFirst(table: seq<Route>, m: Method, rest: seq<string>, k: nat)
    requires k < |table| && RouteMatches(table[k], m, rest)
    requires forall j :: 0 <= j < k ==> !RouteMatches(table[j], m, rest)
    ensures Dispatch(table, m, rest) == Some(k)
  {
    var r := Dispatch(table, m, rest);
    assert r.Some?;
    assert !(r.value < k) && !(r.value > k);
  }

  /** A one-segment path misses a literal route whose text differs from
      the segment at some position, whatever the letter case. */
  lemma LiteralMismatch(r: Route, m: Method, rest: seq<string>, w: string, k: nat)
    requires Trimmed(rest) == [w]
    requires |r.pattern| == 1 && r.pattern[0].Lit?
    requires k < |w| && k < |r.pattern[0].text| && AsciiLower(w[k]) != AsciiLower(r.pattern[0].text[k])
    ensures !RouteMatches(r, m, rest)
  {
    OneSegmentMatch(r, m, rest, w);
  }

  /** A one-segment path matches a literal route of the same text exactly
      when the method does. */
  lemma LiteralMatch(r: Route, m: Method, rest: seq<string>, w: string)
    requires Trimmed(rest) == [w]
    requires r.pattern == [Lit(w)]
    ensures RouteMatches(r, m, rest) <==> MethodMatches(r.verb, m)
  {
    OneSegmentMatch(r, m, rest, w);
    assert SameIgnoringAsciiCase(w, w);
  }

  /** `Dispatch` finds nothing when no route matches. */
  lemma DispatchNone(table: seq<Route>, m: Method, rest: seq<string>)
    requires forall j :: 0 <= j < |table| ==> !RouteMatches(table[j], m, rest)
    ensures Dispatch(table, m, rest) == None
  {
  }

  /** `/logout` and `/extend` (with or without a trailing slash) are
      answered only by their own routes, for their own method. */
  lemma DispatchLogout(m: Method, rest: seq<string>)
    requires Trimmed(rest) == ["logout"]
    ensures Dispatch(UserRoutes, m, rest) == if m == DELETE then Some(2) else None
  {
    var w := "logout";
    LiteralMatch(UserRoutes[2], m, rest, w);
    forall j | 0 <= j < |UserRoutes| && j != 2
      ensures !RouteMatches(UserRoutes[j], m, rest)
    {
      if j == 0 {
        OneSegmentMatch(UserRoutes[0], m, rest, w);
      } else if j == 1 {
        LiteralMismatch(UserRoutes[1], m, rest, w, 3);
      } else if j == 3 {
        LiteralMismatch(UserRoutes[3], m, rest, w, 0);
      } else if j == 4 {
        LiteralMismatch(UserRoutes[4], m, rest, w, 0);
      } else if j == 5 {
        LiteralMismatch(UserRoutes[5], m, rest, w, 0);
      } else {
        LiteralMismatch(UserRoutes[6], m, rest, w, 0);
      }
    }
    if m == DELETE {
      DispatchFirst(UserRoutes, m, rest, 2);
    } else {
      DispatchNone(UserRoutes, m, rest);
    }
  }

  lemma DispatchExtend(m: Method, rest: seq<string>)
    requires Trimmed(rest) == ["extend"]
    ensures Dispatch(UserRoutes, m, rest) == if m == PATCH then Some(3) else None
  {
    var w := "extend";
    LiteralMatch(UserRoutes[3], m, rest, w);
    forall j | 0 <= j < |UserRoutes| && j != 3
      ensures !RouteMatches(UserRoutes[j], m, rest)
    {
      if j == 0 {
        OneSegmentMatch(UserRoutes[0], m, rest, w);
      } else if j == 1 {
        LiteralMismatch(UserRoutes[1], m, rest, w, 0);
      } else if j == 2 {
        LiteralMismatch(UserRoutes[2], m, rest, w, 0);
      } else if j == 4 {
        LiteralMismatch(UserRoutes[4], m, rest, w, 0);
      } else if j == 5 {
        LiteralMismatch(UserRoutes[5], m, rest, w, 0);
      } else {
        LiteralMismatch(UserRoutes[6], m, rest, w, 0);
      }
    }
    if m == PATCH {
      DispatchFirst(UserRoutes, m, rest, 3);
    } else {
      DispatchNone(UserRoutes, m, rest);
    }
  }

  /** `n` is the position of the first '/' of `s`, or `|s|` when there is
      none. */
  predicate FirstSlashAt(s: string, n: nat)
  {
    n <= |s| && (forall k :: 0 <= k < n ==> s[k] != '/') && (n < |s| ==> s[n] == '/')
  }

  lemma FirstSlashUnique(s: string, n: nat, m: nat)
    requires FirstSlashAt(s, n) && FirstSlashAt(s, m)
    ensures n == m
  {
  }

  lemma SegmentEndsAtSlash(x: string, rx: string)
    requires forall k :: 0 <= k < |x| ==> x[k] != '/'
    requires rx == "" || rx[0] == '/'
    ensures FirstSlashAt(x + rx, |x|)
  {
    if rx != "" {
      assert (x + rx)[|x|] == rx[0];
    }
  }

  lemma SplitAtFirstSlash(x: string, rx: string, y: string, ry: string)
    requires forall k :: 0 <= k < |x| ==> x[k] != '/'
    requires forall k :: 0 <= k < |y| ==> y[k] != '/'
    requires rx == "" || rx[0] == '/'
    requires ry == "" || ry[0] == '/'
    requires x + rx == y + ry
    ensures x == y && rx == ry
  {
    SegmentEndsAtSlash(x, rx);
    SegmentEndsAtSlash(y, ry);
    FirstSlashUnique(x + rx, |x|, |y|);
    assert x == (x + rx)[..|x|];
    assert y == (y + ry)[..|y|];
    assert rx == (x + rx)[|x|..];
    assert ry == (y + ry)[|y|..];
  }
}

=== FILE: sorting.dfy ===
/** Ordering of query results by an integer key: an insertion sort,
    proved to return a permutation of its input in key order. Records
    with equal keys stay in collection order; MongoDB promises no order
    among them, so that tie order is a choice of this model. */
module Sorting {

  ghost predicate SortedBy<T>(s: seq<T>, key: T -> int)
  {
    forall i, j :: 0 <= i < j < |s| ==> key(s[i]) <= key(s[j])
  }

  /** `x` placed before the first element whose key is not smaller. */
  function Insert<T>(x: T, s: seq<T>, key: T -> int): (r: seq<T>)
    requires SortedBy(s, key)
    ensures |r| == |s| + 1
    ensures SortedBy(r, key)
    ensures multiset(r) == multiset(s) + multiset{x}
    ensures r[0] == x || (|s| > 0 && r[0] == s[0])
  {
    if |s| == 0 then [x]
    else if key(x) <= key(s[0]) then [x] + s
    else
      var rest := Insert(x, s[1..], key);
      assert s == [s[0]] + s[1..];
      assert key(s[0]) <= key(rest[0]);
      assert forall j :: 0 <= j < |rest| ==> key(rest[0]) <= key(rest[j]);
      [s[0]] + rest
  }

  /** The elements of `s` in ascending key order, equal keys in their
      original order. */
  function SortBy<T>(s: seq<T>, key: T -> int): (r: seq<T>)
    ensures |r| == |s|
    ensures SortedBy(r, key)
    ensures multiset(r) == multiset(s)
  {
    if |s| == 0 then []
    else
      assert s == [s[0]] + s[1..];
      Insert(s[0], SortBy(s[1..], key), key)
  }
}

=== FILE: store.dfy ===
/** The document store, reduced to what the handlers rely on: a
    collection is a sequence of documents in natural order, each with an
    id and the automatic `createdAt`/`updatedAt` timestamps; a store that
    cannot be reached makes every query throw. */
module Store {
  import opened Basics
  import opened JsText

  /** A stored document: schema `timestamps: true` adds the two dates. */
  datatype Doc<+T> = Doc(id: string, createdAt: int, updatedAt: int, body: T)

  /** A collection, or a store failure (connection loss and the like). */
  datatype Db<+T> = Reachable(docs: seq<Doc<T>>) | Unreachable

  /** Whether two ids name the same ObjectId. A query casts its id text to
      an ObjectId, which reads hexadecimal digits in either case, so two
      24-digit texts name the same ObjectId exactly when they agree up to
      letter case. */
  predicate SameId(a: string, b: string)
  {
    SameIgnoringAsciiCase(a, b)
  }

  /** Position of the first document whose id is the ObjectId `id` names
      (`findById`). */
  function FindIndex<T>(docs: seq<Doc<T>>, id: string): (r: Option<nat>)
    ensures r.Some? ==> r.value < |docs| && SameId(docs[r.value].id, id)
                        && forall j :: 0 <= j < r.value ==> !SameId(docs[j].id, id)
    ensures r.None? <==> forall j :: 0 <= j < |docs| ==> !SameId(docs[j].id, id)
  {
    if |docs| == 0 then None
    else if SameId(docs[0].id, id) then Some(0)
    else match FindIndex(docs[1..], id)
      case None => None
      case Some(k) => Some(k + 1)
  }

  /** `findByIdAndUpdate`: the addressed document receives `update` and a
      new `updatedAt`; every other document is left as it was. */
  function UpdateAt<T>(docs: seq<Doc<T>>, k: nat, update: T -> T, now: int): (r: seq<Doc<T>>)
    requires k < |docs|
    ensures |r| == |docs|
    ensures r[k] == docs[k].(body := update(docs[k].body), updatedAt := now)
    ensures forall j :: 0 <= j < |docs| && j != k ==> r[j] == docs[j]
  {
    docs[k := docs[k].(body := update(docs[k].body), updatedAt := now)]
  }
}

=== FILE: user_schema.dfy ===
/** The user schema: account and e-mail rules, the embedded cart with its
    derived `cartQuantity`, the role default, and the `pre('save')` hook
    that checks and hashes a changed password. */
module UserSchema {
  import opened Basics
  import opened JsText
  import opened Validation

  /** Numeric roles: 0 for a customer, 1 for an administrator. */
  const USER: int := 0
  const ADMIN: int := 1

  datatype CartItem = CartItem(product: string, quantity: int)

  /** A stored user; `role` is `None` when the document holds no role. */
  datatype User = User(account: string, email: string, password: string, tokens: seq<string>,
                       cart: seq<CartItem>, role: Option<int>)

  /** A registration body. */
  datatype UserBody = UserBody(account: Field<string>, email: Field<string>,
                               password: Field<string>, role: Field<int>)

  const ACCOUNT_CHARSET_ERROR: string := "使用者帳號只能是英文和數字"
  const EMAIL_ERROR: string := "信箱格式不正確"
  const PASSWORD_LENGTH_ERROR: string := "密碼長度最少 4 個字，最多 12 個字"

  // ------------------------------------------------------------------ cart

  /** The `cartQuantity` virtual: `cart.reduce((t, c) => t + c.quantity, 0)`. */
  function CartQuantity(cart: seq<CartItem>): (r: int)
    ensures (forall i :: 0 <= i < |cart| ==> cart[i].quantity >= 0) ==> r >= 0
    ensures (forall i :: 0 <= i < |cart| ==> cart[i].quantity == 0) ==> r == 0
  {
    if |cart| == 0 then 0 else CartQuantity(cart[..|cart| - 1]) + cart[|cart| - 1].quantity
  }

  /** The quantity of a cart split in two is the sum of the parts'. */
  lemma {:induction false} CartQuantityAppend(a: seq<CartItem>, b: seq<CartItem>)
    ensures CartQuantity(a + b) == CartQuantity(a) + CartQuantity(b)
    decreases |b|
  {
    if |b| == 0 {
      assert a + b == a;
    } else {
      assert (a + b)[..|a + b| - 1] == a + b[..|b| - 1];
      CartQuantityAppend(a, b[..|b| - 1]);
    }
  }

  /** A cart whose quantities are all at least one has a quantity no
      smaller than its number of lines. */
  lemma {:induction false} CartQuantityAtLeastLines(cart: seq<CartItem>)
    requires forall i :: 0 <= i < |cart| ==> cart[i].quantity >= 1
    ensures CartQuantity(cart) >= |cart|
  {
    if |cart| > 0 {
      CartQuantityAtLeastLines(cart[..|cart| - 1]);
    }
  }

  /** The reduction, left to right as `Array.prototype.reduce` runs it. */
  method SumQuantities(cart: seq<CartItem>) returns (total: int)
    ensures total == CartQuantity(cart)
  {
    total := 0;
    var i := 0;
    while i < |cart|
      invariant 0 <= i <= |cart|
      invariant total == CartQuantity(cart[..i])
    {
      assert cart[..i + 1][..i] == cart[..i];
      total := total + cart[i].quantity;
      i := i + 1;
    }
    assert cart[..|cart|] == cart;
  }

  // ------------------------------------------------------------ validators

  /** The `account` validators in declaration order: required, minimum
      length, maximum length, then the [0-9A-Za-z] test. */
  function AccountCheck(f: Field<string>): (r: Option<string>)
    ensures r.None? <==> f.Given? && AccountRule(f.value)
    ensures r.Some? ==> r.value in {"使用者帳號必填", "使用者帳號最少4個字", "使用者帳號最多12個字", ACCOUNT_CHARSET_ERROR}
    ensures f.Given? && 4 <= JsLength(f.value) <= 12 ==> (r.Some? ==> r.value == ACCOUNT_CHARSET_ERROR)
  {
    var required := RequiredString(f, "使用者帳號必填");
    if required.Some? then required
    else if JsLength(f.value) < 4 then Some("使用者帳號最少4個字")
    else if JsLength(f.value) > 12 then Some("使用者帳號最多12個字")
    else if !IsAlphanumeric(f.value) then Some(ACCOUNT_CHARSET_ERROR)
    else None
  }

  /** `isEmail` is the `validator` package's e-mail syntax check. */
  function EmailCheck(f: Field<string>, isEmail: string -> bool): (r: Option<string>)
    ensures r.None? <==> f.Given? && |f.value| > 0 && isEmail(f.value)
  {
    var required := RequiredString(f, "使用者信箱必填");
    if required.Some? then required
    else if !isEmail(f.value) then Some(EMAIL_ERROR)
    else None
  }

  /** The validated paths in schema order (role, tokens and cart carry no
      validator). */
  function Checks(b: UserBody, isEmail: string -> bool): seq<(string, Option<string>)>
  {
    [ ("account", AccountCheck(b.account)),
      ("email", EmailCheck(b.email, isEmail)),
      ("password", RequiredString(b.password, "使用者密碼必填")) ]
  }

  /** Where each validated path of a new user stands; none has a
      default. */
  function Origins(b: UserBody): seq<Origin>
  {
    [ OriginOf(b.account, false), OriginOf(b.email, false), OriginOf(b.password, false) ]
  }

  predicate AccountRule(account: string)
  {
    4 <= JsLength(account) <= 12 && IsAlphanumeric(account)
  }

  predicate PasswordLengthRule(password: string)
  {
    4 <= JsLength(password) <= 12
  }

  // ----------------------------------------------------------------- save

  /** The `pre('save')` hook. A changed password of 4 to 12 characters is
      replaced by its hash; a changed password of another length stops the
      save with a `password` error and nothing is hashed; an unchanged
      password is left as stored. */
  function PreSave(u: User, passwordModified: bool, hash: string -> string): (r: Result<User, ValidationError>)
    ensures !passwordModified ==> r == Ok(u)
    ensures passwordModified && !PasswordLengthRule(u.password) ==>
              r == Err(ValidationError([FieldError("password", PASSWORD_LENGTH_ERROR)]))
    ensures passwordModified && PasswordLengthRule(u.password) ==>
              r == Ok(u.(password := hash(u.password)))
    ensures r.Ok? ==> r.value.(password := u.password) == u
  {
    if passwordModified then
      if JsLength(u.password) < 4 || JsLength(u.password) > 12 then
        Err(ValidationError([FieldError("password", PASSWORD_LENGTH_ERROR)]))
      else
        Ok(u.(password := hash(u.password)))
    else
      Ok(u)
  }

  /** mongoose's `ValidationError` constructor takes the document being
      validated, not an options object: given `{ message }` it still sets
      its own message, 'Validation failed', and holds no path errors. */
  const VALIDATION_FAILED: string := "Validation failed"

  /** What `addError(path, e)` does with a `ValidationError` `e`; the
      mongoose release is not fixed by the model. `Nested` stores `e`
      itself at `path`; `Flattened` (recent releases) re-adds each of `e`'s
      own path errors under `path.<key>` and keeps nothing else. */
  datatype AddErrorStyle = Nested | Flattened

  /** The hook as written at models/users.js:82-86: the inner error added
      at `password` is built with that constructor, so it carries
      'Validation failed' and no path errors of its own. Kept nested, it is
      the one `password` entry; flattened, nothing at all is added. */
  function PreSaveAsWritten(u: User, passwordModified: bool, hash: string -> string,
                            style: AddErrorStyle): (r: Result<User, ValidationError>)
    ensures r.Ok? <==> PreSave(u, passwordModified, hash).Ok?
    ensures r.Ok? ==> r == PreSave(u, passwordModified, hash)
    ensures r.Err? && style == Nested ==> r.error == ValidationError([FieldError("password", VALIDATION_FAILED)])
    ensures r.Err? && style == Flattened ==> r.error == ValidationError([])
  {
    if passwordModified then
      if JsLength(u.password) < 4 || JsLength(u.password) > 12 then
        match style
        case Nested => Err(ValidationError([FieldError("password", VALIDATION_FAILED)]))
        case Flattened => Err(ValidationError([]))
      else
        Ok(u.(password := hash(u.password)))
    else
      Ok(u)
  }

  /** As written, a new password of the wrong length is never reported
      with the length message, whichever way `addError` behaves: nested,
      the one entry says 'Validation failed'; flattened, there is no entry
      at all. `PreSave` is the hook as evidently intended. */
  lemma LengthMessageLostAsWritten(u: User, hash: string -> string, style: AddErrorStyle)
    requires !PasswordLengthRule(u.password)
    ensures PreSaveAsWritten(u, true, hash, style).Err?
    ensures var errs := PreSaveAsWritten(u, true, hash, style).error.errors;
      forall i :: 0 <= i < |errs| ==> errs[i].message != PASSWORD_LENGTH_ERROR
    ensures style == Nested ==> FirstMessage(PreSaveAsWritten(u, true, hash, style).error.errors) == VALIDATION_FAILED
    ensures style == Flattened ==> PreSaveAsWritten(u, true, hash, style).error.errors == []
    ensures FirstMessage(PreSave(u, true, hash).error.errors) == PASSWORD_LENGTH_ERROR
  {
  }

  /** A concrete case: the three-character password 'abc'. */
  lemma ShortPasswordAsWritten(hash: string -> string)
    ensures var u := User("alice", "alice@example.com", "abc", [], [], Some(USER));
      && PreSaveAsWritten(u, true, hash, Nested) == Err(ValidationError([FieldError("password", VALIDATION_FAILED)]))
      && PreSaveAsWritten(u, true, hash, Flattened) == Err(ValidationError([]))
  {
    var u := User("alice", "alice@example.com", "abc", [], [], Some(USER));
    assert JsLength(u.password) == 3 by {
      JsLengthOfBmpText(u.password);
    }
  }

  /** A later save that does not touch the password (adding a token, say)
      keeps the stored hash: no second hashing. */
  lemma NoDoubleHashing(u: User, hash: string -> string, tokens: seq<string>)
    requires PreSave(u, true, hash).Ok?
    ensures var saved := PreSave(u, true, hash).value;
      PreSave(saved.(tokens := tokens), false, hash) == Ok(saved.(tokens := tokens))
      && saved.password == hash(u.password)
  {
  }

  /** Registration: the schema validators run first (mongoose validates
      before the user's `pre('save')` hooks), then the password hook, with
      the password counted as modified on a new document. The schema
      errors come in the order of `CreateOrder`. */
  function Register(b: UserBody, isEmail: string -> bool, hash: string -> string): (r: Result<User, ValidationError>)
    ensures r.Ok? <==> (&& b.account.Given? && AccountRule(b.account.value)
                        && b.email.Given? && |b.email.value| > 0 && isEmail(b.email.value)
                        && b.password.Given? && PasswordLengthRule(b.password.value))
    ensures r.Ok? ==> && r.value.account == b.account.value && r.value.email == b.email.value
                      && r.value.password == hash(b.password.value)
                      && r.value.tokens == [] && r.value.cart == [] && CartQuantity(r.value.cart) == 0
                      && (b.role.Missing? ==> r.value.role == Some(USER))
    ensures r.Err? ==> |r.error.errors| > 0
  {
    var cs := Checks(b, isEmail);
    if |Gather(cs)| > 0 then Err(ValidationError(CreateErrors(cs, Origins(b))))
    else
      assert cs[0].1.None? && cs[1].1.None? && cs[2].1.None?;
      var role := match b.role
        case Missing => Some(USER)
        case Null => None
        case Given(n) => Some(n);
      PreSave(User(b.account.value, b.email.value, b.password.value, [], [], role), true, hash)
  }

  /** A password that is too short or too long is reported with the length
      message once the schema validators pass, and nothing is stored. */
  lemma BadPasswordLengthMessage(b: UserBody, isEmail: string -> bool, hash: string -> string)
    requires b.account.Given? && AccountRule(b.account.value)
    requires b.email.Given? && |b.email.value| > 0 && isEmail(b.email.value)
    requires b.password.Given? && |b.password.value| > 0 && !PasswordLengthRule(b.password.value)
    ensures var r := Register(b, isEmail, hash);
      r.Err? && FirstMessage(r.error.errors) == PASSWORD_LENGTH_ERROR
  {
  }

  /** A new user missing some required path reports the missing path
      declared last, whatever else is wrong. */
  lemma LastMissingReportedFirst(b: UserBody, isEmail: string -> bool, hash: string -> string, k: nat)
    requires k < 3 && Origins(b)[k] == Unset
    requires forall j :: k < j < 3 ==> Origins(b)[j] != Unset
    ensures Checks(b, isEmail)[k].1.Some?
    ensures var r := Register(b, isEmail, hash);
      r.Err? && FirstMessage(r.error.errors) == Checks(b, isEmail)[k].1.value
  {
    FirstUnsetReported(Checks(b, isEmail), Origins(b), k);
  }

  /** A new user with all three paths present reports the first failing
      one in declaration order. */
  lemma FirstFailingReported(b: UserBody, isEmail: string -> bool, hash: string -> string, k: nat)
    requires b.account.Present() && b.email.Present() && b.password.Present()
    requires k < 3 && Checks(b, isEmail)[k].1.Some?
    requires forall j :: 0 <= j < k ==> Checks(b, isEmail)[j].1.None?
    ensures var r := Register(b, isEmail, hash);
      r.Err? && FirstMessage(r.error.errors) == Checks(b, isEmail)[k].1.value
  {
    FirstAssignedReported(Checks(b, isEmail), Origins(b), k);
  }

  /** Unset paths are reported last declared first: a body with a bad
      account and no e-mail is told that the e-mail is missing. */
  lemma MissingEmailReportedFirst(b: UserBody, isEmail: string -> bool, hash: string -> string)
    requires b.email.Missing? && b.password.Present()
    ensures var r := Register(b, isEmail, hash);
      r.Err? && FirstMessage(r.error.errors) == "使用者信箱必填"
  {
    LastMissingReportedFirst(b, isEmail, hash, 1);
  }

  /** An account of the right length with a character outside [0-9A-Za-z]
      is refused with the charset message when e-mail and password are
      present. */
  lemma AccountCharsetMessage(b: UserBody, isEmail: string -> bool, hash: string -> string)
    requires b.account.Given? && 4 <= JsLength(b.account.value) <= 12 && !IsAlphanumeric(b.account.value)
    requires b.email.Present() && b.password.Present()
    ensures var r := Register(b, isEmail, hash);
      r.Err? && FirstMessage(r.error.errors) == ACCOUNT_CHARSET_ERROR
  {
    FirstFailingReported(b, isEmail, hash, 0);
  }

  /** A malformed e-mail is refused with '信箱格式不正確' once the account
      passes and a password is present. */
  lemma EmailFormatMessage(b: UserBody, isEmail: string -> bool, hash: string -> string)
    requires b.account.Given? && AccountRule(b.account.value)
    requires b.email.Given? && |b.email.value| > 0 && !isEmail(b.email.value)
    requires b.password.Present()
    ensures var r := Register(b, isEmail, hash);
      r.Err? && FirstMessage(r.error.errors) == EMAIL_ERROR
  {
    FirstFailingReported(b, isEmail, hash, 1);
  }
}

=== FILE: validation.dfy ===
/** Schema validation as mongoose performs it, reduced to what the
    backend observes: each path runs its validators in declaration order
    (`required` first) and reports the first one that fails; a handler
    reports the message of the first path in the resulting
    `ValidationError`. Update validators visit the present paths in schema
    order; a new document visits its unset required paths first (see
    `CreateOrder`). */
module Validation {
  import opened Basics

  datatype FieldError = FieldError(path: string, message: string)

  /** A mongoose `ValidationError`: the failing paths, first one first. */
  datatype ValidationError = ValidationError(errors: seq<FieldError>)

  /** Whether a validation runs for a whole new document (`create`,
      `save`) or for the paths present in an update (`runValidators`). */
  datatype Mode = Create | Update

  /** Path check as run in `mode`: update validators skip the paths that
      are not part of the update. */
  function InScope<T>(mode: Mode, f: Field<T>, check: Option<string>): (r: Option<string>)
    ensures f.Present() ==> r == check
    ensures mode == Create ==> r == check
    ensures mode == Update && f.Missing? ==> r == None
  {
    if mode == Update && f.Missing? then None else check
  }

  /** A schema default, applied only when the key is missing. */
  function WithDefault<T>(f: Field<T>, default: T): (r: Field<T>)
    ensures !r.Missing?
    ensures f.Missing? ==> r == Given(default)
    ensures !f.Missing? ==> r == f
  {
    if f.Missing? then Given(default) else f
  }

  /** The value a path holds after `$set` of an update field. */
  function Assign<T>(f: Field<T>, current: T): T
  {
    if f.Given? then f.value else current
  }

  /** `required` on a String path: `undefined`, `null` and `''` fail. */
  function RequiredString(f: Field<string>, message: string): (r: Option<string>)
    ensures r.None? <==> f.Given? && |f.value| > 0
    ensures r.Some? ==> r.value == message
  {
    if f.Given? && |f.value| > 0 then None else Some(message)
  }

  /** `required` on a Number, Boolean, Date or array path: `undefined` and
      `null` fail (an empty array passes). */
  function Required<T>(f: Field<T>, message: string): (r: Option<string>)
    ensures r.None? <==> f.Given?
    ensures r.Some? ==> r.value == message
  {
    if f.Given? then None else Some(message)
  }

  /** The `ValidationError` gathered over the paths `(path, check)` in
      order: one entry per failing path. */
  function Gather(checks: seq<(string, Option<string>)>): (errs: seq<FieldError>)
    ensures |errs| <= |checks|
    ensures |errs| == 0 <==> forall i :: 0 <= i < |checks| ==> checks[i].1.None?
    ensures |errs| > 0 ==>
              (exists i :: 0 <= i < |checks| && checks[i].1.Some?
                             && errs[0] == FieldError(checks[i].0, checks[i].1.value)
                             && forall j :: 0 <= j < i ==> checks[j].1.None?)
  {
    if |checks| == 0 then []
    else
      var rest := Gather(checks[1..]);
      if checks[0].1.Some? then [FieldError(checks[0].0, checks[0].1.value)] + rest
      else
        assert forall i :: 1 <= i < |checks| ==> checks[1..][i - 1] == checks[i];
        rest
  }

  // -------------------------------------------- order on a new document

  /** Where a path of a new document stands when validation starts:
      required and never set (mongoose's 'require' state), set from the
      body ('modify'), filled by its default ('default'), or an element of
      an array path (`info.0`, ...), which is added after all the others. */
  datatype Origin = Unset | Assigned | Defaulted | Element

  /** A key present in the body, `null` included, is set; a missing one
      takes the schema default when there is one. */
  function OriginOf<T>(f: Field<T>, hasDefault: bool): (o: Origin)
    ensures o == Unset <==> f.Missing? && !hasDefault
    ensures o == Assigned <==> f.Present()
    ensures o != Element
  {
    if f.Present() then Assigned else if hasDefault then Defaulted else Unset
  }

  /** The unset paths, the last declared first: `requiredPaths()` lists
      the required paths with a backwards loop, and the new document marks
      them in that order. */
  function UnsetLastFirst(cs: seq<(string, Option<string>)>, os: seq<Origin>): seq<(string, Option<string>)>
    requires |os| == |cs|
  {
    if |cs| == 0 then []
    else (if os[|cs| - 1] == Unset then [cs[|cs| - 1]] else [])
         + UnsetLastFirst(cs[..|cs| - 1], os[..|os| - 1])
  }

  /** The paths of origin `o`, in schema order. */
  function Having(cs: seq<(string, Option<string>)>, os: seq<Origin>, o: Origin): seq<(string, Option<string>)>
    requires |os| == |cs|
  {
    if |cs| == 0 then []
    else (if os[0] == o then [cs[0]] else []) + Having(cs[1..], os[1..], o)
  }

  /** The order in which the paths `cs` (schema order, with origins `os`)
      of a new document are validated, hence the order of its
      `ValidationError`: the unset required paths, last declared first,
      then the paths the body sets, then the defaulted ones, then the array
      elements. Every path is validated, and nothing else. */
  function CreateOrder(cs: seq<(string, Option<string>)>, os: seq<Origin>): (r: seq<(string, Option<string>)>)
    requires |os| == |cs|
    ensures forall x :: x in r <==> x in cs
  {
    UnsetLastFirstMembers(cs, os);
    HavingMembers(cs, os, Assigned);
    HavingMembers(cs, os, Defaulted);
    HavingMembers(cs, os, Element);
    var r := UnsetLastFirst(cs, os) + Having(cs, os, Assigned) + Having(cs, os, Defaulted)
             + Having(cs, os, Element);
    assert forall i :: 0 <= i < |cs| ==> cs[i] in r by {
      forall i | 0 <= i < |cs|
        ensures cs[i] in r
      {
        if os[i] == Unset {
          assert cs[i] in UnsetLastFirst(cs, os);
        } else if os[i] == Assigned {
          assert cs[i] in Having(cs, os, Assigned);
        } else if os[i] == Defaulted {
          assert cs[i] in Having(cs, os, Defaulted);
        } else {
          assert cs[i] in Having(cs, os, Element);
        }
      }
    }
    r
  }

  lemma {:induction false} UnsetLastFirstMembers(cs: seq<(string, Option<string>)>, os: seq<Origin>)
    requires |os| == |cs|
    ensures forall x :: x in UnsetLastFirst(cs, os) <==>
                        exists i :: 0 <= i < |cs| && os[i] == Unset && cs[i] == x
  {
    if |cs| > 0 {
      var n := |cs| - 1;
      UnsetLastFirstMembers(cs[..n], os[..n]);
      forall x | exists i :: 0 <= i < |cs| && os[i] == Unset && cs[i] == x
        ensures x in UnsetLastFirst(cs, os)
      {
        var i :| 0 <= i < |cs| && os[i] == Unset && cs[i] == x;
        if i < n {
          assert os[..n][i] == Unset && cs[..n][i] == x;
        }
      }
    }
  }

  lemma {:induction false} HavingMembers(cs: seq<(string, Option<string>)>, os: seq<Origin>, o: Origin)
    requires |os| == |cs|
    ensures forall x :: x in Having(cs, os, o) <==> exists i :: 0 <= i < |cs| && os[i] == o && cs[i] == x
  {
    if |cs| > 0 {
      HavingMembers(cs[1..], os[1..], o);
      forall x | x in Having(cs, os, o)
        ensures exists i :: 0 <= i < |cs| && os[i] == o && cs[i] == x
      {
        if !(os[0] == o && x == cs[0]) {
          assert x in Having(cs[1..], os[1..], o);
          var i :| 0 <= i < |cs[1..]| && os[1..][i] == o && cs[1..][i] == x;
          assert os[i + 1] == o && cs[i + 1] == x;
        }
      }
      forall x | exists i :: 0 <= i < |cs| && os[i] == o && cs[i] == x
        ensures x in Having(cs, os, o)
      {
        var i :| 0 <= i < |cs| && os[i] == o && cs[i] == x;
        if i > 0 {
          assert os[1..][i - 1] == o && cs[1..][i - 1] == x;
        }
      }
    }
  }

  /** Reordering changes which message comes first, never whether the
      document is valid. */
  lemma CreateOrderVerdict(cs: seq<(string, Option<string>)>, os: seq<Origin>)
    requires |os| == |cs|
    ensures |Gather(CreateOrder(cs, os))| == 0 <==> |Gather(cs)| == 0
  {
    var r := CreateOrder(cs, os);
    if |Gather(cs)| == 0 {
      forall i | 0 <= i < |r|
        ensures r[i].1.None?
      {
        assert r[i] in cs;
      }
    }
    if |Gather(r)| == 0 {
      forall i | 0 <= i < |cs|
        ensures cs[i].1.None?
      {
        assert cs[i] in r;
      }
    }
  }

  /** The errors of a new document that fails some check, in the order
      its paths are validated. */
  function CreateErrors(cs: seq<(string, Option<string>)>, os: seq<Origin>): (errs: seq<FieldError>)
    requires |os| == |cs| && |Gather(cs)| > 0
    ensures |errs| > 0
  {
    CreateOrderVerdict(cs, os);
    Gather(CreateOrder(cs, os))
  }

  lemma {:induction false} UnsetLastFirstStartsAt(cs: seq<(string, Option<string>)>, os: seq<Origin>, k: nat)
    requires |os| == |cs| && k < |cs| && os[k] == Unset
    requires forall j :: k < j < |cs| ==> os[j] != Unset
    ensures UnsetLastFirst(cs, os) == [cs[k]] + UnsetLastFirst(cs[..k], os[..k])
  {
    var n := |cs| - 1;
    if n > k {
      UnsetLastFirstStartsAt(cs[..n], os[..n], k);
      assert cs[..n][..k] == cs[..k] && os[..n][..k] == os[..k];
    }
  }

  /** When some required path is unset, the last unset one in declaration
      order is reported, whatever else fails. */
  lemma FirstUnsetReported(cs: seq<(string, Option<string>)>, os: seq<Origin>, k: nat)
    requires |os| == |cs| && k < |cs| && os[k] == Unset && cs[k].1.Some?
    requires forall j :: k < j < |cs| ==> os[j] != Unset
    ensures |Gather(CreateOrder(cs, os))| > 0
    ensures FirstMessage(Gather(CreateOrder(cs, os))) == cs[k].1.value
  {
    UnsetLastFirstStartsAt(cs, os, k);
    var r := CreateOrder(cs, os);
    assert r[0] == cs[k];
    GatherFirst(r, 0);
  }

  lemma {:induction false} HavingSplit(cs: seq<(string, Option<string>)>, os: seq<Origin>, o: Origin, k: nat)
    requires |os| == |cs| && k < |cs| && os[k] == o
    ensures Having(cs, os, o) == Having(cs[..k], os[..k], o) + [cs[k]] + Having(cs[k + 1..], os[k + 1..], o)
  {
    if k > 0 {
      HavingSplit(cs[1..], os[1..], o, k - 1);
      assert cs[1..][..k - 1] == cs[..k][1..] && os[1..][..k - 1] == os[..k][1..];
      assert cs[1..][k..] == cs[k + 1..] && os[1..][k..] == os[k + 1..];
    }
  }

  lemma {:induction false} NothingUnset(cs: seq<(string, Option<string>)>, os: seq<Origin>)
    requires |os| == |cs|
    requires forall j :: 0 <= j < |cs| ==> os[j] != Unset
    ensures UnsetLastFirst(cs, os) == []
  {
    if |cs| > 0 {
      NothingUnset(cs[..|cs| - 1], os[..|os| - 1]);
    }
  }

  /** With no required path unset, the first failing path the body sets
      is reported, in declaration order. */
  lemma FirstAssignedReported(cs: seq<(string, Option<string>)>, os: seq<Origin>, k: nat)
    requires |os| == |cs| && k < |cs| && os[k] == Assigned && cs[k].1.Some?
    requires forall j :: 0 <= j < |cs| ==> os[j] != Unset
    requires forall j :: 0 <= j < k && os[j] == Assigned ==> cs[j].1.None?
    ensures |Gather(CreateOrder(cs, os))| > 0
    ensures FirstMessage(Gather(CreateOrder(cs, os))) == cs[k].1.value
  {
    NothingUnset(cs, os);
    HavingSplit(cs, os, Assigned, k);
    var before := Having(cs[..k], os[..k], Assigned);
    HavingMembers(cs[..k], os[..k], Assigned);
    var r := CreateOrder(cs, os);
    var after := Having(cs[k + 1..], os[k + 1..], Assigned) + Having(cs, os, Defaulted) + Having(cs, os, Element);
    assert r == before + [cs[k]] + after;
    forall j | 0 <= j < |before|
      ensures r[j].1.None?
    {
      assert r[j] == before[j] && before[j] in before;
      var i :| 0 <= i < k && os[..k][i] == Assigned && cs[..k][i] == before[j];
    }
    GatherFirst(r, |before|);
  }

  /** A path that is the only one to fail is reported, wherever the order
      puts it. */
  lemma OnlyFailureReported(cs: seq<(string, Option<string>)>, os: seq<Origin>, k: nat)
    requires |os| == |cs| && k < |cs| && cs[k].1.Some?
    requires forall j :: 0 <= j < |cs| && j != k ==> cs[j].1.None?
    ensures |Gather(CreateOrder(cs, os))| > 0
    ensures FirstMessage(Gather(CreateOrder(cs, os))) == cs[k].1.value
  {
    var r := CreateOrder(cs, os);
    assert cs[k] in r;
    var errs := Gather(r);
    var i :| 0 <= i < |r| && r[i].1.Some? && errs[0] == FieldError(r[i].0, r[i].1.value);
    assert r[i] in cs;
  }

  /** The message a handler reports: the first path's. */
  function FirstMessage(errs: seq<FieldError>): (m: string)
    requires |errs| > 0
  {
    errs[0].message
  }

  /** The message of the first failing path, when a prefix of the paths
      passes and the next one fails. */
  lemma {:induction false} GatherFirst(checks: seq<(string, Option<string>)>, k: nat)
    requires k < |checks| && checks[k].1.Some?
    requires forall j :: 0 <= j < k ==> checks[j].1.None?
    ensures |Gather(checks)| > 0 && FirstMessage(Gather(checks)) == checks[k].1.value
  {
    var errs := Gather(checks);
    var i :| 0 <= i < |checks| && checks[i].1.Some?
      && errs[0] == FieldError(checks[i].0, checks[i].1.value)
      && forall j :: 0 <= j < i ==> checks[j].1.None?;
    assert i == k;
  }

  /** mongoose's built-in message for an `enum` validator without its own
      message. */
  function DefaultEnumMessage(value: string, path: string): string
  {
    "`" + value + "` is not a valid enum value for path `" + path + "`."
  }
}
